=== FILE: README.md ===
# Pintos kernel core: file system, virtual memory, process loading, scheduler

A Dafny model of the core of a Pintos kernel (the teaching operating system
for 80x86). It covers these parts.

- The file system. `inode.c` lays out a file's sectors in three tiers: 12
  direct sectors, one single-indirect index sector of 128 entries, and one
  double-indirect index sector whose entries name further index sectors.
  Also modelled: the inode open list, read and write at an offset, the
  256-slot buffer cache ring (`cache.c`), directory entries (`directory.c`),
  and path resolution with create, open and remove (`filesys.c`).
- Virtual memory. This covers the swap slot table (`swap.c`) and the
  supplemental page table keyed by user page (`page.c`). It also covers the
  frame table and its index arithmetic (`frame.c`), and the page-fault
  handler (`exception.c`). The handler resolves a fault from a zero-fill,
  memory-mapped or swapped-out record, or grows the stack.
- Process loading (`process.c`). This covers command-line parsing, the ELF
  header and program-header checks, and the split of a PT_LOAD segment into
  pages read from the file and pages zero-filled lazily. It also covers the
  initial user stack that holds `argc` and `argv`.
- The scheduler (`thread.c`). This covers priority selection from the ready
  list and priority donation in `thread_set_priority`. It also covers the
  MLFQS priority, load and recent_cpu updates in fixed point, and the
  sleeping list counted down each tick.

Kernel state becomes immutable values, and each kernel function becomes a
pure function from the old state to the new one:

- the disk is a map from sector to 512-byte block;
- the free map is a list of free sectors;
- the open-inode list, the cache ring, the ready and sleeping lists are
  sequences;
- the page table is a map from address to `aux`.

C's 32-bit arithmetic is written out where it matters: `Wrap32` and
`ToSigned32` in `base.dfy`, and the frame index in `frame.dfy`. Dafny's `/`
by a positive divisor rounds down. C's truncating division agrees with it
on the non-negative operands where the source divides: the load update and
the decay factor. The source also shifts a possibly negative `recent_cpu`
right, in the MLFQS priority, the recent_cpu decay and the reported value
(thread.c:189, 203, 502, 530, 640). gcc's right shift of a negative `int`
is arithmetic and also rounds down, so `/` by the power of two matches it
there too. Locks, interrupts and the device drivers are left out, as listed
below.

Files, one module each: `base`, `tokens` (strtok_r), `disk`
(cached_read/cached_write and the free map), `blockmap` (tier arithmetic),
`inode`, `inode_table`, `inode_io`, `cache`, `directory`, `filesys`, `swap`,
`page`, `frame`, `process`, `segment`, `stack`, `page_fault`, `scheduler`.

## Model

| member | source | states |
|---|---|---|
| Base.ToSigned32 | src/userprog/process.c:357-362 | an unsigned 32-bit value stored in a signed `off_t` lies in the int32 range, agrees with it modulo 2^32, and is unchanged below 2^31 |
| Base.Wrap32 | src/userprog/exception.c:227 | the 32-bit result of C pointer arithmetic agrees with the exact value modulo 2^32 and equals it when it is in range |
| Base.DecodeEncodeWord | src/filesys/inode.c:32-42 | a word written as four little-endian bytes reads back as the same word |
| Base.EncodeDecodeWord | src/filesys/inode.c:32-42 | four bytes read as a word and written back are the same four bytes |
| Base.WordAtEncodeWords | src/filesys/inode.c:96-98 | entry k of a `block_sector_t` array copied into a sector buffer reads back as element k |
| Base.EncodeZeroWords | src/filesys/inode.c:163 | a zeroed (`calloc`) word array is a block of zero bytes |
| Tokens.RunLength | src/filesys/filesys.c:67-72 | the token length is that of the longest separator-free prefix: no separator before it, a separator or the end right after it |
| Tokens.Split | src/filesys/filesys.c:67-72 | the tokens `strtok_r` yields are non-empty and separator-free, and an empty string yields none |
| Tokens.SplitJoin | src/filesys/filesys.c:67-72 | tokens joined with one separator are split back into the same tokens |
| Tokens.LeadingSeparator | src/filesys/filesys.c:67-72 | leading separators do not change the components: `/a/b` and `a/b` have the same tokens |
| Tokens.SplitKeepsPayload | src/filesys/filesys.c:67-72 | the tokens written back to back equal the input with every separator removed, so nothing but separators is dropped or reordered |
| Disk.CachedRead | src/filesys/inode.c:478 | `cached_read` returns exactly `len` bytes, the sector's bytes from `ofs` on |
| Disk.CachedWrite | src/filesys/inode.c:521 | `cached_write` replaces the written range of one sector; every other byte of that sector and every other sector keep their values |
| Disk.ReadAfterWrite | src/filesys/inode.c:521 | a range written with `cached_write` reads back with `cached_read` as the written bytes |
| Disk.WriteBlock | src/filesys/inode.c:312 | a whole-sector write sets that sector and leaves every other one alone |
| Disk.ApplyWrites | src/filesys/inode.c:312-349 | sectors the batch of writes in `inode_create` does not name keep their contents |
| Disk.WriteLands | src/filesys/inode.c:312-349 | a write no later write of the batch overwrites is what the sector holds afterwards |
| Disk.Allocate | src/filesys/inode.c:211-212 | `free_map_allocate` fails exactly when no sector is free, and then changes nothing; on success it takes one free sector off the map |
| Disk.Release | src/filesys/inode.c:227 | `free_map_release` makes the sector free and loses no free sector |
| Disk.ReleaseAll | src/filesys/inode.c:222-245 | releasing sectors one after another appends them, in order, to the free sectors |
| BlockMap.Limits | src/filesys/inode.c:16-20 | the tier constants keep their derivation: an index sector holds BLOCK_SECTOR_SIZE / 4 entries, each tier's byte limit adds its capacity to the one before, and the sector capacity covers exactly the top limit |
| BlockMap.BytesToSectors | src/filesys/inode.c:50-53 | `DIV_ROUND_UP (size, 512)` is the fewest whole sectors holding `size` bytes; it is 0 only for 0 bytes and at most the tier capacity |
| BlockMap.SlotOf | src/filesys/inode.c:148-197 | the placement `map_sector_to_inode` gives the k-th data sector is a valid slot in one of the three tiers |
| BlockMap.IndexOf | src/filesys/inode.c:84-121 | a slot stands for a sector position below the tier capacity |
| BlockMap.IndexOfSlotOf | src/filesys/inode.c:148-197 | every sector position has its own slot |
| BlockMap.SlotOfIndexOf | src/filesys/inode.c:84-121 | every slot has its own position, so placement is a bijection between positions and valid slots |
| BlockMap.SlotOfByte | src/filesys/inode.c:84-121 | `byte_to_sector`'s branch tests and index formulas (`offs_b`, `offs_d`, `off_i`) select the slot where `map_sector_to_inode` placed sector position pos / 512 |
| BlockMap.IndexBlocksNeeded | src/filesys/inode.c:159-197 | index sectors taken for n data sectors: none below 12; from 140 on, the two index sectors plus one per started run of 128; never more than 128 second-level ones |
| BlockMap.Chunks | src/filesys/inode.c:184-196 | the second-level index sectors hold the data sectors past 140 in runs of 128, in order |
| Inode.RecordWords | src/filesys/inode.c:286 | the on-disk inode is exactly 128 words, one sector |
| Inode.DecodeRecord | src/filesys/inode.c:392 | whatever the sector holds decodes to a well-formed record (12 direct entries) |
| Inode.DecodeEncodeRecord | src/filesys/inode.c:32-42 | a record written to a sector reads back as the same record |
| Inode.ByteToSector | src/filesys/inode.c:76-122 | -1 at or past the end of the file; otherwise the sector named by the slot of position pos / 512, read through the index sectors |
| Inode.AllocOrZero | src/filesys/inode.c:161 | an index-sector allocation whose failure is ignored takes the first free sector, or leaves the `calloc`ed 0 |
| Inode.AllocMany | src/filesys/inode.c:184-188 | k such allocations take the first k free sectors in order when there are enough |
| Inode.SectorsAllocate | src/filesys/inode.c:206-215 | succeeds iff `cnt` sectors are free and then takes the first `cnt`; on failure every free sector is used up and not given back |
| Inode.MapSectorToInode | src/filesys/inode.c:135-200 | the record gets the length and magic, the first 12 data sectors go to `dblock`, and one second-level index sector is made per run of 128 beyond 140 |
| Inode.MapAllocates | src/filesys/inode.c:159-197 | with enough free sectors the index sectors come off the front of the free map in the order the record names them |
| Inode.IndexBlocks | src/filesys/inode.c:314-341 | one block is written per index sector |
| Inode.CreateBlocks | src/filesys/inode.c:312-349 | `inode_create` writes the record, then each index sector, then one zero block per data sector |
| Inode.InodeCreate | src/filesys/inode.c:277-357 | corrected creation: it succeeds iff enough sectors are free, and a failure writes nothing |
| Inode.InodeCreateAsWritten | src/filesys/inode.c:277-357 | creation as written: it succeeds iff the length is positive and enough sectors are free; length 0 returns false with nothing written |
| Inode.EmptyCreateFails | src/filesys/inode.c:290-293 | `inode_create (sector, 0)` as written reports failure and writes no record, whatever the free map holds |
| Inode.CreatedLayout | src/filesys/inode.c:297-308 | a creation with enough distinct free sectors succeeds and writes the layout `map_sector_to_inode` builds |
| Inode.CreatedIndex | src/filesys/inode.c:297-308 | the index sectors are the free sectors that follow the n data sectors |
| Inode.CreatedFree | src/filesys/inode.c:297-308 | afterwards the free map keeps exactly what follows the data and index sectors |
| Inode.CreatedShape | src/filesys/inode.c:297-308 | data sectors are the first n free ones, index sectors the next ones, and the free map keeps the rest |
| Inode.CreatedDistinct | src/filesys/inode.c:312-349 | every write of a creation goes to its own sector, so none overwrites another |
| Inode.RecordLands | src/filesys/inode.c:312 | the record sector decodes to the record that was placed |
| Inode.IndirectReads | src/filesys/inode.c:314-324 | the single-indirect index sector holds data sectors 12 to 139 |
| Inode.DoublyFollow | src/filesys/inode.c:104-121 | a double-indirect lookup follows the first-level entry and then the second-level entry |
| Inode.IndirectSlotLands | src/filesys/inode.c:90-102 | a data sector placed in the single-indirect tier is found there after the writes |
| Inode.DoublyTargets | src/filesys/inode.c:325-341 | with 140 or more data sectors the index writes go to the indirect sector, the double-indirect sector, then the second-level sectors |
| Inode.DoublyIndex | src/filesys/inode.c:325-341 | the double-indirect sector lists the second-level sectors, and each one holds its run of 128 data sectors |
| Inode.DoublyWrites | src/filesys/inode.c:325-341 | the third write goes to the double-indirect sector, and write 3 + o to the o-th second-level sector |
| Inode.DoublyReads | src/filesys/inode.c:325-341 | after the writes, the double-indirect sector and each second-level sector read back with their entries |
| Inode.ChunkOf | src/filesys/inode.c:107-111 | data position k >= 140 is entry `off_i` of second-level sector `offs_d` |
| Inode.DoublySlotLands | src/filesys/inode.c:104-121 | a data sector placed in the double-indirect tier is found there after the writes |
| Inode.SlotLands | src/filesys/inode.c:76-122 | after creation every data position's slot names the sector allocated for it |
| Inode.CreateThenLookup | src/filesys/inode.c:277-357 | with enough free sectors, creation succeeds and the record reads back with the length and magic; `byte_to_sector` finds each byte's allocated sector inside the file and -1 past the end |
| Inode.DataWrite | src/filesys/inode.c:342-349 | the write for data position k puts a zero block on the k-th data sector |
| Inode.DataLands | src/filesys/inode.c:342-349 | every data sector reads back as zeros after the writes |
| Inode.CreateZeroesData | src/filesys/inode.c:342-349 | creation leaves every allocated data sector zeroed |
| Inode.SectorsRelease | src/filesys/inode.c:217-247 | release of the direct and single-indirect tiers gives back min(n, 140) data sectors, plus the index sector from 12 sectors on, and keeps the earlier free sectors in front |
| Inode.IndirectEntriesLand | src/filesys/inode.c:232-244 | the entries release reads from the indirect sector of a created inode are the data sectors placed there |
| Inode.ReleasedOf | src/filesys/inode.c:219-247 | the release order: the direct entries, then the entries read from the indirect index sector, then that index sector |
| Inode.ReleaseLayout | src/filesys/inode.c:217-247 | releasing a placed layout gives back its direct and single-indirect data sectors and, from 12 sectors on, the indirect index sector |
| Inode.ReleaseLarge | src/filesys/inode.c:230-247 | with 12 or more data sectors, release gives back the 12 direct sectors, the indirect entries up to 140, then the indirect index sector |
| Inode.CreateThenRelease | src/filesys/inode.c:217-247 | release mirrors creation: the first min(n, 140) data sectors are returned in order, plus the indirect index sector from 12 sectors on |
| Inode.ReleaseAppendsHoldings | src/filesys/inode.c:217-247 | `sectors_release` appends the same sectors to any free list: those the record holds |
| Inode.EmptyCreateSucceeds | src/filesys/inode.c:290-293 | without the early exit, a zero-length inode is created with no free sector at all; its record has length 0 and every lookup gives -1 |
| Inode.EmptyCreateRecord | src/filesys/inode.c:287-293 | a zero-length creation takes no sector and writes a record whose flags are 0: `inode_create` never marks a directory |
| Inode.CreatedPlainFile | src/filesys/inode.c:277-357 | a clean creation writes a record with flags 0 and the requested length to the inode sector |
| Inode.CreateWritesOwnSectors | src/filesys/inode.c:277-357 | a clean creation leaves every sector other than the inode sector and the free sectors it could take as it was |
| Inode.LayoutWritesOwn | src/filesys/inode.c:325-349 | the writes of a placed layout touch only the inode sector, its index sectors and its data sectors |
| Inode.NotInSlice | src/filesys/inode.c:297-341 | a sector not on the free list is not among the sectors taken from any part of it |
| InodeTable.Find | src/filesys/inode.c:369-378 | the scan of the open list returns the first inode for the sector, or none exactly when the sector is not open |
| InodeTable.FindUnique | src/filesys/inode.c:369-378 | in a list with one inode per sector, the scan finds that inode |
| InodeTable.InodeOpen | src/filesys/inode.c:363-394 | an open inode is reopened in place; otherwise a fresh inode (one opener, writes allowed, not removed) is pushed to the front; one-inode-per-sector is kept |
| InodeTable.OpenedEntry | src/filesys/inode.c:363-394 | the inode returned is the one the open list holds for the sector afterwards |
| InodeTable.OpenExisting | src/filesys/inode.c:373-377 | opening an open sector adds one opener to its inode and changes nothing else |
| InodeTable.InodeReopen | src/filesys/inode.c:398-403 | one more opener for that inode; its sector, removed flag, denials and record, and every other inode, stay as they were; NULL passes through |
| InodeTable.Without | src/filesys/inode.c:426 | `list_remove` takes out one inode, keeps the others in order, and leaves its sector no longer open |
| InodeTable.InodeClose | src/filesys/inode.c:417-437 | NULL changes nothing; a close that is not the last takes one opener off that inode and changes nothing else; the last close unlinks the inode so its sector is no longer open, keeps the free map if the inode was not removed, and otherwise frees its sector and then the data sectors `sectors_release` finds |
| InodeTable.OpenThenClose | src/filesys/inode.c:363-437 | a fresh open followed by a close restores the open list and the free map |
| InodeTable.ReopenThenClose | src/filesys/inode.c:398-437 | a reopen followed by a close restores the open list and the free map |
| InodeTable.InodeRemove | src/filesys/inode.c:442-446 | `inode_remove` sets the removed flag of that inode and keeps its open count, deny-write count and data; every other inode is untouched |
| InodeTable.RemoveThenLastClose | src/filesys/inode.c:423-433 | removing, then closing the last opener, frees the inode's sector |
| InodeTable.RemovedLastCloseReleases | src/filesys/inode.c:423-433 | the last close of a removed inode appends to the free list its sector, its direct data sectors and, from 12 sectors on, the sectors listed in its indirect index sector followed by that index sector |
| InodeTable.RemoveCloseFresh | src/filesys/inode.c:363-446 | opening, removing and closing a sector nobody has open restores the open list and frees the sector and the data sectors its record names |
| InodeTable.CreateRemoveClose | src/filesys/inode.c:277-446 | create, open, remove and close: the open list is restored, and the free list gets back the inode sector, the first min(n, 140) data sectors creation took, and from 12 sectors on the indirect index sector |
| InodeTable.Entry | src/filesys/inode.c:368-378 | the open list holds an entry for a sector exactly when the sector is open, and that entry is the sector's |
| InodeTable.SameEntrySameOpen | src/filesys/inode.c:363-394 | two open lists holding the same entry for a sector open it to the same inode and agree on whether it is open |
| InodeTable.UpdateAgrees | src/filesys/inode.c:398-403 | changing one open inode's fields changes the open list for no other sector |
| InodeTable.OpenAgrees | src/filesys/inode.c:363-394 | opening a sector changes the open list for no other sector |
| InodeTable.PrependAgrees | src/filesys/inode.c:386-390 | pushing a new inode to the front changes the open list for no other sector |
| InodeTable.RemoveAgrees | src/filesys/inode.c:442-446 | `inode_remove` changes the open list for no other sector and only marks its own entry removed |
| InodeTable.CloseAgrees | src/filesys/inode.c:417-437 | `inode_close` changes the open list for no other sector; its own entry loses one opener or leaves the list |
| InodeTable.WithoutAgrees | src/filesys/inode.c:426 | `list_remove` of one inode changes the open list for no other sector |
| InodeTable.CloseKeepsAgreement | src/filesys/inode.c:417-437 | closing `w` in two open lists that agree but for another sector leaves lists that still agree but for it, and frees the same sectors |
| InodeTable.InodeDenyWrite | src/filesys/inode.c:535-539 | adds one denial to that inode, never more than its openers; its other fields and every other inode are unchanged |
| InodeTable.InodeAllowWrite | src/filesys/inode.c:545-550 | withdraws one denial from that inode; its other fields and every other inode are unchanged |
| InodeTable.DenyThenAllow | src/filesys/inode.c:535-550 | deny then allow restores the open list |
| InodeTable.OpenKeepsSound | src/filesys/inode.c:363-394 | opening keeps the open list sound: one inode per sector, counts in range, each inode holding its sector's record |
| InodeTable.OpenKeepsOpen | src/filesys/inode.c:363-394 | opening keeps every open sector open |
| InodeTable.RemoveKeepsSound | src/filesys/inode.c:442-446 | marking removed keeps the list sound and the set of open sectors |
| InodeTable.CloseKeepsSound | src/filesys/inode.c:417-437 | closing keeps the list sound |
| InodeTable.CloseKeepsOpen | src/filesys/inode.c:417-437 | closing one sector keeps every other open sector open |
| InodeIO.SectorMap | src/filesys/inode.c:464 | the map names one data sector for every byte of the file |
| InodeIO.ChunkStep | src/filesys/inode.c:465-475 | a round moves bytes of one sector only, never past the end of the file, never more than requested; a round of 0 or less comes only when the transfer is complete |
| InodeIO.ReadChunk | src/filesys/inode.c:478 | one round's `cached_read` gives the file's bytes at those positions |
| InodeIO.ReadRound | src/filesys/inode.c:461-483 | a round's size is that of the C code, and a positive round reads the file's bytes for it |
| InodeIO.ReadLoop | src/filesys/inode.c:461-484 | the loop reads min(size, length - offset) bytes (0 past the end), and they are the file's bytes from offset on |
| InodeIO.ReadAt | src/filesys/inode.c:456-487 | `inode_read_at` returns that count, and the returned bytes are the file's bytes from offset on |
| InodeIO.KeepsSector | src/filesys/inode.c:84-121 | the lookup of a byte reads only index sectors, so a store that changed only data sectors finds the same sector |
| InodeIO.KeepsMap | src/filesys/inode.c:507 | a store that changed only data sectors has the same sector map |
| InodeIO.LinksHold | src/filesys/inode.c:507 | when no data sector doubles as an index sector, writes to data sectors leave every byte's sector in place |
| InodeIO.WriteChunk | src/filesys/inode.c:521 | one round's `cached_write` replaces exactly the file bytes of that round |
| InodeIO.Splice | src/filesys/inode.c:521-526 | writing the next piece extends the run of written bytes |
| InodeIO.RoundSector | src/filesys/inode.c:507 | during the loop `byte_to_sector` still finds the sector the map names |
| InodeIO.RoundAgrees | src/filesys/inode.c:521 | a round's write keeps the store differing from the original in data sectors only |
| InodeIO.RoundContent | src/filesys/inode.c:521-526 | a round's write extends the written run by that round's bytes |
| InodeIO.WriteRound | src/filesys/inode.c:504-527 | one round of `inode_write_at`: its size, and the file with one more piece of the data in place |
| InodeIO.WriteLoop | src/filesys/inode.c:504-527 | the loop writes min(size, length - offset) bytes; the file then holds them at offset and its old bytes elsewhere |
| InodeIO.WriteAt | src/filesys/inode.c:495-530 | while writes are denied nothing is written; otherwise the count is that of reading, the length never changes, and with separate data sectors the file holds the written bytes at offset and its old bytes elsewhere |
| Cache.CacheInit | src/filesys/cache.c:10-28 | 256 slots in order, each bound to no sector (-1) with no flags, slot i owning bytes 512 i to 512 i + 511 of the region |
| Cache.InitBuffersDisjoint | src/filesys/cache.c:19-26 | the buffers of a fresh ring are pairwise disjoint and inside the 128 KB region |
| Cache.FirstBound | src/filesys/cache.c:33-38 | the scan stops at the first slot bound to the sector |
| Cache.PageCacheSearch | src/filesys/cache.c:30-47 | NULL exactly when no slot holds the sector; otherwise the buffer of the first slot in ring order that does |
| Cache.SearchIsFirstBound | src/filesys/cache.c:30-47 | any slot that is the first bound to the sector is what the search returns |
| Cache.InitSearch | src/filesys/cache.c:19-47 | a fresh ring finds no real sector, but a search for 0xFFFFFFFF hits slot 0: unbound and bound to sector -1 look the same |
| Cache.FirstClean | src/filesys/cache.c:54-66 | the victim is the first clean slot, and all slots before it are dirty |
| Cache.PageCacheLoad | src/filesys/cache.c:49-68 | the dirty slots before the first clean one move to the back in order, and the clean one leaves the ring |
| Cache.LoadKeepsOthers | src/filesys/cache.c:54-66 | the ring loses exactly the victim |
| Cache.LoadRotatesDirty | src/filesys/cache.c:54-66 | the rotated slots are all dirty and keep their order; the slots after the victim keep theirs |
| Directory.Lookup | src/filesys/directory.c:216-238 | the first in-use entry with the name, at byte offset 20 times its index; none exactly when no in-use entry has the name |
| Directory.LookupFirst | src/filesys/directory.c:216-238 | any entry that is the first of its name is what `lookup` finds |
| Directory.DirAdd | src/filesys/directory.c:285-325 | succeeds iff the name is valid, absent, and some whole entry is free; on success the first free entry becomes the new in-use entry and every other entry is kept; a failure changes nothing |
| Directory.AddThenLookup | src/filesys/directory.c:285-325 | after a successful add, the name is found and names the given sector |
| Directory.AddKeepsLookups | src/filesys/directory.c:285-325 | an add changes the lookup of no other name |
| Directory.DirLookup | src/filesys/directory.c:245-260 | on a hit, the entry's inode is opened and returned; a miss returns NULL and changes nothing |
| Directory.LookupThenClose | src/filesys/directory.c:245-260 | closing what `dir_lookup` opened restores the open list |
| Directory.CloseAfterOpen | src/filesys/directory.c:175-182 | `dir_close` of a just-opened inode restores the open list and free map |
| Directory.DirIsEmpty | src/filesys/directory.c:192-208 | empty exactly when no entry past `.` and `..` (offset 40) is in use |
| Directory.DirRemove | src/filesys/directory.c:331-375 | whatever the verdict, the directory keeps its number of entries |
| Directory.UnlinkKeepsSound | src/filesys/directory.c:369-373 | marking removed and closing keeps the open list sound |
| Directory.UnlinkKeepsOpen | src/filesys/directory.c:369-373 | it keeps every other open sector open |
| Directory.UnlinkReleases | src/filesys/directory.c:369-373 | an inode nobody else has open leaves the open list, and its sector is freed |
| Directory.UnlinkDefers | src/filesys/directory.c:369-373 | an inode open elsewhere stays, marked removed, with its sectors kept until its last close |
| Directory.UnlinkAgrees | src/filesys/directory.c:369-373 | removing and closing `s` changes the open list for no other sector and keeps `s` open iff it was; if it was not, `s` and then the sectors its record holds go to the free list |
| Directory.HeldClose | src/filesys/directory.c:373-374 | closing the held parent again restores agreement with the open list before it was opened, but for the unlinked inode |
| Directory.HeldUnlinkAgrees | src/filesys/directory.c:348-374 | opening the parent, unlinking `s` and closing the parent changes the open list for no sector but `s`, and `s` stays open iff it was |
| Directory.HeldUnlinkFrees | src/filesys/directory.c:348-374 | the same sequence frees nothing if `s` is open elsewhere, and otherwise `s` and then the sectors its record holds |
| Directory.RemoveVerdict | src/filesys/directory.c:331-375 | success iff the name is found, the entry is not the root or current directory, and, when the opened inode's flags mark a directory, it is open nowhere else and empty |
| Directory.OpenKeepsKinds | src/filesys/inode.c:363-394 | opening an inode does not change the record any sector opens with, so no sector changes between file and directory |
| Directory.OpenKeepsKindsMatch | src/filesys/directory.c:348-353 | entries that match the flags still match them once the parent is held open |
| Directory.RemoveRefusedChangesNothing | src/filesys/directory.c:342-360 | a refused removal leaves entries, open list and free map as they were |
| Directory.RemoveClearsEntry | src/filesys/directory.c:362-365 | success clears the in-use flag of the found entry only, so no other lookup changes |
| Directory.Clear | src/filesys/directory.c:363-364 | only entry k changes: it keeps its name and sector and is no longer in use |
| Directory.Cleared | src/filesys/directory.c:363-364 | clearing the only entry with a name removes the name |
| Directory.RemoveUnlinks | src/filesys/directory.c:367-373 | after success the open list and free map are those of removing and closing the entry's inode |
| Directory.RemoveReleases | src/filesys/directory.c:367-373 | an inode nobody else has open is freed; one open elsewhere is kept, marked removed, until its last close |
| Directory.NextInUse | src/filesys/directory.c:385-394 | the scan stops at the first in-use entry |
| Directory.ReadDir | src/filesys/directory.c:381-396 | the position moves to at least offset 40 and stays on entry boundaries; a hit moves it past the returned entry |
| Directory.ListingSkips | src/filesys/directory.c:385-394 | entries not in use do not appear in the listing |
| Directory.ReadDirStep | src/filesys/directory.c:381-396 | successive calls list the in-use names from entry 2 on, each exactly once in order, and fail exactly when none is left |
| Directory.AddDots | src/filesys/directory.c:17-18 | adding `.` and `..` never changes the number of entries of the directory file |
| Directory.DotsResolve | src/filesys/directory.c:84-87 | with two free entries, both adds succeed and `.` and `..` resolve to the directory and its parent |
| Directory.EmptyDirectoryRejectsDots | src/filesys/directory.c:84-87 | a zero-length directory has no whole entry, so neither `.` nor `..` can be added |
| Filesys.Truncate | src/filesys/filesys.c:106-107 | the copy in the 128-byte buffer is a prefix of the path of at most 127 characters, and the path itself when it fits |
| Filesys.Start | src/filesys/filesys.c:111-120 | resolution starts at the root for a path beginning with `/`, otherwise at the current directory |
| Filesys.Parent | src/filesys/filesys.c:133-142 | the components walked are all but the last, and with the last they make up the path's components |
| Filesys.Walk | src/filesys/filesys.c:133-142 | a walk that reaches something reaches a directory, and an empty walk stays where it starts |
| Filesys.WalkAppend | src/filesys/filesys.c:133-142 | walking a concatenation walks the first part and continues from there; a failure in the first part is final |
| Filesys.WalkStopsAtMissing | src/filesys/filesys.c:137-139 | a walk fails at the first missing component |
| Filesys.FilesysOpen | src/filesys/filesys.c:103-156 | a directory handle is the root or an inode whose flags are non-zero, and a file handle an inode whose flags are 0; directory handles name listed directories and file handles do not |
| Filesys.OpenFindsEntry | src/filesys/filesys.c:143-155 | opening succeeds iff the parent is reached and has the last component; it then opens the sector that entry names, as a directory exactly when its flags are non-zero |
| Filesys.OpenAbsoluteIgnoresCwd | src/filesys/filesys.c:111-120 | an absolute path opens the same thing from any current directory |
| Filesys.OpenDir | src/filesys/directory.c:94-134 | `open_dir` yields a directory, NULL, or an assertion failure, never a file |
| Filesys.OpenDirAgreesWithOpen | src/filesys/directory.c:94-134 | where entry lists match the flags and `open_dir` reaches a directory, `filesys_open` of the same path opens it too |
| Filesys.OpenDirLastStep | src/filesys/directory.c:94-134 | where `open_dir` reaches a directory, the parent was reached and names that directory under the last component |
| Filesys.RemoveHeld | src/filesys/filesys.c:204-208 | the parent is held open during `dir_remove`, so it cannot be unlinked and stays open, and its entries still match the flags |
| Filesys.RemoveIn | src/filesys/filesys.c:207-209 | removal in a reached parent ends in a verdict, never a panic; the cleared entry goes to the parent's entry list, kept apart from the disk store, so the store is unchanged and no directory is added |
| Filesys.RemoveInRefused | src/filesys/filesys.c:207-209 | a refused `dir_remove` leaves the state as it was |
| Filesys.RemoveInClears | src/filesys/filesys.c:207-209 | success clears the entry in the parent, changes no other entry list, drops the removed inode's list unless it is still open, and keeps the open list sound |
| Filesys.RemoveRootRefused | src/filesys/filesys.c:170-177 | "/" cannot be removed |
| Filesys.RemoveRefusedKeepsState | src/filesys/filesys.c:163-210 | a refused removal leaves the file system as it was |
| Filesys.RemoveClearsParentEntry | src/filesys/filesys.c:163-210 | success clears the named entry in the parent the path leads to and changes no other entry list; the removed inode's list is dropped unless it is still open, so a removed directory, or an inode nobody else holds, ends up unlisted, closed and free |
| Filesys.FilesysRemove | src/filesys/filesys.c:163-210 | "/" is refused with nothing changed; the call panics exactly when the walk to the parent meets an inode that is not a directory; otherwise it ends in a verdict that keeps the disk store and adds no directory |
| Filesys.RemoveInTarget | src/filesys/directory.c:342-351 | the entry a successful removal clears names neither the root, the current directory nor the parent, and a listed directory it names is open nowhere else |
| Filesys.RemoveInUnlinks | src/filesys/filesys.c:204-209 | a successful removal leaves the open list and free list of unlinking the entry's inode with the parent held open |
| Filesys.RemoveInEffect | src/filesys/filesys.c:204-209 | success changes the open list for no sector but the removed inode; that inode stays open iff it was; otherwise it and its sectors go to the free list |
| Filesys.UnlinkKeepsCoherent | src/filesys/directory.c:362-373 | after an entry is cleared and its inode possibly forgotten, every listed record stays readable and every entry list still matches the flags |
| Filesys.UnlinkKeepsFree | src/filesys/directory.c:362-373 | the sectors a removal frees were the removed inode's and its holdings, so free sectors stay unlisted, closed and unnamed |
| Filesys.RemoveKeepsConsistent | src/filesys/filesys.c:163-210 | `filesys_remove` keeps the file system consistent: entry lists match the flags and stay readable, free sectors are unused, and no inode has two names |
| Filesys.ReleaseIfSet | src/filesys/filesys.c:90-91 | the inode sector is freed unless it is 0 |
| Filesys.MakeInode | src/filesys/inode.c:277-357 | with the early exit, creation succeeds iff the length is positive and the free sectors suffice; without it, iff they suffice; a failure writes nothing |
| Filesys.CreateWith | src/filesys/filesys.c:47-95 | panics iff the walk meets a non-directory, or the parent is reached and a sector is free but the size is negative or at least the doubly indirect limit (the assertion at src/filesys/inode.c:282); never changes the open list; success needs the parent reached, a free sector, a size in range and, with the early exit, a positive one; a failure changes no directory |
| Filesys.FilesysCreate | src/filesys/filesys.c:84-94 | as written: panics iff the walk meets a non-directory or the size reaches `inode_create` out of range; creating an empty file always fails and changes no directory, open inode or sector |
| Filesys.EmptyFileWithoutEarlyExit | src/filesys/filesys.c:84-91 | where the parent is reached, a sector is free and the name can be added, an empty file is created without the early exit and refused with it |
| Filesys.WalkAfterAdd | src/filesys/filesys.c:86-89 | adding a non-directory entry leaves every walk that succeeded before unchanged |
| Filesys.CreatedState | src/filesys/filesys.c:84-89 | a successful create adds the name to the reached parent and leaves the disk and free map of a clean creation on the front free sector |
| Filesys.CreatedRecordPlain | src/filesys/filesys.c:88 | the inode a create writes to a sector nobody has open reads as a file, its flags being 0 |
| Filesys.FreshPlainFile | src/filesys/filesys.c:88 | a clean creation on a sector that is not open reads as a file |
| Filesys.OpenAfterAdd | src/filesys/filesys.c:143-155 | once a file is added under the last component of a reached parent, the path opens as that file |
| Filesys.OpenAfterCreate | src/filesys/filesys.c:143-155 | the state a create leaves opens the path as the file on the front free sector |
| Filesys.CreateThenOpen | src/filesys/filesys.c:47-95 | after a successful create, with or without the early exit and with room for the data and index sectors, the path opens as a file whose inode is the sector taken from the free map |
| Filesys.CreateFailureReleases | src/filesys/filesys.c:84-94 | a failed create, with or without the early exit, frees the inode sector (unless it is 0) and changes no directory or open inode |
| Filesys.DirCreateWith | src/filesys/directory.c:31-92 | with the early exit it never reports success |
| Filesys.DirCreate | src/filesys/directory.c:31-92 | as written: panics iff the walk meets a non-directory, and otherwise fails with the directories, the open list and the disk unchanged |
| Filesys.DirCreateReleasesSector | src/filesys/directory.c:69-81 | where the parent is reached and a sector is free, the call fails and that sector goes back to the end of the free list unless it is sector 0 |
| Filesys.DirCreateNeverSucceeds | src/filesys/directory.c:31-92 | `dir_create` never reports success, with or without the early exit |
| Filesys.DirCreatePanicsWithoutEarlyExit | src/filesys/directory.c:82-87 | without the early exit, once the entry is added, opening the new inode as a directory fails its assertion, because its flags are 0 |
| Filesys.MakeInodeInFree | src/filesys/filesys.c:84-88 | with room, creating the inode on the front free sector writes only free sectors, leaves a free list drawn from the rest, and on success a readable plain-file record |
| Filesys.WriteFreeKeepsConsistent | src/filesys/filesys.c:89-91 | a step that writes only free sectors and frees nothing new, with the lists and open inodes kept, keeps the file system consistent |
| Filesys.AddKeepsKinds | src/filesys/filesys.c:88-89 | adding a free sector that reads as a plain file keeps every entry list matching the flags |
| Filesys.AddKeepsReadable | src/filesys/filesys.c:88-89 | adding a free sector with a readable record keeps every listed record readable |
| Filesys.AddKeepsFree | src/filesys/filesys.c:88-89 | adding a free sector that the new free list lacks keeps free sectors unnamed and every inode named once |
| Filesys.AddKeepsConsistent | src/filesys/filesys.c:88-89 | the add of a successful create keeps the file system consistent |
| Filesys.CreateKeepsConsistent | src/filesys/filesys.c:47-95 | `filesys_create`, with or without the early exit, keeps the file system consistent |
| Filesys.CreatedConsistent | src/filesys/filesys.c:84-89 | a successful create keeps the file system consistent |
| Filesys.RefusedFootprint | src/filesys/filesys.c:84-94 | a failed create keeps the lists and the open inodes, writes only free sectors and frees only sectors that were free |
| Filesys.RefusedConsistent | src/filesys/filesys.c:84-94 | a failed create keeps the file system consistent |
| Filesys.CreateKeepsKinds | src/filesys/filesys.c:84-89 | a successful create keeps every entry list matching the flags |
| Filesys.DirCreateKeepsConsistent | src/filesys/directory.c:31-92 | `dir_create` as written keeps the file system consistent |
| Filesys.RootDirCreate | src/filesys/directory.c:13-21 | panics iff the record the sector opens with has flags 0, and otherwise reports failure with nothing changed |
| Filesys.DoFormat | src/filesys/filesys.c:213-221 | formatting always ends in a panic |
| Swap.SlotSector | src/vm/swap.c:43 | slot i starts at sector 8 i, and its eight sectors fit in 32 bits |
| Swap.LowestFree | src/vm/swap.c:77-80 | the scan finds the lowest free slot, or none exactly when every slot is taken |
| Swap.SwapAlloc | src/vm/swap.c:72-92 | reserves the lowest free slot, or returns -1 with the table unchanged exactly when none is free |
| Swap.SwapOut | src/vm/swap.c:35-49 | the slot becomes the thread's; its eight sectors hold the page's pieces in order; no other sector changes |
| Swap.SwapIn | src/vm/swap.c:54-70 | the slot's sectors are read back into a whole page, and the slot is freed |
| Swap.SwapFree | src/vm/swap.c:94-107 | exactly the thread's slots become free |
| Swap.SwapRoundTrip | src/vm/swap.c:35-92 | a page swapped out and read back by its owner is the same page, and the table is as before |
| Page.Tagged | src/vm/page.c:67 | `address \| PTE_AVL` sets the AVL bits and keeps every other bit |
| Page.TaggedFixed | src/vm/page.c:67 | tagging changes an address iff one of its AVL bits is clear |
| Page.PageTableInsert | src/vm/page.c:39-50 | a new address is added and NULL returned; a present address keeps its record, which is returned |
| Page.PageTableLookup | src/vm/page.c:58-72 | the record for the address, else the record for its tagged form, else NULL |
| Page.PageTableRemove | src/vm/page.c:52-56 | exactly that record goes |
| Page.PageTableDestroy | src/vm/page.c:74-82 | every record is gone |
| Page.InsertThenLookup | src/vm/page.c:39-72 | a fresh insert is found with its `aux`, and a second insert returns it and changes nothing |
| Page.TaggedInsertFound | src/vm/page.c:58-72 | a page stored under its tagged address is found by looking up the page itself |
| Page.LookupThenRemove | src/vm/page.c:52-72 | after removing the found record, the address is unknown unless its other key still holds a record |
| Page.DestroyThenLookup | src/vm/page.c:74-82 | after destroy, every lookup fails |
| Frame.Index | src/vm/frame.c:41 | the unsigned index of a frame; a frame below the user pool wraps to a huge index |
| Frame.GetPframe | src/vm/frame.c:59-62 | the frame address of an index is page-aligned and exact unless it passes 4 GB |
| Frame.IndexOfPframe | src/vm/frame.c:41-62 | the index of the frame for an index is that index |
| Frame.PframeOfIndex | src/vm/frame.c:41-62 | every aligned user frame is the frame of its own index |
| Frame.FrameTableSet | src/vm/frame.c:46-57 | a non-NULL page records the current thread and the page, NULL clears both, and no other entry changes |
| Frame.SetThenGet | src/vm/frame.c:39-57 | a read returns what was last stored for that frame, and other frames are unaffected |
| Frame.FrameFree | src/vm/frame.c:103-109 | the page returns to the user pool and its entry is cleared, and nothing else changes |
| Frame.FrameAlloc | src/vm/frame.c:67-84 | a page from the pool is returned as is; an empty pool reserves the lowest free swap slot; NULL iff no slot is free either |
| Frame.FreeThenSet | src/vm/frame.c:103-109 | a freed frame reads as unowned, and setting it again makes it the setter's |
| Process.Parse | src/userprog/process.c:443-456 | `userprog_parser` yields space-free, non-empty arguments, none for an empty line |
| Process.ParseJoin | src/userprog/process.c:443-456 | arguments written one space apart into a line that fits are parsed back unchanged |
| Process.ParseKeepsPayload | src/userprog/process.c:443-456 | the arguments written back to back equal the first 4095 bytes with every space removed |
| Process.DecodeEncodeEhdr | src/userprog/process.c:242-258 | an ELF header written out reads back unchanged |
| Process.ReadEhdr | src/userprog/process.c:344-354 | an accepted header is the decoded first 52 bytes; a short file is refused |
| Process.ReadEhdrAccepts | src/userprog/process.c:344-354 | a header followed by anything is accepted iff its magic, type 2, machine 3, version 1, 32-byte entries and at most 1024 entries pass |
| Process.DecodeEncodePhdr | src/userprog/process.c:263-273 | a program header written out reads back unchanged |
| Process.ValidateSegment | src/userprog/process.c:461-501 | accepted iff file offset and address share their page offset, the offset lies in the file, filesz <= memsz, memsz is not 0, and the segment starts at page 1 or above and ends, without wrapping, below PHYS_BASE |
| Process.Classify | src/userprog/process.c:369-419 | PT_DYNAMIC, PT_INTERP and PT_SHLIB fail; a PT_LOAD loads iff it is valid; other types are skipped |
| Process.ScanLoadsValid | src/userprog/process.c:358-420 | the loop hands on only valid PT_LOAD segments, at most one per header entry |
| Process.EntryCheck | src/userprog/process.c:362-367 | the per-entry check as a property of the offset |
| Process.ScanStep | src/userprog/process.c:358-368 | the loop goes on exactly when the entry at hand passes |
| Process.ScanSucceeds | src/userprog/process.c:358-420 | the loop succeeds exactly when all `e_phnum` entries can be read and pass |
| Process.ScanAccepts | src/userprog/process.c:358-420 | the same, entry by entry, at offsets `e_phoff + 32 k` |
| Process.LoadPhdrs | src/userprog/process.c:357-363 | a header offset of 2^31 or more reads as a negative `off_t` and fails |
| Segment.RoundUp | src/userprog/process.c:396 | `ROUND_UP` gives the next multiple of PGSIZE |
| Segment.SplitSegment | src/userprog/process.c:383-405 | the file page and user page are aligned; read plus zero bytes cover `vaddr + memsz` in whole pages below PHYS_BASE; read bytes end at the file data's end; writability is PF_W |
| Segment.RoundUpBelow | src/userprog/process.c:396 | rounding up never passes a page boundary the range stays below |
| Segment.LoadSegment | src/userprog/process.c:518-571 | one page per PGSIZE: a page with file bytes is read from the running offset and zero-filled; a page without is recorded with `aux` -1; other records stay, and the table gains exactly the lazy pages' keys |
| Segment.PlanPages | src/userprog/process.c:526-568 | the page-by-page walk counting read and zero bytes down |
| Segment.RecordLazy | src/userprog/process.c:560-564 | every lazy page gets a record, new records carry -1, existing ones stay, and the only new keys are the lazy pages' |
| UserStack.ArgBytes | src/userprog/process.c:615-617 | each argument slot is one byte longer than the argument |
| UserStack.Kept | src/userprog/process.c:617 | `strlcpy` with bound 128 keeps at most 127 bytes, all of a shorter argument |
| UserStack.Strings | src/userprog/process.c:613-618 | the string area is the argument bytes plus one NUL slot each |
| UserStack.Padding | src/userprog/process.c:620-624 | fewer than 4 zero bytes bring the stack pointer to a word boundary |
| UserStack.FinalEsp | src/userprog/process.c:609-640 | the final stack pointer is word-aligned, exactly the stack size below PHYS_BASE |
| UserStack.Frame | src/userprog/process.c:626-639 | the frame has `argc + 4` words |
| UserStack.SetupStack | src/userprog/process.c:597-648 | the stack pointer is word-aligned and the bytes from it reach PHYS_BASE |
| UserStack.StringsSplit | src/userprog/process.c:613-618 | the string area splits into the slots before argument i, its slot, and those after |
| UserStack.StackFrame | src/userprog/process.c:626-639 | a NULL return address, then `argc`, then `argv` pointing to the next word; word i is the address of argument i and word `argc` is NULL |
| UserStack.ArgAddrInside | src/userprog/process.c:615-616 | every argument pointer is inside the stack, above the frame and padding |
| UserStack.SlotAt | src/userprog/process.c:613-618 | from argument i's address up, the stack holds its slot and then the later slots |
| UserStack.SlotReadBack | src/userprog/process.c:617 | a NUL-free argument reads back from its slot, cut to the bytes kept |
| UserStack.ArgReadBack | src/userprog/process.c:597-648 | reading argument i as a C string at its pointer gives the argument, cut to 127 bytes: arguments under 128 bytes round-trip |
| PageFault.PageOf | src/userprog/exception.c:166 | `ROUND_DOWN` gives the aligned page holding the address |
| PageFault.SourceOf | src/userprog/exception.c:184-215 | `aux` -1 means zero fill; otherwise AVL bits mean a mapped file; otherwise the swap slot is `aux >> PGBITS` |
| PageFault.PagesUpTo | src/userprog/exception.c:230-244 | the pages from the fault page to PHYS_BASE, in order |
| PageFault.PagesUpToMeans | src/userprog/exception.c:230-244 | those are exactly the aligned addresses from the fault page below PHYS_BASE |
| PageFault.MissingMeans | src/userprog/exception.c:232 | a page is installed iff it is among them and not mapped |
| PageFault.Handle | src/userprog/exception.c:139-257 | null or kernel addresses and writes to present pages are killed; a record with frames to spare is resolved from its source and consumed; stack growth installs only missing pages |
| PageFault.HandleClassifies | src/userprog/exception.c:175-253 | a valid fault with a record is resolved when frames are available; one without a record is killed unless near the stack, and grows the stack when near it and frames are available |
| PageFault.GrowthCovers | src/userprog/exception.c:227-245 | stack growth leaves every page from the fault to PHYS_BASE mapped, installing only the missing ones |
| PageFault.ResolveConsumes | src/userprog/exception.c:217 | the record used is removed; the page is then found only if its other key holds a record |
| PageFault.LazyPageZeroFills | src/userprog/exception.c:184-188 | a page left lazy by `load_segment` is zero-filled on its first fault that is not a write to a present page |
| PageFault.SwapRecordFindsSlot | src/userprog/exception.c:206-215 | a record whose `aux` is a slot shifted left by PGBITS sends the fault to that slot |
| PageFault.NearStackAccepted | src/userprog/exception.c:227 | the wrapped test accepts every fault within a page of the stack pointer |
| PageFault.NearStackWraps | src/userprog/exception.c:227 | the wrapped test also accepts a fault 2^31 bytes below esp, which would map 0x80001 pages |
| PageFault.NearStackAsWrittenMeans | src/userprog/exception.c:227 | the wrapped test accepts exactly the faults within one page of esp, those exactly 2^31 bytes away, and those more than 2^32 - 4096 bytes away |
| PageFault.PageFaultAsWritten | src/userprog/exception.c:139-257 | the handler as written grows the stack exactly where the corrected one does, and also for a fault with no record at one of the wrapped distances |
| PageFault.PageFault | src/userprog/exception.c:139-257 | the corrected handler grows the stack only for a fault within one page of esp |
| PageFault.PageFaultAgrees | src/userprog/exception.c:227 | wherever the corrected handler does not kill, the handler as written does the same |
| Scheduler.MlfqsPriority | src/threads/thread.c:203-206 | the priority is in [0, 63] and equals `63 - recent_cpu / 2^16 - 2 nice` when that is in range |
| Scheduler.MlfqsAntitone | src/threads/thread.c:502-505 | more recent CPU or a higher nice never raises the priority; zero CPU at nice 0 gives 63 |
| Scheduler.MaxPriority | src/threads/thread.c:469-475 | the highest waiter priority bounds every waiter and is held by one |
| Scheduler.SetPriority | src/threads/thread.c:463-477 | only the two priority fields change, and the base priority becomes the new value |
| Scheduler.SetPriorityDonation | src/threads/thread.c:466-476 | the effective priority is the new one or a waiter's, and at least both: a donation is never lost or invented |
| Scheduler.SetPriorityAlone | src/threads/thread.c:472-476 | with no waiter, the effective priority is the new one |
| Scheduler.SetNice | src/threads/thread.c:495-507 | nice is clamped to [-20, 20], the base priority becomes the MLFQS priority, and recent_cpu, tid and sleep count stay |
| Scheduler.NiceAntitone | src/threads/thread.c:495-507 | raising nice never raises the base priority |
| Scheduler.FirstMaxUnique | src/threads/thread.c:823-831 | under `thread_cmp` there is one first thread of highest priority |
| Scheduler.ListMax | src/threads/thread.c:688 | the scan returns the first thread of highest priority |
| Scheduler.NextThreadToRun | src/threads/thread.c:681-692 | idle exactly when nothing is ready; otherwise that thread, taken off the ready list |
| Scheduler.NextKeepsOthers | src/threads/thread.c:688-690 | taking it off loses no other thread, and none left outranks it |
| Scheduler.ReduceBlockTicks | src/threads/thread.c:784-819 | each sleeper is counted down; those reaching 0 move to the back of the ready list in order; a yield is requested iff one outranks the running thread |
| Scheduler.WakePartition | src/threads/thread.c:794-814 | every sleeper is counted down once and ends in exactly one of the two lists |
| Scheduler.WakeCounts | src/threads/thread.c:798 | woken threads have count 0, the others a nonzero count |
| Scheduler.WakeMembership | src/threads/thread.c:797-813 | a sleeper wakes exactly when its count was 1 |
| Scheduler.WakeKeepsSleeping | src/threads/thread.c:797-813 | a tick keeps positive counts positive, so an n-tick sleeper wakes on tick n |
| Scheduler.NegativeNeverWakes | src/threads/thread.c:797-813 | a negative count stays negative and never wakes |
| Scheduler.SleepAsWritten | src/threads/thread.c:345-356 | only 0 returns at once; any other count, negatives included, queues the thread with that count |
| Scheduler.SleepNegativeHangs | src/threads/thread.c:346 | `thread_sleep (-1)` queues the thread with -1, and the next tick leaves it at -2 |
| Scheduler.Sleep | src/threads/thread.c:345-356 | corrected sleep: counts <= 0 return at once, so the sleeping list keeps positive counts |
| Scheduler.SleepWakesOnTime | src/threads/thread.c:345-356 | a thread sleeping n > 0 ticks stays asleep for n - 1 ticks and wakes on tick n |
| Scheduler.TidsIncreasing | src/threads/thread.c:766-776 | from 1, successive tids are 1, 2, 3, ..., strictly increasing and never repeated |
| Scheduler.InitThread | src/threads/thread.c:606-645 | the initial thread starts at nice 0 and no CPU, others inherit both; the priority is the one asked for, or the MLFQS one |
| Scheduler.InitialThreadTop | src/threads/thread.c:623-645 | under MLFQS the initial thread starts at priority 63 |
| Scheduler.LoadStep | src/threads/thread.c:182-183 | the load never goes negative |
| Scheduler.LoadBounded | src/threads/thread.c:182-183 | with n runnable threads the load moves toward 273 * 60 * n and never overshoots it |
| Scheduler.Report | src/threads/thread.c:519-531 | `(x * 100) >> 14` is 100 x in fixed point, rounded down |
| Scheduler.ReportWhole | src/threads/thread.c:519-531 | a whole number k reports as 100 k |
| Scheduler.DecayCoefficient | src/threads/thread.c:184 | the decay factor 2 load / (2 load + 1) is below one in fixed point |
| Scheduler.DecayRecentCpu | src/threads/thread.c:189-190 | only recent_cpu changes, and a non-negative one grows by at most `nice` |
| Scheduler.ChargeNeverRaises | src/threads/thread.c:167-178 | the per-tick charge never raises a thread's MLFQS priority; the idle thread, a user thread, and any thread without MLFQS are left exactly as they were |
| Scheduler.RecomputePriorities | src/threads/thread.c:194-207 | each priority becomes that thread's MLFQS priority from its recent_cpu and nice, within [0, 63]; nothing else changes |
| Scheduler.RecomputeOrder | src/threads/thread.c:194-207 | a thread with no more CPU and no higher nice is not ranked below another |

## Left out

- Locks, interrupt levels, the read-write lock and context switches are left out. Every operation is one atomic step.
- I/O goes through a few abstractions. The block device behind `cached_read`/`cached_write` is a map from sector to block, and sectors never written read as zeros. The cache ring is modelled on its own and is not wired into those calls. `free-map.c` is not part of this model: the free map is a list, allocation takes its head and release appends.
- `inode_create` is called as `inode_create (sector, size, flags)` in `filesys.c` and `directory.c`, but it takes two arguments in `inode.c` and never sets the flags. The model follows `inode.c`, so every record it creates has flags 0. Whether an inode is a directory is read from its flags, as `filesys_open`, `dir_open` and `dir_remove` do. Directory contents are kept in a map from sector to entry list, and `Filesys.KindsAgree` states that the two agree. Every open, create and removal requires it, and it is part of `Filesys.Coherent` and so of `Filesys.Consistent`. Neither `dir_create` nor `root_dir_create` can make a directory, so a state holding directories is taken as given.
- Filesys.RemoveKeepsConsistent: assumes `Filesys.DataApart`, that the sectors an inode's record holds are no listed directory, no open inode and no entry's inode. The model keeps no owner per sector, so nothing states that creation keeps this.
- Filesys.CreateKeepsConsistent: assumes a free list without repeats and with room for the data and index sectors besides the inode sector. Otherwise `map_sector_to_inode` takes a 0 sector for a missing index sector and writes it.
- Filesys.Consistent: requires each inode to have at most one entry (`Filesys.SingleLinks`), so it excludes `.` and `..` entries. Neither `dir_create` nor `root_dir_create` adds them, as both fail first.
- Directory contents live in that map, apart from the disk store. `dir_add` and `dir_remove` write the entry into the directory inode's data (directory.c:364); the model writes the entry list instead, so the store the inode layer sees does not change when an entry does.
- The ASSERTs of `dir_open_root` and `dir_reopen` on the start directory of a walk are not modelled: the root and current directories are required to be directories.
- Inode.SectorsRelease: releases only the direct and single-indirect tiers. The double-indirect part of `sectors_release` (inode.c:248-269) overwrites each first-level entry with a `malloc` pointer before reading it, so it reads the sector that the heap address names. It never frees the index sectors of that tier. Its result depends on heap addresses, so it is not modelled.
- `map_sector_to_inode`'s `calloc`/`malloc` failures (ASSERTs) are left out. Its ignored `free_map_allocate` failures are modelled as a 0 sector.
- `inode_get_inumber`, `inode_length`, `inode_init`, `dir_open`, `dir_open_root`, `dir_reopen`, `dir_get_inode`, `filesys_init` and `filesys_done` are accessors or set-up. Their effect shows in the models of their callers. `free_map_create` and `free_map_close` in `do_format` are not modelled; `Filesys.DoFormat` models only its PANIC on the result of `root_dir_create`.
- Filesys.Walk: the open counts of directories opened and closed along a walk are not tracked, and `FilesysOpen` does not add the returned handle to the open list.
- Filesys.Truncate: paths are strings without NUL bytes. Every path operation collects the components in `char *hier[16]` (filesys.c:66, 124, 187; directory.c:49, 112). More than 16 components write past the array, and `filesys_create`, `filesys_open`, `filesys_remove` and `dir_create` read the unset `hier[0]` when there is none. `Filesys.Resolvable` (one to 16 components) is required of those four, and `OpenDir`, whose loop runs once per component, requires at most 16. Neither overflow nor the unset read is modelled.
- `page_cache_load` returns no value and never re-inserts the victim. The model states the ring it leaves. `disk_cache_flush` and `flush_all` are declared but not defined in `cache.c`.
- Frame.FrameAlloc: stops once the swap slot is reserved. The eviction that follows (frame.c:86-98) is not modelled: `frame_to_be_evicted` picks the victim with `random_ulong`, then `swap_out`, `pagedir_clear_page` and `page_table_insert` run on it. The `Evicting` outcome carries the reserved slot and the updated slot table.
- `frame_alloc` calls `page_table_insert (upage, swap_page)` with the slot number itself as `aux`, but `page_fault` reads the slot back as `aux >> PGBITS`. Each side is modelled as written on its own, and `PageFault.SwapRecordFindsSlot` states the encoding the handler expects.
- Calls whose arity differs from the definitions are modelled after the definitions: `frame_alloc (vpage)`, `swap_out` with two arguments, `page_table_insert` without a thread, `install_page` calling `frame_table_set` with three arguments.
- Segment.LoadSegment: `frame_alloc`, `file_read` and `install_page` always succeed, and the failure returns are left out.
- PageFault.Handle: the file read of a mapped page and `swap_in` are recorded as the chosen source, not performed. `frame_alloc` and `install_page` success is one parameter. `kill` (which ends the process with exit(-1)) is the `Kill` outcome.
- `threads/vaddr.h`, `palloc.c`, `pagedir.c` and `lib/kernel/list.c` are not part of this model. PHYS_BASE is 0xC0000000. `list_max` with `thread_cmp` is taken to return the first element of highest priority.
- Scheduler.SetPriority: `thread_cmp` reads the waiters through the `elem` link although they are chained by `wait_elem`. The model compares the waiters' priorities as intended. The yield check after the update reads the front of a possibly empty ready list and is left out.
- UserStack.SetupStack: the false return when `frame_alloc` gives NULL or `install_page` fails (src/userprog/process.c:602-606) is left out; the model starts once the page is installed. The argument vector must fit the single stack page. More than 127 arguments overflow `argv[MAX_ARGV_LEN]` in `load`, and `Process.Parse` returns them all. Slot bytes after a truncated argument's NUL are zero only for a fresh page.
- `thread_create`, `thread_exit`, `thread_block`/`unblock`/`yield`, `timer.c` and the TIMER_FREQ/TIME_SLICE gating of `thread_tick` are left out. Each periodic update is modelled as one function.
- Scheduler.LoadStep: tids, the load and recent_cpu are unbounded integers. Their int32 overflow is not modelled.
- `syscall.c`, `process_execute`, `process_wait` and `process_exit` are outside the modelled core.

## Findings

| source | as written | input that shows it | evidently intended | confidence | as-written member | corrected member |
|---|---|---|---|---|---|---|
| src/filesys/inode.c:293 | `if(sectors == 0) goto re;` returns false for a zero-length inode before writing the record | `inode_create (sector, 0)` with any free map | a zero-length inode is created: its record is written with length 0 and it takes no sector | not executed | Inode.InodeCreateAsWritten | Inode.EmptyCreateSucceeds |
| src/filesys/filesys.c:88 | `filesys_create` passes the initial size to `inode_create`, which returns false for 0 | `filesys_create ("a", 0)` with "a" absent from the current directory and a sector free | an empty file is created | not executed | Filesys.FilesysCreate | Filesys.EmptyFileWithoutEarlyExit |
| src/userprog/exception.c:227 | the stack-growth window compares 32-bit pointer differences, which wrap | esp 0xBFFFF000, fault at 0x3FFFF000: both differences are -2^31, so the test passes and 0x80001 pages are mapped; a fault at 0x8 with esp 0xFFFFFFF0 also passes, the differences wrapping to 24 and -24 | grow the stack only for a fault within one page of esp | not executed | PageFault.NearStackWraps | PageFault.PageFault |
| src/threads/thread.c:346 | `thread_sleep` returns at once only for `ticks == 0` | `thread_sleep (-1)`: the count goes -1, -2, ... and never reaches 0 | return at once for every count that is not positive | not executed | Scheduler.SleepNegativeHangs | Scheduler.SleepWakesOnTime |

=== FILE: base.dfy ===
/** Shared vocabulary of the kernel model: the Option wrapper used for the
    C code's NULL / -1 sentinels, byte and machine-word ranges, and the
    little-endian codec for 16- and 32-bit words that every on-disk and
    in-memory layout (inode records, index blocks, ELF headers, the initial
    user stack) is built from. */
module Base {

  /** A value that may be missing: the C code's NULL pointer or -1 sentinel. */
  datatype Option<T> = None | Some(value: T)

  type Byte = b: int | 0 <= b < 0x100
  type U16 = h: int | 0 <= h < 0x1_0000
  type U32 = w: int | 0 <= w < 0x1_0000_0000

  const WORD_MODULUS: int := 0x1_0000_0000

  function Min(a: int, b: int): int { if a < b then a else b }

  function Max(a: int, b: int): int { if a < b then b else a }

  /** A 32-bit value reinterpreted as a two's complement `int32_t`
      (an unsigned ELF offset assigned to an `off_t`, a pointer
      difference). */
  function ToSigned32(w: U32): (r: int)
    ensures -0x8000_0000 <= r < 0x8000_0000
    ensures (r - w) % WORD_MODULUS == 0
    ensures w < 0x8000_0000 ==> r == w
  {
    if w < 0x8000_0000 then w else w - WORD_MODULUS
  }

  /** Reduces an unbounded integer to the 32-bit word C arithmetic yields. */
  function Wrap32(x: int): (r: U32)
    ensures (r - x) % WORD_MODULUS == 0
    ensures 0 <= x < WORD_MODULUS ==> r == x
  {
    x % WORD_MODULUS
  }

  function Zeros(n: nat): (z: seq<Byte>)
    ensures |z| == n
    ensures forall i :: 0 <= i < n ==> z[i] == 0
  {
    seq(n, i => 0)
  }

  // ---------------------------------------------------------------------
  // Little-endian words (x86 byte order)

  function EncodeWord(w: U32): (bs: seq<Byte>)
    ensures |bs| == 4
  {
    [w % 0x100, (w / 0x100) % 0x100, (w / 0x100 / 0x100) % 0x100, w / 0x100 / 0x100 / 0x100]
  }

  function DecodeWord(bs: seq<Byte>): U32
    requires |bs| == 4
  {
    bs[0] as int + 0x100 * (bs[1] as int + 0x100 * (bs[2] as int + 0x100 * bs[3] as int))
  }

  /** Decoding undoes encoding. */
  lemma DecodeEncodeWord(w: U32)
    ensures DecodeWord(EncodeWord(w)) == w
  {
    var q1 := w / 0x100;
    var q2 := q1 / 0x100;
    assert w == q1 * 0x100 + w % 0x100;
    assert q1 == q2 * 0x100 + q1 % 0x100;
    assert q2 == (q2 / 0x100) * 0x100 + q2 % 0x100;
  }

  /** Encoding undoes decoding: the four bytes are recovered. */
  lemma EncodeDecodeWord(bs: seq<Byte>)
    requires |bs| == 4
    ensures EncodeWord(DecodeWord(bs)) == bs
  {
    var w := DecodeWord(bs);
    var hi2 := bs[2] as int + 0x100 * bs[3] as int;
    var hi := bs[1] as int + 0x100 * hi2;
    assert w == bs[0] as int + 0x100 * hi;
    assert w % 0x100 == bs[0] && w / 0x100 == hi;
    assert hi % 0x100 == bs[1] && hi / 0x100 == hi2;
    assert hi2 % 0x100 == bs[2] && hi2 / 0x100 == bs[3];
  }

  /** The bytes of a word array laid out back to back, as the C code's
      `uint32_t` arrays sit in a sector buffer. */
  function EncodeWords(ws: seq<U32>): (bs: seq<Byte>)
    ensures |bs| == 4 * |ws|
  {
    if |ws| == 0 then [] else EncodeWord(ws[0]) + EncodeWords(ws[1..])
  }

  /** The k-th 32-bit word of a byte buffer. */
  function WordAt(bs: seq<Byte>, k: nat): U32
    requires 4 * k + 4 <= |bs|
  {
    DecodeWord(bs[4 * k .. 4 * k + 4])
  }

  /** Reading word k back from an encoded array yields element k. */
  lemma {:induction false} WordAtEncodeWords(ws: seq<U32>, k: nat)
    requires k < |ws|
    ensures WordAt(EncodeWords(ws), k) == ws[k]
  {
    var bs := EncodeWords(ws);
    if k == 0 {
      assert bs[0..4] == EncodeWord(ws[0]);
      DecodeEncodeWord(ws[0]);
    } else {
      var tail := EncodeWords(ws[1..]);
      assert bs == EncodeWord(ws[0]) + tail;
      assert bs[4 * k .. 4 * k + 4] == tail[4 * (k - 1) .. 4 * (k - 1) + 4];
      WordAtEncodeWords(ws[1..], k - 1);
    }
  }

  /** Bytes appended after a word do not change it. */
  lemma WordAtPrefix(bs: seq<Byte>, rest: seq<Byte>, k: nat)
    requires 4 * k + 4 <= |bs|
    ensures WordAt(bs + rest, k) == WordAt(bs, k)
  {
    var a := (bs + rest)[4 * k .. 4 * k + 4];
    assert a == bs[4 * k .. 4 * k + 4];
  }

  /** An array of zero words encodes as zero bytes. */
  lemma {:induction false} EncodeZeroWords(ws: seq<U32>)
    requires forall i :: 0 <= i < |ws| ==> ws[i] == 0
    ensures EncodeWords(ws) == Zeros(4 * |ws|)
  {
    if |ws| > 0 {
      EncodeZeroWords(ws[1..]);
    }
  }

  function DecodeHalf(bs: seq<Byte>): U16
    requires |bs| == 2
  {
    bs[0] as int + 0x100 * bs[1] as int
  }
}

=== FILE: blockmap.dfy ===
/** Tier arithmetic of the indexed inode (src/filesys/inode.c): twelve
    direct sectors, one single-indirect index sector of 128 entries and one
    double-indirect index sector of 128 second-level index sectors. A data
    sector's position k in the file (byte offset / 512) determines its slot. */
module BlockMap {

  const BLOCK_SECTOR_SIZE: int := 512
  const DIRECT_BLOCK: int := 12
  const SECTORS_PER_BLOCK: int := 128
  const DIRECT_LIMIT: int := 6144
  const IDIRECT_LIMIT: int := 71680
  const DIDIRECT_LIMIT: int := 8460288

  /** Data sectors reachable through the direct and single-indirect tiers. */
  const INDIRECT_END: int := 140

  /** Number of data sectors a maximal inode addresses. */
  const MAX_SECTORS: int := 16524

  /** The constants are the source's derived expressions: 4-byte entries per
      index sector and the byte limits of the three tiers. */
  lemma Limits()
    ensures SECTORS_PER_BLOCK == BLOCK_SECTOR_SIZE / 4
    ensures DIRECT_LIMIT == DIRECT_BLOCK * BLOCK_SECTOR_SIZE
    ensures IDIRECT_LIMIT == DIRECT_LIMIT + BLOCK_SECTOR_SIZE * SECTORS_PER_BLOCK
    ensures DIDIRECT_LIMIT == IDIRECT_LIMIT + BLOCK_SECTOR_SIZE * SECTORS_PER_BLOCK * SECTORS_PER_BLOCK
    ensures INDIRECT_END == DIRECT_BLOCK + SECTORS_PER_BLOCK
    ensures MAX_SECTORS * BLOCK_SECTOR_SIZE == DIDIRECT_LIMIT
    ensures MAX_SECTORS == INDIRECT_END + SECTORS_PER_BLOCK * SECTORS_PER_BLOCK
  {
  }

  /** `bytes_to_sectors`: `DIV_ROUND_UP (size, BLOCK_SECTOR_SIZE)`, the
      fewest whole sectors that hold `size` bytes. */
  function BytesToSectors(size: int): (n: nat)
    requires size >= 0
    ensures BLOCK_SECTOR_SIZE * n >= size
    ensures BLOCK_SECTOR_SIZE * (n - 1) < size || n == 0
    ensures n == 0 <==> size == 0
    ensures size < DIDIRECT_LIMIT ==> n <= MAX_SECTORS
  {
    (size + BLOCK_SECTOR_SIZE - 1) / BLOCK_SECTOR_SIZE
  }

  /** Where the k-th data sector of a file is recorded. */
  datatype Slot =
    | Direct(i: nat)                 // dblock[i]
    | Indirect(i: nat)               // entry i of the iblock sector
    | Doubly(outer: nat, inner: nat) // entry inner of second-level sector `outer`

  predicate ValidSlot(s: Slot)
  {
    match s
    case Direct(i) => i < DIRECT_BLOCK
    case Indirect(i) => i < SECTORS_PER_BLOCK
    case Doubly(o, i) => o < SECTORS_PER_BLOCK && i < SECTORS_PER_BLOCK
  }

  /** The placement `map_sector_to_inode` gives to the k-th allocated sector. */
  function SlotOf(k: nat): (s: Slot)
    requires k < MAX_SECTORS
    ensures ValidSlot(s)
  {
    if k < DIRECT_BLOCK then Direct(k)
    else if k < INDIRECT_END then Indirect(k - DIRECT_BLOCK)
    else Doubly((k - INDIRECT_END) / SECTORS_PER_BLOCK, (k - INDIRECT_END) % SECTORS_PER_BLOCK)
  }

  /** The file position a slot stands for. */
  function IndexOf(s: Slot): (k: nat)
    requires ValidSlot(s)
    ensures k < MAX_SECTORS
  {
    match s
    case Direct(i) => i
    case Indirect(i) => DIRECT_BLOCK + i
    case Doubly(o, i) => INDIRECT_END + SECTORS_PER_BLOCK * o + i
  }

  /** Every file position has its own slot ... */
  lemma IndexOfSlotOf(k: nat)
    requires k < MAX_SECTORS
    ensures IndexOf(SlotOf(k)) == k
  {
  }

  /** ... and every slot its own file position: the placement is a
      bijection between [0, MAX_SECTORS) and the valid slots. */
  lemma SlotOfIndexOf(s: Slot)
    requires ValidSlot(s)
    ensures SlotOf(IndexOf(s)) == s
  {
    if s.Doubly? {
      var d := SECTORS_PER_BLOCK * s.outer + s.inner;
      assert d / SECTORS_PER_BLOCK == s.outer && d % SECTORS_PER_BLOCK == s.inner;
    }
  }

  /** The slot `byte_to_sector` reads for byte offset `pos`, computed with
      its own branch tests (on bytes) and index formulas (`offs_b`, `offs_d`,
      `off_i`). It is the slot of sector position pos / 512. */
  function SlotOfByte(pos: nat): (s: Slot)
    requires pos < DIDIRECT_LIMIT
    ensures ValidSlot(s)
    ensures s == SlotOf(pos / BLOCK_SECTOR_SIZE)
  {
    if pos < DIRECT_LIMIT then Direct(pos / BLOCK_SECTOR_SIZE)
    else if pos < IDIRECT_LIMIT then Indirect(pos / BLOCK_SECTOR_SIZE - DIRECT_BLOCK)
    else
      var offsB := pos / BLOCK_SECTOR_SIZE - DIRECT_BLOCK - SECTORS_PER_BLOCK;
      var offsD := offsB / SECTORS_PER_BLOCK;
      var offI := offsB - offsD * SECTORS_PER_BLOCK;
      Doubly(offsD, offI)
  }

  /** Second-level index sectors needed for n data sectors. */
  function NumChunks(n: nat): nat
  {
    if n <= INDIRECT_END then 0 else (n - INDIRECT_END + SECTORS_PER_BLOCK - 1) / SECTORS_PER_BLOCK
  }

  /** Index sectors `map_sector_to_inode` allocates for n data sectors: the
      single-indirect one once n reaches 12 (even at exactly 12), the
      double-indirect one once n reaches 140 (even at exactly 140), and one
      second-level sector per started run of 128 beyond 140. */
  function IndexBlocksNeeded(n: nat): (e: nat)
    requires n <= MAX_SECTORS
    ensures e == 0 <==> n < DIRECT_BLOCK
    ensures n >= INDIRECT_END ==> e == 2 + NumChunks(n)
    ensures NumChunks(n) <= SECTORS_PER_BLOCK
  {
    (if n >= DIRECT_BLOCK then 1 else 0) + (if n >= INDIRECT_END then 1 + NumChunks(n) else 0)
  }

  /** A run of sector numbers cut into pieces of 128: the contents of the
      second-level index sectors. */
  function Chunks<T>(s: seq<T>): (cs: seq<seq<T>>)
    ensures |cs| == (|s| + SECTORS_PER_BLOCK - 1) / SECTORS_PER_BLOCK
    ensures forall i :: 0 <= i < |cs| ==>
              |cs[i]| == if |s| - SECTORS_PER_BLOCK * i < SECTORS_PER_BLOCK
                         then |s| - SECTORS_PER_BLOCK * i else SECTORS_PER_BLOCK
    ensures forall i, j :: 0 <= i < |cs| && 0 <= j < |cs[i]| ==>
              SECTORS_PER_BLOCK * i + j < |s| && cs[i][j] == s[SECTORS_PER_BLOCK * i + j]
    decreases |s|
  {
    if |s| <= SECTORS_PER_BLOCK then (if |s| == 0 then [] else [s])
    else
      var rest := Chunks(s[SECTORS_PER_BLOCK..]);
      assert forall i :: 1 <= i < |rest| + 1 ==>
        SECTORS_PER_BLOCK * i == SECTORS_PER_BLOCK + SECTORS_PER_BLOCK * (i - 1);
      [s[..SECTORS_PER_BLOCK]] + rest
  }
}

=== FILE: cache.dfy ===
/** The buffer-cache ring of src/filesys/cache.c: 256 slots kept in a list,
    each bound to a disk sector (or to the all-ones "no sector" value) and
    carrying access/dirty flags and the offset of its 512-byte buffer inside
    one cache region. Searching walks the ring front to back; loading a
    sector looks for a victim by rotating dirty slots to the back until a
    clean one reaches the front. */
module Cache {
  import opened Base

  const CACHE_SIZE: int := 256
  const CACHE_SECTOR_SIZE: int := 512
  const PC_A: int := 0x1
  const PC_D: int := 0x2

  /** `(block_sector_t) -1`: the sector a fresh slot is bound to. */
  const NO_SECTOR: U32 := 0xFFFF_FFFF

  /** `struct _block_sector` without its list link; `buffer` is the byte
      offset of `data` inside the cache region. */
  datatype CacheSlot = CacheSlot(sector: U32, flags: U32, buffer: nat)

  /** The ring, front first. */
  type Ring = seq<CacheSlot>

  /** The `PC_D` bit of the flags. */
  predicate Dirty(s: CacheSlot)
  {
    (s.flags / PC_D) % 2 == 1
  }

  /** `page_cache_init`: CACHE_SIZE slots in order, none bound, no flags,
      slot i owning bytes i*512 .. i*512+511 of the region. */
  function CacheInit(): (r: Ring)
    ensures |r| == CACHE_SIZE
    ensures forall i :: 0 <= i < |r| ==> r[i].sector == NO_SECTOR && r[i].flags == 0
    ensures forall i :: 0 <= i < |r| ==> r[i].buffer == i * CACHE_SECTOR_SIZE
  {
    seq(CACHE_SIZE, i requires 0 <= i < CACHE_SIZE => CacheSlot(NO_SECTOR, 0, i * CACHE_SECTOR_SIZE))
  }

  /** The buffers of a fresh ring are pairwise disjoint and lie inside the
      CACHE_SIZE * 512 byte region. */
  lemma InitBuffersDisjoint(i: nat, j: nat)
    requires i < j < CACHE_SIZE
    ensures var r := CacheInit();
            r[i].buffer + CACHE_SECTOR_SIZE <= r[j].buffer
            && r[j].buffer + CACHE_SECTOR_SIZE <= CACHE_SIZE * CACHE_SECTOR_SIZE
  {
  }

  /** Index of the first slot bound to `sector`, if any. */
  function FirstBound(ring: Ring, sector: U32, from: nat): (r: Option<nat>)
    requires from <= |ring|
    ensures r.Some? ==> from <= r.value < |ring| && ring[r.value].sector == sector
    ensures r.Some? ==> forall j :: from <= j < r.value ==> ring[j].sector != sector
    ensures r.None? ==> forall j :: from <= j < |ring| ==> ring[j].sector != sector
    decreases |ring| - from
  {
    if from == |ring| then None
    else if ring[from].sector == sector then Some(from)
    else FirstBound(ring, sector, from + 1)
  }

  /** `page_cache_search`: the buffer of the first slot in ring order bound
      to `sector`, or NULL. The ring is not changed (the result is all the
      function returns). */
  method PageCacheSearch(ring: Ring, sector: U32) returns (r: Option<nat>)
    ensures r.None? <==> forall j :: 0 <= j < |ring| ==> ring[j].sector != sector
    ensures r.Some? ==> exists i :: 0 <= i < |ring| && ring[i].sector == sector && r.value == ring[i].buffer
                          && forall j :: 0 <= j < i ==> ring[j].sector != sector
    ensures var f := FirstBound(ring, sector, 0);
            r == if f.Some? then Some(ring[f.value].buffer) else None
  {
    var i := 0;
    while i < |ring|
      invariant 0 <= i <= |ring|
      invariant forall j :: 0 <= j < i ==> ring[j].sector != sector
      invariant FirstBound(ring, sector, 0) == FirstBound(ring, sector, i)
    {
      if ring[i].sector == sector {
        return Some(ring[i].buffer);
      }
      i := i + 1;
    }
    return None;
  }

  /** Searching agrees with the first-match reference. */
  lemma SearchIsFirstBound(ring: Ring, sector: U32, i: nat)
    requires i < |ring| && ring[i].sector == sector
    requires forall j :: 0 <= j < i ==> ring[j].sector != sector
    ensures FirstBound(ring, sector, 0) == Some(i)
  {
    if FirstBound(ring, sector, 0).Some? {
      var k := FirstBound(ring, sector, 0).value;
      assert !(k < i) && !(i < k);
    }
  }

  /** A fresh ring finds nothing for a real sector, while a search for the
      all-ones value hits the first unbound slot: the search does not tell
      "unbound" from "bound to sector 0xFFFFFFFF". */
  lemma InitSearch(sector: U32)
    ensures sector != NO_SECTOR ==> FirstBound(CacheInit(), sector, 0).None?
    ensures sector == NO_SECTOR ==> FirstBound(CacheInit(), sector, 0) == Some(0)
  {
    var r := CacheInit();
    if sector == NO_SECTOR {
      SearchIsFirstBound(r, sector, 0);
    }
  }

  predicate HasClean(ring: Ring)
  {
    exists i :: 0 <= i < |ring| && !Dirty(ring[i])
  }

  /** Index of the first clean slot. */
  function FirstClean(ring: Ring): (k: nat)
    requires HasClean(ring)
    ensures k < |ring| && !Dirty(ring[k])
    ensures forall j :: 0 <= j < k ==> Dirty(ring[j])
    decreases |ring|
  {
    if !Dirty(ring[0]) then 0
    else
      var i :| 0 <= i < |ring| && !Dirty(ring[i]);
      assert 0 <= i - 1 < |ring[1..]| && !Dirty(ring[1..][i - 1]);
      1 + FirstClean(ring[1..])
  }

  /** `page_cache_load`'s victim scan: pop the front slot; a dirty one goes
      to the back, the first clean one is taken out of the ring. The scan
      only ends if some slot is clean. The `sector` argument is never used
      by the code and is left out. */
  method PageCacheLoad(ring: Ring) returns (victim: CacheSlot, rest: Ring)
    requires HasClean(ring)
    ensures var k := FirstClean(ring);
            victim == ring[k] && rest == ring[k + 1..] + ring[..k]
  {
    var k := FirstClean(ring);
    var cur := ring;
    var popped := 0;
    while true
      invariant 0 <= popped <= k
      invariant cur == ring[popped..] + ring[..popped]
      decreases k - popped
    {
      var b := cur[0];
      var tail := cur[1..];
      if !Dirty(b) {
        assert popped == k;
        victim := b;
        rest := tail;
        return;
      }
      assert popped < k;
      cur := tail + [b];
      assert cur == ring[popped + 1..] + ring[..popped + 1];
      popped := popped + 1;
    }
  }

  /** Loading keeps every slot but the victim: the ring loses exactly one
      slot. */
  lemma LoadKeepsOthers(ring: Ring)
    requires HasClean(ring)
    ensures var k := FirstClean(ring);
            multiset(ring[k + 1..] + ring[..k]) + multiset{ring[k]} == multiset(ring)
  {
    var k := FirstClean(ring);
    assert ring == ring[..k] + [ring[k]] + ring[k + 1..];
    Rotated(ring[..k], ring[k], ring[k + 1..]);
  }

  /** Taking x out of `a + [x] + b` and putting a behind b loses only x. */
  lemma Rotated<T>(a: seq<T>, x: T, b: seq<T>)
    ensures multiset(b + a) + multiset{x} == multiset(a + [x] + b)
  {
    assert multiset(a + [x] + b) == multiset(a) + multiset([x]) + multiset(b);
    assert multiset(b + a) == multiset(b) + multiset(a);
  }

  /** The dirty slots rotated to the back keep their relative order and
      are all dirty; the slots after the victim keep theirs. */
  lemma LoadRotatesDirty(ring: Ring)
    requires HasClean(ring)
    ensures var k := FirstClean(ring);
            var rest := ring[k + 1..] + ring[..k];
            |rest| == |ring| - 1
            && (forall j :: 0 <= j < k ==> rest[|ring| - 1 - k + j] == ring[j] && Dirty(rest[|ring| - 1 - k + j]))
            && (forall j :: k < j < |ring| ==> rest[j - k - 1] == ring[j])
  {
  }
}

=== FILE: directory.dfy ===
/** The directory entry table of src/filesys/directory.c. A directory's
    data is a run of 20-byte `struct dir_entry` records (sector number,
    15-byte NUL-terminated name, in-use flag); the model keeps the records a
    whole-entry read returns, in file order, so that entry k is the one at
    byte offset 20 * k. Entries 0 and 1 are `.` and `..`. */
module Directory {
  import opened Base
  import opened Disk
  import opened Inode
  import opened InodeTable

  const NAME_MAX: int := 14
  const ENTRY_SIZE: int := 20

  /** Byte offset of the first entry after `.` and `..`. */
  const FIRST_ENTRY_OFS: int := 40

  /** `struct dir_entry`; `name` holds the characters before the NUL. */
  datatype DirEntry = DirEntry(inodeSector: U32, name: string, inUse: bool)

  type Entries = seq<DirEntry>

  predicate Named(e: DirEntry, name: string)
  {
    e.inUse && e.name == name
  }

  /** Position of the first in-use entry called `name` at or after `from`. */
  function FindName(es: Entries, name: string, from: nat): (r: Option<nat>)
    requires from <= |es|
    ensures r.Some? ==> from <= r.value < |es| && Named(es[r.value], name)
    ensures r.Some? ==> forall j :: from <= j < r.value ==> !Named(es[j], name)
    ensures r.None? <==> forall j :: from <= j < |es| ==> !Named(es[j], name)
    decreases |es| - from
  {
    if from == |es| then None
    else if Named(es[from], name) then Some(from)
    else FindName(es, name, from + 1)
  }

  /** `lookup`: the first in-use entry called `name`, scanning whole
      entries from offset 0; its byte offset is 20 times the index. */
  function Lookup(es: Entries, name: string): (r: Option<nat>)
    ensures r.Some? ==> r.value < |es| && Named(es[r.value], name)
    ensures r.Some? ==> forall j :: 0 <= j < r.value ==> !Named(es[j], name)
    ensures r.None? <==> forall j :: 0 <= j < |es| ==> !Named(es[j], name)
  {
    FindName(es, name, 0)
  }

  /** Any entry that is the first of its name is what `lookup` finds. */
  lemma LookupFirst(es: Entries, name: string, k: nat)
    requires k < |es| && Named(es[k], name)
    requires forall j :: 0 <= j < k ==> !Named(es[j], name)
    ensures Lookup(es, name) == Some(k)
  {
    var r := Lookup(es, name);
    assert r.Some?;
    assert !(r.value < k) && !(k < r.value);
  }

  /** Position of the first entry not in use at or after `from`. */
  function FirstFree(es: Entries, from: nat): (r: Option<nat>)
    requires from <= |es|
    ensures r.Some? ==> from <= r.value < |es| && !es[r.value].inUse
    ensures r.Some? ==> forall j :: from <= j < r.value ==> es[j].inUse
    ensures r.None? <==> forall j :: from <= j < |es| ==> es[j].inUse
    decreases |es| - from
  {
    if from == |es| then None
    else if !es[from].inUse then Some(from)
    else FirstFree(es, from + 1)
  }

  /** A name `dir_add` accepts: non-empty and at most NAME_MAX characters. */
  predicate ValidName(name: string)
  {
    0 < |name| <= NAME_MAX
  }

  /** `dir_add`: rejects an invalid name and a name already present; then
      writes the entry into the first free whole entry. With none free the
      write at the end of the file comes up short and the call fails. */
  function DirAdd(es: Entries, name: string, sector: U32): (r: (bool, Entries))
    ensures r.0 <==> ValidName(name) && Lookup(es, name).None? && FirstFree(es, 0).Some?
    ensures !r.0 ==> r.1 == es
    ensures |r.1| == |es|
    ensures r.0 ==> var k := FirstFree(es, 0).value;
              r.1[k] == DirEntry(sector, name, true)
              && forall j :: 0 <= j < |es| && j != k ==> r.1[j] == es[j]
  {
    if |name| == 0 || |name| > NAME_MAX then (false, es)
    else if Lookup(es, name).Some? then (false, es)
    else match FirstFree(es, 0)
      case None => (false, es)
      case Some(k) => (true, es[k := DirEntry(sector, name, true)])
  }

  /** After a successful add, looking the name up finds the new entry,
      which names the given sector. */
  lemma AddThenLookup(es: Entries, name: string, sector: U32)
    requires DirAdd(es, name, sector).0
    ensures var es' := DirAdd(es, name, sector).1;
            var k := Lookup(es', name);
            k.Some? && k == FirstFree(es, 0) && es'[k.value].inodeSector == sector
  {
    var es' := DirAdd(es, name, sector).1;
    var k := FirstFree(es, 0).value;
    LookupFirst(es', name, k);
  }

  /** An add touches no other name: every other lookup is unchanged. */
  lemma AddKeepsLookups(es: Entries, name: string, sector: U32, other: string)
    requires other != name
    ensures var es' := DirAdd(es, name, sector).1;
            Lookup(es', other) == Lookup(es, other)
            && (Lookup(es, other).Some? ==> es'[Lookup(es, other).value] == es[Lookup(es, other).value])
  {
    var r := DirAdd(es, name, sector);
    if r.0 {
      var es' := r.1;
      var k := FirstFree(es, 0).value;
      assert forall j :: 0 <= j < |es| ==> (Named(es'[j], other) <==> Named(es[j], other));
      match Lookup(es, other)
      case Some(i) =>
        LookupFirst(es', other, i);
      case None =>
    }
  }

  /** `dir_lookup`: on a hit the entry's inode is opened (one more opener
      in the registry) and returned; on a miss nothing changes. */
  function DirLookup(es: Entries, name: string, reg: Registry, d: Store): (r: (Option<Sector>, Registry))
    ensures r.0.None? <==> Lookup(es, name).None?
    ensures r.0.None? ==> r.1 == reg
    ensures r.0.Some? ==> IsOpen(r.1, r.0.value) && es[Lookup(es, name).value].inodeSector == r.0.value
  {
    match Lookup(es, name)
    case None => (None, reg)
    case Some(k) =>
      var s := es[k].inodeSector;
      (Some(s), InodeOpen(reg, d, s))
  }

  /** Closing what `dir_lookup` opened leaves the registry as it was. */
  lemma LookupThenClose(es: Entries, name: string, reg: Registry, d: Store, fm: FreeMap)
    requires Sound(reg) && Lookup(es, name).Some?
    requires Readable(d, es[Lookup(es, name).value].inodeSector)
    ensures var r := DirLookup(es, name, reg, d);
            r.0.Some? && OpenedEntrySound(reg, d, r.0.value)
            && InodeClose(r.1, d, fm, r.0) == (reg, fm)
  {
    var s := es[Lookup(es, name).value].inodeSector;
    OpenedEntry(reg, d, s);
    CloseAfterOpen(reg, d, fm, s);
  }

  // ---------------------------------------------------------------------
  // Registry facts used by removal

  /** Every inode an in-use entry names can be opened and released. */
  predicate EntriesReadable(es: Entries, d: Store)
  {
    forall i :: 0 <= i < |es| && es[i].inUse ==> Readable(d, es[i].inodeSector)
  }

  /** What `inode_open (sector)` hands back can be closed again. */
  predicate OpenedEntrySound(reg: Registry, d: Store, sector: Sector)
  {
    var e := Opened(reg, d, sector);
    e.openCnt > 0 && WellFormed(e.data) && 0 <= Length(e.data)
  }

  lemma OpenedSound(reg: Registry, d: Store, sector: Sector)
    requires Sound(reg) && Readable(d, sector)
    ensures OpenedEntrySound(reg, d, sector)
  {
  }

  /** Opening and then closing a sector leaves the registry and the free
      map as they were. */
  lemma CloseAfterOpen(reg: Registry, d: Store, fm: FreeMap, sector: Sector)
    requires Sound(reg) && Readable(d, sector)
    ensures OpenedEntrySound(reg, d, sector)
    ensures var r := InodeOpen(reg, d, sector);
            IsOpen(r, sector) && InodeClose(r, d, fm, Some(sector)) == (reg, fm)
  {
    OpenedEntry(reg, d, sector);
    match Find(reg, sector)
    case Some(i) =>
      OpenExisting(reg, d, sector, i);
      ReopenThenClose(reg, d, fm, sector);
      assert InodeReopen(reg, Some(sector)) == InodeOpen(reg, d, sector);
    case None =>
      OpenThenClose(reg, d, fm, sector);
  }

  // ---------------------------------------------------------------------
  // Emptiness, removal, listing

  /** `dir_isempty`: no entry in use from byte offset 40 on. */
  predicate IsEmpty(es: Entries)
  {
    forall i :: 2 <= i < |es| ==> !es[i].inUse
  }

  /** The scan of `dir_isempty`, by byte offset: whole entries are read
      from offset 40 until a read comes up short. */
  method DirIsEmpty(es: Entries) returns (empty: bool)
    ensures empty <==> IsEmpty(es)
  {
    var ofs := FIRST_ENTRY_OFS;
    while ofs + ENTRY_SIZE <= ENTRY_SIZE * |es|
      invariant FIRST_ENTRY_OFS <= ofs && ofs % ENTRY_SIZE == 0
      invariant forall i :: 2 <= i < ofs / ENTRY_SIZE && i < |es| ==> !es[i].inUse
      decreases ENTRY_SIZE * |es| - ofs
    {
      var e := es[ofs / ENTRY_SIZE];
      if e.inUse {
        return false;
      }
      ofs := ofs + ENTRY_SIZE;
    }
    return true;
  }

  /** What `inode_open (sector)->data.flags` says: the inode is a
      directory. The registered copy of the record is read if the sector is
      open, otherwise the record on disk. */
  predicate IsDirInode(reg: Registry, d: Store, sector: Sector)
  {
    Opened(reg, d, sector).data.flags != 0
  }

  /** The entry lists in `dirs` stand for the directory inodes: an in-use
      entry of `es` names a sector with an entry list exactly when that
      sector's record has non-zero flags. */
  predicate KindsMatch(es: Entries, dirs: map<U32, Entries>, reg: Registry, d: Store)
  {
    forall i :: 0 <= i < |es| && es[i].inUse ==>
      (es[i].inodeSector in dirs <==> IsDirInode(reg, d, es[i].inodeSector))
  }

  /** Opening a sector changes no record the registry hands back, so no
      inode changes kind. */
  lemma OpenKeepsKinds(reg: Registry, d: Store, w: Sector, s: Sector)
    requires UniqueSectors(reg)
    ensures Opened(InodeOpen(reg, d, w), d, s).data == Opened(reg, d, s).data
  {
    var r := InodeOpen(reg, d, w);
    OpenedEntry(reg, d, w);
    if s != w {
      if IsOpen(reg, w) {
        FindSameSectors(reg, r, s);
      } else {
        assert r == [r[0]] + reg && r[0].sector == w;
        match Find(reg, s)
        case Some(i) =>
          FindUnique(r, s, i + 1);
        case None =>
          forall j | 0 <= j < |r|
            ensures r[j].sector != s
          {
            if j > 0 {
              assert r[j] == reg[j - 1];
            }
          }
      }
    }
  }

  lemma OpenKeepsKindsMatch(es: Entries, dirs: map<U32, Entries>, reg: Registry, d: Store, w: Sector)
    requires UniqueSectors(reg) && KindsMatch(es, dirs, reg, d)
    ensures KindsMatch(es, dirs, InodeOpen(reg, d, w), d)
  {
    forall i | 0 <= i < |es| && es[i].inUse
      ensures es[i].inodeSector in dirs <==> IsDirInode(InodeOpen(reg, d, w), d, es[i].inodeSector)
    {
      OpenKeepsKinds(reg, d, w, es[i].inodeSector);
    }
  }

  /** The outcome of `dir_remove`: the verdict, the directory's entries,
      the open-inode registry and the free map afterwards. */
  datatype Removal = Removal(ok: bool, es: Entries, reg: Registry, fm: FreeMap)

  /** `dir_remove`. The entry must exist and name neither the root
      directory nor the caller's current directory. The target is opened;
      a directory open elsewhere, or holding any entry past `.` and `..`,
      is refused (and closed again). Otherwise the entry's in-use flag is
      cleared, the inode is marked removed and closed, which releases its
      sectors if no one else has it open. Whether the target is a directory
      is read from the opened inode's flags; its entries are those `dirs`
      holds for it. */
  function DirRemove(es: Entries, name: string, root: U32, cwd: U32,
                     reg: Registry, d: Store, fm: FreeMap, dirs: map<U32, Entries>): (r: Removal)
    requires Sound(reg)
    requires EntriesReadable(es, d) && KindsMatch(es, dirs, reg, d)
    ensures |r.es| == |es|
  {
    match Lookup(es, name)
    case None => Removal(false, es, reg, fm)
    case Some(k) =>
      var s := es[k].inodeSector;
      if s == root || s == cwd then Removal(false, es, reg, fm)
      else
        var entry := Opened(reg, d, s);
        var isDir := entry.data.flags != 0;
        if (isDir && entry.openCnt > 1) || (isDir && !IsEmpty(dirs[s])) then
          Removal(false, es, reg, fm)
        else
          var closed := Unlink(reg, d, fm, s);
          Removal(true, Clear(es, k), closed.0, closed.1)
  }

  /** The inode side of a successful `dir_remove`: open the target, mark
      it removed, close it. */
  function Unlink(reg: Registry, d: Store, fm: FreeMap, s: Sector): (r: (Registry, FreeMap))
    requires Sound(reg) && Readable(d, s)
  {
    var reg1 := InodeOpen(reg, d, s);
    OpenedEntry(reg, d, s);
    var reg2 := InodeRemove(reg1, s);
    FindSameSectors(reg1, reg2, s);
    InodeClose(reg2, d, fm, Some(s))
  }

  /** Unlinking keeps the registry sound and keeps every other open
      sector open. */
  lemma UnlinkKeepsSound(reg: Registry, d: Store, fm: FreeMap, s: Sector)
    requires Sound(reg) && Readable(d, s)
    ensures Sound(Unlink(reg, d, fm, s).0)
  {
    var reg1 := InodeOpen(reg, d, s);
    OpenKeepsSound(reg, d, s);
    RemoveKeepsSound(reg1, s);
    CloseKeepsSound(InodeRemove(reg1, s), d, fm, s);
  }

  lemma UnlinkKeepsOpen(reg: Registry, d: Store, fm: FreeMap, s: Sector, w: Sector)
    requires Sound(reg) && Readable(d, s)
    requires w != s && IsOpen(reg, w)
    ensures IsOpen(Unlink(reg, d, fm, s).0, w)
  {
    var reg1 := InodeOpen(reg, d, s);
    OpenKeepsSound(reg, d, s);
    OpenKeepsOpen(reg, d, s, w);
    RemoveKeepsSound(reg1, s);
    CloseKeepsOpen(InodeRemove(reg1, s), d, fm, s, w);
  }

  /** Unlinking an inode nobody else has open takes it out of the registry
      and gives back its sector. */
  lemma UnlinkReleases(reg: Registry, d: Store, fm: FreeMap, s: Sector)
    requires Sound(reg) && Readable(d, s)
    requires !IsOpen(reg, s)
    ensures var r := Unlink(reg, d, fm, s);
            !IsOpen(r.0, s) && fm.free + [s] <= r.1.free
  {
    var reg1 := InodeOpen(reg, d, s);
    OpenedEntry(reg, d, s);
    var reg2 := InodeRemove(reg1, s);
    FindSameSectors(reg1, reg2, s);
  }

  /** Unlinking an inode that is open elsewhere keeps it registered, marked
      removed, and keeps its sectors until its last close. */
  lemma UnlinkDefers(reg: Registry, d: Store, fm: FreeMap, s: Sector)
    requires Sound(reg) && Readable(d, s)
    requires IsOpen(reg, s)
    ensures var r := Unlink(reg, d, fm, s);
            r.1 == fm && IsOpen(r.0, s) && r.0[Find(r.0, s).value].removed
  {
    var reg1 := InodeOpen(reg, d, s);
    OpenedEntry(reg, d, s);
    var reg2 := InodeRemove(reg1, s);
    FindSameSectors(reg1, reg2, s);
    var i := Find(reg1, s).value;
    var closed := InodeClose(reg2, d, fm, Some(s));
    assert closed.0 == reg2[i := reg2[i].(openCnt := reg2[i].openCnt - 1)];
    FindSameSectors(reg2, closed.0, s);
  }

  /** Unlinking `s` changes what the registry holds for no other sector.
      Either `s` stays open elsewhere and nothing is given back, or it
      leaves the registry and its sector and then the sectors its record
      holds go back to the free list. */
  lemma UnlinkAgrees(reg: Registry, d: Store, fm: FreeMap, s: Sector)
    requires Sound(reg) && Readable(d, s)
    ensures OpenedEntrySound(reg, d, s)
    ensures var r := Unlink(reg, d, fm, s);
            AgreeBut(r.0, reg, s)
            && (IsOpen(r.0, s) <==> IsOpen(reg, s))
            && (IsOpen(r.0, s) ==> r.1 == fm)
            && (!IsOpen(r.0, s) ==> r.1.free == fm.free + [s] + Holdings(Opened(reg, d, s).data, d))
  {
    var reg1 := InodeOpen(reg, d, s);
    OpenedEntry(reg, d, s);
    OpenKeepsSound(reg, d, s);
    OpenAgrees(reg, d, s);
    EntryAt(reg1, s, Find(reg1, s).value);
    var reg2 := InodeRemove(reg1, s);
    RemoveKeepsSound(reg1, s);
    RemoveAgrees(reg1, s);
    var r := InodeClose(reg2, d, fm, Some(s));
    CloseAgrees(reg2, d, fm, s);
    var e := Opened(reg, d, s);
    FindSameSectors(reg1, reg2, s);
    assert reg2[Find(reg2, s).value] == e.(removed := true);
    if e.openCnt == 1 {
      ReleaseAppendsHoldings(e.data, d, Release(fm, s));
    }
  }

  /** Unlinking `s` while the parent `w` is held open, then closing the
      parent, as `dir_remove` and its caller do. */
  function UnlinkHeld(reg: Registry, d: Store, fm: FreeMap, w: Sector, s: Sector): (r: (Registry, FreeMap))
    requires Sound(reg) && Readable(d, w) && Readable(d, s) && s != w
  {
    var held := InodeOpen(reg, d, w);
    OpenKeepsSound(reg, d, w);
    UnlinkKeepsSound(held, d, fm, s);
    UnlinkKeepsOpen(held, d, fm, s, w);
    var u := Unlink(held, d, fm, s);
    InodeClose(u.0, d, u.1, Some(w))
  }

  /** Holding the parent open changes nothing for the unlinked inode: what
      the registry holds changes for no sector but `s`, and `s` stays open
      exactly when it was open before. */
  lemma HeldUnlinkAgrees(reg: Registry, d: Store, fm: FreeMap, w: Sector, s: Sector)
    requires Sound(reg) && Readable(d, w) && Readable(d, s) && s != w
    ensures var c := UnlinkHeld(reg, d, fm, w, s);
            AgreeBut(c.0, reg, s) && (IsOpen(c.0, s) <==> IsOpen(reg, s))
  {
    var held := InodeOpen(reg, d, w);
    OpenKeepsSound(reg, d, w);
    UnlinkKeepsSound(held, d, fm, s);
    UnlinkKeepsOpen(held, d, fm, s, w);
    var u := Unlink(held, d, fm, s);
    OpenAgrees(reg, d, w);
    SameEntrySameOpen(held, reg, d, s);
    UnlinkAgrees(held, d, fm, s);
    HeldClose(reg, d, held, u.0, u.1, w, s);
  }

  /** ... and `s` is unlinked as if the parent had not been held: if it is
      open elsewhere nothing is given back, otherwise its sector and then
      the sectors its record holds. */
  lemma HeldUnlinkFrees(reg: Registry, d: Store, fm: FreeMap, w: Sector, s: Sector)
    requires Sound(reg) && Readable(d, w) && Readable(d, s) && s != w
    ensures var c := UnlinkHeld(reg, d, fm, w, s);
            OpenedEntrySound(reg, d, s)
            && (IsOpen(reg, s) ==> c.1 == fm)
            && (!IsOpen(reg, s) ==> c.1.free == fm.free + [s] + Holdings(Opened(reg, d, s).data, d))
  {
    var held := InodeOpen(reg, d, w);
    OpenKeepsSound(reg, d, w);
    UnlinkKeepsSound(held, d, fm, s);
    UnlinkKeepsOpen(held, d, fm, s, w);
    var u := Unlink(held, d, fm, s);
    OpenAgrees(reg, d, w);
    SameEntrySameOpen(held, reg, d, s);
    UnlinkAgrees(held, d, fm, s);
    HeldClose(reg, d, held, u.0, u.1, w, s);
    OpenedSound(reg, d, s);
  }

  /** Closing the held parent again: the registry agrees with the one
      before the parent was opened, but for `s`, and `s` is open exactly
      when it was before the close; nothing is given back. */
  lemma HeldClose(reg: Registry, d: Store, held: Registry, u: Registry, fm: FreeMap, w: Sector, s: Sector)
    requires Sound(reg) && Readable(d, w) && s != w && held == InodeOpen(reg, d, w)
    requires Sound(held) && Sound(u) && IsOpen(u, w) && IsOpen(held, w) && AgreeBut(u, held, s)
    ensures var c := InodeClose(u, d, fm, Some(w));
            AgreeBut(c.0, reg, s) && (IsOpen(c.0, s) <==> IsOpen(u, s)) && c.1 == fm
  {
    var c := InodeClose(u, d, fm, Some(w));
    CloseAfterOpen(reg, d, fm, w);
    CloseKeepsAgreement(u, held, d, fm, s, w);
    assert IsOpen(c.0, s) <==> IsOpen(u, s) by {
      CloseAgrees(u, d, fm, w);
      SameEntrySameOpen(c.0, u, d, s);
    }
  }

  /** The verdict of `dir_remove`, as a condition on its inputs. */
  lemma RemoveVerdict(es: Entries, name: string, root: U32, cwd: U32,
                      reg: Registry, d: Store, fm: FreeMap, dirs: map<U32, Entries>)
    requires Sound(reg)
    requires EntriesReadable(es, d) && KindsMatch(es, dirs, reg, d)
    ensures var r := DirRemove(es, name, root, cwd, reg, d, fm, dirs);
            r.ok <==> Lookup(es, name).Some?
                      && var s := es[Lookup(es, name).value].inodeSector;
                         s != root && s != cwd
                         && (IsDirInode(reg, d, s) ==> Opened(reg, d, s).openCnt <= 1 && IsEmpty(dirs[s]))
  {
  }

  /** A refused removal changes nothing: the target opened for the checks
      is closed again. */
  lemma RemoveRefusedChangesNothing(es: Entries, name: string, root: U32, cwd: U32,
                                    reg: Registry, d: Store, fm: FreeMap, dirs: map<U32, Entries>)
    requires Sound(reg)
    requires EntriesReadable(es, d) && KindsMatch(es, dirs, reg, d)
    ensures var r := DirRemove(es, name, root, cwd, reg, d, fm, dirs);
            !r.ok ==> r == Removal(false, es, reg, fm)
  {
  }

  /** A successful removal clears the in-use flag of the found entry and
      touches no other entry, so no other lookup changes and the name is
      gone if no other entry carried it. */
  lemma RemoveClearsEntry(es: Entries, name: string, root: U32, cwd: U32,
                          reg: Registry, d: Store, fm: FreeMap, dirs: map<U32, Entries>)
    requires Sound(reg)
    requires EntriesReadable(es, d) && KindsMatch(es, dirs, reg, d)
    requires DirRemove(es, name, root, cwd, reg, d, fm, dirs).ok
    ensures var k := Lookup(es, name).value;
            DirRemove(es, name, root, cwd, reg, d, fm, dirs).es == Clear(es, k)
  {
  }

  /** `es` with the in-use flag of entry k cleared. */
  function Clear(es: Entries, k: nat): (r: Entries)
    requires k < |es|
    ensures |r| == |es| && !r[k].inUse && r[k].inodeSector == es[k].inodeSector && r[k].name == es[k].name
    ensures forall j :: 0 <= j < |es| && j != k ==> r[j] == es[j]
  {
    es[k := es[k].(inUse := false)]
  }

  /** Clearing the in-use flag of the only entry called `name` removes the
      name. */
  lemma Cleared(es: Entries, k: nat, name: string)
    requires k < |es|
    requires forall j :: 0 <= j < |es| && j != k ==> !Named(es[j], name)
    ensures Lookup(Clear(es, k), name).None?
  {
    var es' := Clear(es, k);
    assert forall j :: 0 <= j < |es'| ==> !Named(es'[j], name);
  }

  /** The registry and free map after a successful removal are those of
      unlinking the entry's inode. */
  lemma RemoveUnlinks(es: Entries, name: string, root: U32, cwd: U32,
                      reg: Registry, d: Store, fm: FreeMap, dirs: map<U32, Entries>)
    requires Sound(reg)
    requires EntriesReadable(es, d) && KindsMatch(es, dirs, reg, d)
    requires DirRemove(es, name, root, cwd, reg, d, fm, dirs).ok
    ensures var r := DirRemove(es, name, root, cwd, reg, d, fm, dirs);
            var s := es[Lookup(es, name).value].inodeSector;
            Readable(d, s) && (r.reg, r.fm) == Unlink(reg, d, fm, s)
  {
  }

  /** A successful removal of an inode nobody else has open takes it out
      of the registry and gives back its sector; one still open elsewhere
      stays registered, marked removed, with its sectors kept until its
      last close. */
  lemma RemoveReleases(es: Entries, name: string, root: U32, cwd: U32,
                       reg: Registry, d: Store, fm: FreeMap, dirs: map<U32, Entries>)
    requires Sound(reg)
    requires EntriesReadable(es, d) && KindsMatch(es, dirs, reg, d)
    requires DirRemove(es, name, root, cwd, reg, d, fm, dirs).ok
    ensures var r := DirRemove(es, name, root, cwd, reg, d, fm, dirs);
            var s := es[Lookup(es, name).value].inodeSector;
            (!IsOpen(reg, s) ==> !IsOpen(r.reg, s) && fm.free + [s] <= r.fm.free)
            && (IsOpen(reg, s) ==> r.fm == fm && IsOpen(r.reg, s) && r.reg[Find(r.reg, s).value].removed)
  {
    var s := es[Lookup(es, name).value].inodeSector;
    if IsOpen(reg, s) {
      UnlinkDefers(reg, d, fm, s);
    } else {
      UnlinkReleases(reg, d, fm, s);
    }
  }

  /** Names of the in-use entries from entry `from` on, in file order,
      cut to NAME_MAX characters as `dir_readdir` copies them. */
  function Listing(es: Entries, from: nat): seq<string>
    decreases |es| - from
  {
    if from >= |es| then []
    else if es[from].inUse then [Shown(es[from].name)] + Listing(es, from + 1)
    else Listing(es, from + 1)
  }

  function Shown(name: string): string
  {
    name[..Min(|name|, NAME_MAX)]
  }

  /** Position of the first in-use entry at or after `from`. */
  function NextInUse(es: Entries, from: nat): (r: Option<nat>)
    ensures r.Some? ==> from <= r.value < |es| && es[r.value].inUse
    ensures r.Some? ==> forall j :: from <= j < r.value ==> !es[j].inUse
    ensures r.None? ==> forall j :: from <= j < |es| ==> !es[j].inUse
    decreases |es| - from
  {
    if from >= |es| then None
    else if es[from].inUse then Some(from)
    else NextInUse(es, from + 1)
  }

  /** `dir_readdir` at byte position `pos` (a multiple of 20, as `dir_open`
      and earlier calls leave it): a position before offset 40 is moved
      there; then whole entries are read, the position advancing past each,
      until an in-use one is found (its name is returned) or a read comes
      up short. */
  function ReadDir(es: Entries, pos: int): (r: (Option<string>, int))
    requires 0 <= pos && pos % ENTRY_SIZE == 0
    ensures r.1 % ENTRY_SIZE == 0 && r.1 >= Max(pos, FIRST_ENTRY_OFS)
    ensures r.0.Some? ==> r.1 > Max(pos, FIRST_ENTRY_OFS)
  {
    var p := Max(pos, FIRST_ENTRY_OFS);
    match NextInUse(es, p / ENTRY_SIZE)
    case Some(k) => (Some(Shown(es[k].name)), ENTRY_SIZE * (k + 1))
    case None => (None, Max(p, ENTRY_SIZE * |es|))
  }

  /** Skipping entries not in use leaves the listing unchanged. */
  lemma {:induction false} ListingSkips(es: Entries, from: nat, to: nat)
    requires from <= to
    requires forall j :: from <= j < to && j < |es| ==> !es[j].inUse
    ensures Listing(es, from) == Listing(es, to)
    decreases (to as int) - (from as int)
  {
    if from < to && from < |es| {
      ListingSkips(es, from + 1, to);
    }
  }

  /** Successive `dir_readdir` calls enumerate the listing from entry 2:
      each call returns the next name and leaves the rest for later calls,
      and a failing call means nothing is left. */
  lemma ReadDirStep(es: Entries, pos: int)
    requires 0 <= pos && pos % ENTRY_SIZE == 0
    ensures var r := ReadDir(es, pos);
            var from := Max(pos, FIRST_ENTRY_OFS) / ENTRY_SIZE;
            (r.0.Some? ==> Listing(es, from) == [r.0.value] + Listing(es, r.1 / ENTRY_SIZE))
            && (r.0.None? ==> Listing(es, from) == [])
  {
    var from := Max(pos, FIRST_ENTRY_OFS) / ENTRY_SIZE;
    match NextInUse(es, from)
    case Some(k) =>
      ListingSkips(es, from, k);
      assert (ENTRY_SIZE * (k + 1)) / ENTRY_SIZE == k + 1;
    case None =>
      ListingSkips(es, from, if from < |es| then |es| else from);
  }

  // ---------------------------------------------------------------------
  // `.` and `..`

  /** The two entries `root_dir_create` and `dir_create` add to a new
      directory: `.` for itself, then `..` for its parent; the second add
      is attempted only if the first succeeded. */
  function AddDots(es: Entries, self: U32, parent: U32): (r: (bool, Entries))
    ensures |r.1| == |es|
  {
    var a := DirAdd(es, ".", self);
    if !a.0 then a
    else DirAdd(a.1, "..", parent)
  }

  /** With two free entries and neither name present, both adds succeed
      and the names resolve to the directory and its parent. */
  lemma DotsResolve(es: Entries, self: U32, parent: U32, i: nat, j: nat)
    requires i < j < |es| && !es[i].inUse && !es[j].inUse
    requires Lookup(es, ".").None? && Lookup(es, "..").None?
    ensures var r := AddDots(es, self, parent);
            r.0 && Lookup(r.1, ".").Some? && Lookup(r.1, "..").Some?
            && r.1[Lookup(r.1, ".").value].inodeSector == self
            && r.1[Lookup(r.1, "..").value].inodeSector == parent
  {
    var a := DirAdd(es, ".", self);
    AddThenLookup(es, ".", self);
    AddKeepsLookups(es, ".", self, "..");
    var k := FirstFree(es, 0).value;
    var other := if k == i then j else i;
    assert !a.1[other].inUse;
    var b := DirAdd(a.1, "..", parent);
    AddThenLookup(a.1, "..", parent);
    AddKeepsLookups(a.1, "..", parent, ".");
  }

  /** A directory file of length 0 has no whole entry, so neither `.` nor
      `..` can be added to it: a freshly created directory never receives
      them, because writes do not extend a file. */
  lemma EmptyDirectoryRejectsDots(self: U32, parent: U32)
    ensures !AddDots([], self, parent).0
  {
    assert FirstFree([], 0).None?;
  }
}

=== FILE: disk.dfy ===
/** The two services the file system core consumes without defining them:
    the sector store behind `cached_read` / `cached_write` (a map from
    sector number to 512 bytes; the buffer cache in front of the device is
    transparent to its callers) and the free-space allocator behind
    `free_map_allocate` / `free_map_release` (an abstract free list). */
module Disk {
  import opened Base

  const SECTOR_SIZE: int := 512

  type Sector = U32
  type Block = b: seq<Byte> | |b| == 512 witness Zeros(512)

  /** Sector contents. A sector never written reads as zeros. */
  type Store = map<Sector, Block>

  function ReadSector(d: Store, s: Sector): Block
  {
    if s in d then d[s] else Zeros(SECTOR_SIZE)
  }

  /** `cached_read (sector, buf, ofs, len)`: `len` bytes of a sector
      starting at byte `ofs`. */
  function CachedRead(d: Store, s: Sector, ofs: nat, len: nat): (r: seq<Byte>)
    requires ofs + len <= SECTOR_SIZE
    ensures |r| == len
    ensures forall i :: 0 <= i < len ==> r[i] == ReadSector(d, s)[ofs + i]
  {
    ReadSector(d, s)[ofs .. ofs + len]
  }

  /** `cached_write (sector, buf, ofs, len)`: overwrite `|data|` bytes of a
      sector starting at byte `ofs`; every other byte of the store keeps its
      value. */
  function CachedWrite(d: Store, s: Sector, ofs: nat, data: seq<Byte>): (r: Store)
    requires ofs + |data| <= SECTOR_SIZE
    ensures forall i :: 0 <= i < |data| ==> ReadSector(r, s)[ofs + i] == data[i]
    ensures forall i :: 0 <= i < SECTOR_SIZE && !(ofs <= i < ofs + |data|) ==>
              ReadSector(r, s)[i] == ReadSector(d, s)[i]
    ensures forall t :: t != s ==> ReadSector(r, t) == ReadSector(d, t)
  {
    var old_ := ReadSector(d, s);
    var b: Block := old_[..ofs] + data + old_[ofs + |data|..];
    d[s := b]
  }

  /** Writing a whole sector. */
  function WriteBlock(d: Store, s: Sector, b: Block): (r: Store)
    ensures ReadSector(r, s) == b
    ensures forall t :: t != s ==> ReadSector(r, t) == ReadSector(d, t)
  {
    d[s := b]
  }

  /** A batch of whole-sector writes issued in order; a later write to the
      same sector wins. */
  function ApplyWrites(d: Store, ts: seq<Sector>, bs: seq<Block>): (r: Store)
    requires |ts| == |bs|
    ensures forall t :: t !in ts ==> ReadSector(r, t) == ReadSector(d, t)
    decreases |ts|
  {
    if |ts| == 0 then d else ApplyWrites(WriteBlock(d, ts[0], bs[0]), ts[1..], bs[1..])
  }

  /** A write no later write of the batch overwrites is what the sector
      holds afterwards. */
  lemma {:induction false} WriteLands(d: Store, ts: seq<Sector>, bs: seq<Block>, i: nat)
    requires |ts| == |bs| && i < |ts|
    requires forall j :: i < j < |ts| ==> ts[j] != ts[i]
    ensures ReadSector(ApplyWrites(d, ts, bs), ts[i]) == bs[i]
    decreases i
  {
    if i == 0 {
      assert ts[0] !in ts[1..];
    } else {
      WriteLands(WriteBlock(d, ts[0], bs[0]), ts[1..], bs[1..], i - 1);
    }
  }

  /** Read-after-write: what was written is what a later read of the same
      range returns. */
  lemma ReadAfterWrite(d: Store, s: Sector, ofs: nat, data: seq<Byte>)
    requires ofs + |data| <= SECTOR_SIZE
    ensures CachedRead(CachedWrite(d, s, ofs, data), s, ofs, |data|) == data
  {
    var r := CachedRead(CachedWrite(d, s, ofs, data), s, ofs, |data|);
    assert forall i :: 0 <= i < |data| ==> r[i] == data[i];
  }

  // ---------------------------------------------------------------------
  // Free-space allocator

  /** The sectors available for allocation, in the order the allocator
      hands them out. */
  datatype FreeMap = FreeMap(free: seq<Sector>)

  predicate Distinct(s: seq<Sector>)
  {
    forall i, j :: 0 <= i < j < |s| ==> s[i] != s[j]
  }

  /** `free_map_allocate (1, &sector)`: fails, leaving everything as it
      was, only when no sector is free. */
  function Allocate(fm: FreeMap): (r: (Option<Sector>, FreeMap))
    ensures r.0.None? <==> |fm.free| == 0
    ensures r.0.None? ==> r.1 == fm
    ensures r.0.Some? ==> r.0.value in fm.free && [r.0.value] + r.1.free == fm.free
  {
    if |fm.free| == 0 then (None, fm)
    else (Some(fm.free[0]), FreeMap(fm.free[1..]))
  }

  /** `free_map_release (sector, 1)`: the sector becomes allocatable again. */
  function Release(fm: FreeMap, s: Sector): (r: FreeMap)
    ensures s in r.free
    ensures |r.free| == |fm.free| + 1
    ensures forall t :: t in fm.free ==> t in r.free
  {
    FreeMap(fm.free + [s])
  }

  /** Releasing a list of sectors one after another. */
  function ReleaseAll(fm: FreeMap, ss: seq<Sector>): (r: FreeMap)
    ensures r.free == fm.free + ss
    decreases |ss|
  {
    if |ss| == 0 then fm else ReleaseAll(Release(fm, ss[0]), ss[1..])
  }
}

=== FILE: filesys.dfy ===
/** Path resolution of src/filesys/filesys.c and the path-taking functions
    of src/filesys/directory.c (`dir_create`, `open_dir`). A path is copied
    into a 128-byte buffer, cut into its non-empty `/`-separated components,
    and resolved from the root directory when it starts with `/`, otherwise
    from the thread's current directory. All components but the last are
    looked up in turn, each found inode being opened as a directory. */
module Filesys {
  import opened Base
  import opened Tokens
  import opened Disk
  import opened BlockMap
  import opened Inode
  import opened InodeTable
  import opened Directory

  /** Size of the path buffer; `strlcpy` keeps at most 127 characters. */
  const PATH_BUF: int := 128

  /** Size of the component array `hier`. */
  const MAX_LEVELS: int := 16

  /** Sector of the root directory's inode. */
  const ROOT_DIR_SECTOR: Sector := 1

  /** The state the path operations see: the entries of every directory,
      keyed by the sector of its inode, the open-inode registry, the disk
      and the free map. Directory contents are kept in `dirs` rather than
      in the data sectors of the disk. */
  datatype FS = FS(dirs: map<Sector, Entries>, reg: Registry, d: Store, fm: FreeMap)

  /** What an operation ends in: a verdict and a new state, or a kernel
      panic from a failed assertion. */
  datatype Outcome = Done(ok: bool, fs: FS) | Panicked

  /** The copy of the path in the 128-byte buffer. */
  function Truncate(name: string): (r: string)
    ensures |r| < PATH_BUF && r <= name
    ensures |name| < PATH_BUF ==> r == name
  {
    if |name| < PATH_BUF then name else name[..PATH_BUF - 1]
  }

  predicate Absolute(p: string)
  {
    0 < |p| && p[0] == '/'
  }

  /** The components `strtok_r` finds in the buffer. */
  function Components(name: string): seq<string>
  {
    Split(Truncate(name), '/')
  }

  /** Where resolution starts: the root for an absolute path, otherwise
      the current directory. */
  function Start(name: string, root: Sector, cwd: Sector): (r: Sector)
    ensures r == root <==> Absolute(name) || cwd == root
    ensures r == cwd <==> !Absolute(name) || cwd == root
  {
    if Absolute(Truncate(name)) then root else cwd
  }

  /** A path the component array can hold: one to MAX_LEVELS components.
      With none, the code reads an unset array element. */
  predicate Resolvable(name: string)
  {
    1 <= |Components(name)| <= MAX_LEVELS
  }

  /** The directory holding the last component. */
  function Last(name: string): string
    requires Resolvable(name)
  {
    var cs := Components(name);
    cs[|cs| - 1]
  }

  function Parent(name: string): (r: seq<string>)
    requires Resolvable(name)
    ensures |r| == |Components(name)| - 1
    ensures r + [Last(name)] == Components(name)
  {
    var cs := Components(name);
    cs[..|cs| - 1]
  }

  /** The result of following components: the directory reached, a
      component that is missing, or an inode that is not a directory (on
      which `dir_open` fails its assertion). */
  datatype Walked = Reached(dir: Sector) | Missing | NotDir

  /** Looks each component up in the current directory and opens the inode
      found as the next directory. `dir_open` asserts that the inode's flags
      are non-zero; where the entry lists match the flags (`KindsAgree`,
      which every caller below requires), the inodes failing that assertion
      are the sectors without an entry list. */
  function Walk(dirs: map<Sector, Entries>, cur: Sector, comps: seq<string>): (r: Walked)
    requires cur in dirs
    ensures r.Reached? ==> r.dir in dirs
    ensures |comps| == 0 ==> r == Reached(cur)
    decreases |comps|
  {
    if |comps| == 0 then Reached(cur)
    else match Lookup(dirs[cur], comps[0])
      case None => Missing
      case Some(k) =>
        var s := dirs[cur][k].inodeSector;
        if s in dirs then Walk(dirs, s, comps[1..]) else NotDir
  }

  /** Walking a concatenation walks the first part and continues from
      where it ends; a failure in the first part is final. */
  lemma {:induction false} WalkAppend(dirs: map<Sector, Entries>, cur: Sector, a: seq<string>, b: seq<string>)
    requires cur in dirs
    ensures Walk(dirs, cur, a + b) == match Walk(dirs, cur, a)
                                       case Reached(x) => Walk(dirs, x, b)
                                       case Missing => Missing
                                       case NotDir => NotDir
    decreases |a|
  {
    if |a| == 0 {
      assert a + b == b;
    } else {
      assert (a + b)[0] == a[0];
      assert (a + b)[1..] == a[1..] + b;
      match Lookup(dirs[cur], a[0])
      case None =>
      case Some(k) =>
        var s := dirs[cur][k].inodeSector;
        if s in dirs {
          WalkAppend(dirs, s, a[1..], b);
        }
    }
  }

  /** A walk fails at the first component that is missing. */
  lemma WalkStopsAtMissing(dirs: map<Sector, Entries>, cur: Sector, comps: seq<string>, i: nat, x: Sector)
    requires cur in dirs && i < |comps|
    requires Walk(dirs, cur, comps[..i]) == Reached(x)
    requires Lookup(dirs[x], comps[i]).None?
    ensures Walk(dirs, cur, comps) == Missing
  {
    var a, b := comps[..i], comps[i..];
    assert Walk(dirs, x, b) == Missing by {
      assert b[0] == comps[i];
    }
    assert Walk(dirs, cur, a + b) == Missing by {
      WalkAppend(dirs, cur, a, b);
    }
    assert comps == a + b;
  }

  // ---------------------------------------------------------------------
  // filesys_open, open_dir

  /** What opening hands back: a directory, a file, NULL, or a panic. */
  datatype Handle = DirHandle(sector: Sector) | FileHandle(sector: Sector) | NoHandle | Panic

  /** Every entry list in `dirs` matches the flags of the inodes its
      entries name. */
  predicate KindsAgree(fs: FS)
  {
    forall x :: x in fs.dirs ==> KindsMatch(fs.dirs[x], fs.dirs, fs.reg, fs.d)
  }

  /** `filesys_open`: "/" alone is the root directory; otherwise the parent
      is walked to and the last component looked up there, giving a
      directory handle when the found inode's flags are non-zero and a file
      handle otherwise. */
  function FilesysOpen(fs: FS, root: Sector, cwd: Sector, name: string): (r: Handle)
    requires root in fs.dirs && cwd in fs.dirs && KindsAgree(fs)
    requires Truncate(name) != "/" ==> Resolvable(name)
    ensures r.DirHandle? ==> r.sector == root || IsDirInode(fs.reg, fs.d, r.sector)
    ensures r.FileHandle? ==> !IsDirInode(fs.reg, fs.d, r.sector)
    ensures (r.DirHandle? ==> r.sector in fs.dirs) && (r.FileHandle? ==> r.sector !in fs.dirs)
  {
    if Truncate(name) == "/" then DirHandle(root)
    else
      match Walk(fs.dirs, Start(name, root, cwd), Parent(name))
      case Missing => NoHandle
      case NotDir => Panic
      case Reached(w) =>
        match Lookup(fs.dirs[w], Last(name))
        case None => NoHandle
        case Some(k) =>
          var s := fs.dirs[w][k].inodeSector;
          assert KindsMatch(fs.dirs[w], fs.dirs, fs.reg, fs.d);
          if IsDirInode(fs.reg, fs.d, s) then DirHandle(s) else FileHandle(s)
  }

  /** Opening succeeds exactly when the parent can be walked to and names
      the last component, and then hands back what that entry names: a
      directory exactly when its flags are non-zero. */
  lemma OpenFindsEntry(fs: FS, root: Sector, cwd: Sector, name: string)
    requires root in fs.dirs && cwd in fs.dirs && KindsAgree(fs) && Truncate(name) != "/" && Resolvable(name)
    ensures var r := FilesysOpen(fs, root, cwd, name);
            var w := Walk(fs.dirs, Start(name, root, cwd), Parent(name));
            (r.DirHandle? || r.FileHandle?)
              <==> w.Reached? && Lookup(fs.dirs[w.dir], Last(name)).Some?
    ensures var r := FilesysOpen(fs, root, cwd, name);
            var w := Walk(fs.dirs, Start(name, root, cwd), Parent(name));
            (r.DirHandle? || r.FileHandle?) ==>
              r.sector == fs.dirs[w.dir][Lookup(fs.dirs[w.dir], Last(name)).value].inodeSector
              && (r.DirHandle? <==> IsDirInode(fs.reg, fs.d, r.sector))
  {
  }

  /** An absolute path opens the same thing from any current directory. */
  lemma OpenAbsoluteIgnoresCwd(fs: FS, root: Sector, cwd1: Sector, cwd2: Sector, name: string)
    requires root in fs.dirs && cwd1 in fs.dirs && cwd2 in fs.dirs && KindsAgree(fs)
    requires Truncate(name) != "/" ==> Resolvable(name)
    requires Absolute(name)
    ensures FilesysOpen(fs, root, cwd1, name) == FilesysOpen(fs, root, cwd2, name)
  {
  }

  /** `open_dir`: every component, the last included, is walked and opened
      as a directory; a path with no component yields its start. */
  function OpenDir(fs: FS, root: Sector, cwd: Sector, name: string): (r: Handle)
    requires root in fs.dirs && cwd in fs.dirs && KindsAgree(fs)
    requires |Components(name)| <= MAX_LEVELS
    ensures r.DirHandle? || r.NoHandle? || r.Panic?
  {
    match Walk(fs.dirs, Start(name, root, cwd), Components(name))
    case Reached(x) => DirHandle(x)
    case Missing => NoHandle
    case NotDir => Panic
  }

  /** Where `open_dir` reaches a directory, `filesys_open` of the same path
      opens that directory too. */
  lemma OpenDirAgreesWithOpen(fs: FS, root: Sector, cwd: Sector, name: string)
    requires root in fs.dirs && cwd in fs.dirs && Resolvable(name) && KindsAgree(fs)
    requires OpenDir(fs, root, cwd, name).DirHandle?
    ensures FilesysOpen(fs, root, cwd, name) == OpenDir(fs, root, cwd, name)
  {
    OpenDirLastStep(fs.dirs, root, cwd, name);
    var w := Walk(fs.dirs, Start(name, root, cwd), Parent(name)).dir;
    var k := Lookup(fs.dirs[w], Last(name)).value;
    assert IsDirInode(fs.reg, fs.d, fs.dirs[w][k].inodeSector) by {
      assert KindsMatch(fs.dirs[w], fs.dirs, fs.reg, fs.d);
    }
    OpenFindsEntry(fs, root, cwd, name);
  }

  /** Where the walk of every component reaches a directory, the walk of
      the parent was reached and names that directory under the last
      component. */
  lemma OpenDirLastStep(dirs: map<Sector, Entries>, root: Sector, cwd: Sector, name: string)
    requires root in dirs && cwd in dirs && Resolvable(name)
    requires Walk(dirs, Start(name, root, cwd), Components(name)).Reached?
    ensures Walk(dirs, Start(name, root, cwd), Parent(name)).Reached?
    ensures var w := Walk(dirs, Start(name, root, cwd), Parent(name)).dir;
            var k := Lookup(dirs[w], Last(name));
            k.Some? && dirs[w][k.value].inodeSector in dirs
            && Walk(dirs, Start(name, root, cwd), Components(name)) == Reached(dirs[w][k.value].inodeSector)
  {
    var start := Start(name, root, cwd);
    assert Components(name) == Parent(name) + [Last(name)];
    WalkAppend(dirs, start, Parent(name), [Last(name)]);
    assert [Last(name)][1..] == [];
  }

  // ---------------------------------------------------------------------
  // filesys_remove

  /** What `filesys_remove` and `dir_remove` rely on: a sound registry,
      readable records for every directory and every inode an entry names,
      entry lists that match the inodes' flags, and the root and current
      directories among the directories. */
  predicate Coherent(fs: FS, root: Sector, cwd: Sector)
  {
    root in fs.dirs && cwd in fs.dirs && Sound(fs.reg)
    && forall x :: x in fs.dirs ==>
         Readable(fs.d, x) && EntriesReadable(fs.dirs[x], fs.d) && KindsMatch(fs.dirs[x], fs.dirs, fs.reg, fs.d)
  }

  /** An in-use entry of some directory names the inode `t`. */
  predicate Linked(dirs: map<Sector, Entries>, t: Sector)
  {
    exists x, i :: x in dirs && 0 <= i < |dirs[x]| && dirs[x][i].inUse && dirs[x][i].inodeSector == t
  }

  /** A free sector is no directory and no open inode, and no entry names
      it. */
  predicate FreeIsUnused(fs: FS)
  {
    (forall x :: x in fs.fm.free ==> x !in fs.dirs && !IsOpen(fs.reg, x))
    && forall x, i :: x in fs.dirs && 0 <= i < |fs.dirs[x]| && fs.dirs[x][i].inUse ==>
         fs.dirs[x][i].inodeSector !in fs.fm.free
  }

  /** No two in-use entries, in one list or in two, name the same inode. */
  predicate SingleLinks(dirs: map<Sector, Entries>)
  {
    forall x, i, y, j :: x in dirs && y in dirs && 0 <= i < |dirs[x]| && 0 <= j < |dirs[y]|
      && dirs[x][i].inUse && dirs[y][j].inUse && (x != y || i != j)
      ==> dirs[x][i].inodeSector != dirs[y][j].inodeSector
  }

  /** The invariant removal and creation keep: a coherent state whose free
      sectors are unused and whose inodes each have one name. */
  predicate Consistent(fs: FS, root: Sector, cwd: Sector)
  {
    Coherent(fs, root, cwd) && FreeIsUnused(fs) && SingleLinks(fs.dirs)
  }

  /** The sectors the record of `t` holds are no directory, no open inode,
      and named by no entry. */
  predicate HoldsApart(fs: FS, t: Sector)
  {
    OpenedEntrySound(fs.reg, fs.d, t) ==>
      forall x :: x in Holdings(Opened(fs.reg, fs.d, t).data, fs.d) ==>
        x !in fs.dirs && !IsOpen(fs.reg, x) && !Linked(fs.dirs, x)
  }

  /** Every named inode holds its sectors apart. */
  predicate DataApart(fs: FS)
  {
    forall x, i :: x in fs.dirs && 0 <= i < |fs.dirs[x]| && fs.dirs[x][i].inUse ==>
      HoldsApart(fs, fs.dirs[x][i].inodeSector)
  }

  /** While `dir_remove` runs the parent directory is held open, so the
      removal cannot unlink the parent itself and leaves it open. */
  lemma RemoveHeld(es: Entries, name: string, root: Sector, cwd: Sector, fs: FS, w: Sector)
    requires Sound(fs.reg) && Readable(fs.d, w) && w in fs.dirs && EntriesReadable(es, fs.d)
    requires KindsMatch(es, fs.dirs, fs.reg, fs.d)
    ensures Sound(InodeOpen(fs.reg, fs.d, w)) && KindsMatch(es, fs.dirs, InodeOpen(fs.reg, fs.d, w), fs.d)
    ensures var held := InodeOpen(fs.reg, fs.d, w);
            var r := DirRemove(es, name, root, cwd, held, fs.d, fs.fm, fs.dirs);
            Sound(r.reg) && IsOpen(r.reg, w)
            && (r.ok ==> Lookup(es, name).Some? && es[Lookup(es, name).value].inodeSector != w)
  {
    var held := InodeOpen(fs.reg, fs.d, w);
    OpenKeepsSound(fs.reg, fs.d, w);
    OpenKeepsKindsMatch(es, fs.dirs, fs.reg, fs.d, w);
    var r := DirRemove(es, name, root, cwd, held, fs.d, fs.fm, fs.dirs);
    RemoveRefusedChangesNothing(es, name, root, cwd, held, fs.d, fs.fm, fs.dirs);
    if r.ok {
      var s := es[Lookup(es, name).value].inodeSector;
      RemoveVerdict(es, name, root, cwd, held, fs.d, fs.fm, fs.dirs);
      if s == w {
        assert false;
      }
      RemoveUnlinks(es, name, root, cwd, held, fs.d, fs.fm, fs.dirs);
      UnlinkKeepsSound(held, fs.d, fs.fm, s);
      UnlinkKeepsOpen(held, fs.d, fs.fm, s, w);
    }
  }

  /** The entry lists without that of `s` once `s` has left the registry:
      a directory's entries go with its inode. */
  function Forget(dirs: map<Sector, Entries>, s: Sector, reg: Registry): (r: map<Sector, Entries>)
    ensures IsOpen(reg, s) ==> r == dirs
    ensures !IsOpen(reg, s) ==> r == dirs - {s}
    ensures r.Keys <= dirs.Keys
  {
    if Find(reg, s).Some? then dirs else dirs - {s}
  }

  /** The parent `w` opened, `dir_remove` of `name` in it, the parent
      closed: the verdict and the state afterwards. The cleared entry is
      written to the parent's entry list in `dirs`, so the disk store is
      left as it was. Once the removed inode has left the registry, its
      entry list goes with it. */
  function RemoveIn(fs: FS, w: Sector, name: string, root: Sector, cwd: Sector): (r: Outcome)
    requires Sound(fs.reg) && w in fs.dirs && Readable(fs.d, w) && EntriesReadable(fs.dirs[w], fs.d)
    requires KindsMatch(fs.dirs[w], fs.dirs, fs.reg, fs.d)
    ensures r.Done? && r.fs.d == fs.d && r.fs.dirs.Keys <= fs.dirs.Keys
  {
    var held := InodeOpen(fs.reg, fs.d, w);
    RemoveHeld(fs.dirs[w], name, root, cwd, fs, w);
    var r := DirRemove(fs.dirs[w], name, root, cwd, held, fs.d, fs.fm, fs.dirs);
    var closed := InodeClose(r.reg, fs.d, r.fm, Some(w));
    var dirs := fs.dirs[w := r.es];
    if !r.ok then Done(false, FS(dirs, closed.0, fs.d, closed.1))
    else
      var s := fs.dirs[w][Lookup(fs.dirs[w], name).value].inodeSector;
      Done(true, FS(Forget(dirs, s, closed.0), closed.0, fs.d, closed.1))
  }

  /** A refused `dir_remove` leaves the state as it was: the parent opened
      for the call is closed again. */
  lemma RemoveInRefused(fs: FS, w: Sector, name: string, root: Sector, cwd: Sector)
    requires Sound(fs.reg) && w in fs.dirs && Readable(fs.d, w) && EntriesReadable(fs.dirs[w], fs.d)
    requires KindsMatch(fs.dirs[w], fs.dirs, fs.reg, fs.d)
    requires !RemoveIn(fs, w, name, root, cwd).ok
    ensures RemoveIn(fs, w, name, root, cwd).fs == fs
  {
    var held := InodeOpen(fs.reg, fs.d, w);
    RemoveHeld(fs.dirs[w], name, root, cwd, fs, w);
    RemoveRefusedChangesNothing(fs.dirs[w], name, root, cwd, held, fs.d, fs.fm, fs.dirs);
    CloseAfterOpen(fs.reg, fs.d, fs.fm, w);
    assert fs.dirs[w := fs.dirs[w]] == fs.dirs;
  }

  /** A successful `dir_remove` clears the entry in the parent, changes no
      other directory, drops the entry list of the removed inode once it
      has left the registry, and keeps the registry sound. */
  lemma RemoveInClears(fs: FS, w: Sector, name: string, root: Sector, cwd: Sector)
    requires Sound(fs.reg) && w in fs.dirs && Readable(fs.d, w) && EntriesReadable(fs.dirs[w], fs.d)
    requires KindsMatch(fs.dirs[w], fs.dirs, fs.reg, fs.d)
    requires RemoveIn(fs, w, name, root, cwd).ok
    ensures Lookup(fs.dirs[w], name).Some?
    ensures var k := Lookup(fs.dirs[w], name).value;
            var s := fs.dirs[w][k].inodeSector;
            var cleared := fs.dirs[w := Clear(fs.dirs[w], k)];
            var fs' := RemoveIn(fs, w, name, root, cwd).fs;
            fs'.dirs == Forget(cleared, s, fs'.reg) && Sound(fs'.reg)
  {
    var held := InodeOpen(fs.reg, fs.d, w);
    RemoveHeld(fs.dirs[w], name, root, cwd, fs, w);
    var r := DirRemove(fs.dirs[w], name, root, cwd, held, fs.d, fs.fm, fs.dirs);
    RemoveVerdict(fs.dirs[w], name, root, cwd, held, fs.d, fs.fm, fs.dirs);
    RemoveClearsEntry(fs.dirs[w], name, root, cwd, held, fs.d, fs.fm, fs.dirs);
    CloseKeepsSound(r.reg, fs.d, r.fm, w);
  }

  /** The entry a successful removal clears names neither the root, the
      working directory nor the parent itself, and its sector is readable;
      a directory among the known lists is not open anywhere. */
  lemma RemoveInTarget(fs: FS, w: Sector, name: string, root: Sector, cwd: Sector)
    requires Sound(fs.reg) && w in fs.dirs && Readable(fs.d, w) && EntriesReadable(fs.dirs[w], fs.d)
    requires KindsMatch(fs.dirs[w], fs.dirs, fs.reg, fs.d)
    requires RemoveIn(fs, w, name, root, cwd).ok
    ensures Lookup(fs.dirs[w], name).Some?
    ensures var s := fs.dirs[w][Lookup(fs.dirs[w], name).value].inodeSector;
            s != root && s != cwd && s != w && Readable(fs.d, s) && OpenedEntrySound(fs.reg, fs.d, s)
            && (s in fs.dirs ==> !IsOpen(fs.reg, s))
  {
    var es := fs.dirs[w];
    var held := InodeOpen(fs.reg, fs.d, w);
    RemoveHeld(es, name, root, cwd, fs, w);
    RemoveVerdict(es, name, root, cwd, held, fs.d, fs.fm, fs.dirs);
    var s := es[Lookup(es, name).value].inodeSector;
    OpenedSound(fs.reg, fs.d, s);
    OpenAgrees(fs.reg, fs.d, w);
    SameEntrySameOpen(held, fs.reg, fs.d, s);
    if s in fs.dirs && IsOpen(fs.reg, s) {
      assert false;
    }
  }

  /** A successful removal leaves the registry and free list that
      unlinking the entry's inode with the parent held open leaves. */
  lemma RemoveInUnlinks(fs: FS, w: Sector, name: string, root: Sector, cwd: Sector)
    requires Sound(fs.reg) && w in fs.dirs && Readable(fs.d, w) && EntriesReadable(fs.dirs[w], fs.d)
    requires KindsMatch(fs.dirs[w], fs.dirs, fs.reg, fs.d)
    requires RemoveIn(fs, w, name, root, cwd).ok
    ensures Lookup(fs.dirs[w], name).Some?
    ensures var s := fs.dirs[w][Lookup(fs.dirs[w], name).value].inodeSector;
            s != w && Readable(fs.d, s)
            && var fs' := RemoveIn(fs, w, name, root, cwd).fs;
               var c := UnlinkHeld(fs.reg, fs.d, fs.fm, w, s);
               fs'.reg == c.0 && fs'.fm == c.1
  {
    var es := fs.dirs[w];
    var held := InodeOpen(fs.reg, fs.d, w);
    RemoveHeld(es, name, root, cwd, fs, w);
    RemoveVerdict(es, name, root, cwd, held, fs.d, fs.fm, fs.dirs);
    var r := DirRemove(es, name, root, cwd, held, fs.d, fs.fm, fs.dirs);
    RemoveUnlinks(es, name, root, cwd, held, fs.d, fs.fm, fs.dirs);
    var s := es[Lookup(es, name).value].inodeSector;
    assert UnlinkHeld(fs.reg, fs.d, fs.fm, w, s) == InodeClose(r.reg, fs.d, r.fm, Some(w));
  }

/** What a successful removal in `w` does to the registry and the free
      map. The removed inode `s` is none of the root, the current directory
      and `w`, and what the registry holds changes for no other sector. If
      `s` is open elsewhere it stays registered and nothing is given back;
      otherwise it leaves the registry, and its sector and then the sectors
      its record holds go back to the free list. A directory is always in
      the second case. */
  lemma RemoveInEffect(fs: FS, w: Sector, name: string, root: Sector, cwd: Sector)
    requires Sound(fs.reg) && w in fs.dirs && Readable(fs.d, w) && EntriesReadable(fs.dirs[w], fs.d)
    requires KindsMatch(fs.dirs[w], fs.dirs, fs.reg, fs.d)
    requires RemoveIn(fs, w, name, root, cwd).ok
    ensures Lookup(fs.dirs[w], name).Some?
    ensures var s := fs.dirs[w][Lookup(fs.dirs[w], name).value].inodeSector;
            s != root && s != cwd && s != w && Readable(fs.d, s) && OpenedEntrySound(fs.reg, fs.d, s)
    ensures var s := fs.dirs[w][Lookup(fs.dirs[w], name).value].inodeSector;
            var fs' := RemoveIn(fs, w, name, root, cwd).fs;
            AgreeBut(fs'.reg, fs.reg, s)
            && (IsOpen(fs'.reg, s) <==> IsOpen(fs.reg, s))
            && (IsOpen(fs.reg, s) ==> fs'.fm == fs.fm)
            && (!IsOpen(fs.reg, s) ==> fs'.fm.free == fs.fm.free + [s] + Holdings(Opened(fs.reg, fs.d, s).data, fs.d))
            && (s in fs.dirs ==> !IsOpen(fs.reg, s))
  {
    RemoveInTarget(fs, w, name, root, cwd);
    RemoveInUnlinks(fs, w, name, root, cwd);
    var s := fs.dirs[w][Lookup(fs.dirs[w], name).value].inodeSector;
    HeldUnlinkAgrees(fs.reg, fs.d, fs.fm, w, s);
    HeldUnlinkFrees(fs.reg, fs.d, fs.fm, w, s);
  }

  /** `filesys_remove`: "/" alone is refused; otherwise the parent is
      walked to and the last component removed from it. */
  function FilesysRemove(fs: FS, root: Sector, cwd: Sector, name: string): (r: Outcome)
    requires Coherent(fs, root, cwd)
    requires Truncate(name) != "/" ==> Resolvable(name)
    ensures Truncate(name) == "/" ==> r == Done(false, fs)
    ensures r.Panicked? <==> Truncate(name) != "/" && Walk(fs.dirs, Start(name, root, cwd), Parent(name)).NotDir?
    ensures r.Done? ==> r.fs.d == fs.d && r.fs.dirs.Keys <= fs.dirs.Keys
  {
    if Truncate(name) == "/" then Done(false, fs)
    else
      match Walk(fs.dirs, Start(name, root, cwd), Parent(name))
      case Missing => Done(false, fs)
      case NotDir => Panicked
      case Reached(w) =>
        assert KindsMatch(fs.dirs[w], fs.dirs, fs.reg, fs.d);
        RemoveIn(fs, w, Last(name), root, cwd)
  }

  /** The root directory cannot be removed by its path. */
  lemma RemoveRootRefused(fs: FS, root: Sector, cwd: Sector)
    requires Coherent(fs, root, cwd)
    ensures FilesysRemove(fs, root, cwd, "/") == Done(false, fs)
  {
  }

  /** A removal that is refused, for a missing component or by
      `dir_remove`, leaves the file system exactly as it was. */
  lemma RemoveRefusedKeepsState(fs: FS, root: Sector, cwd: Sector, name: string)
    requires Coherent(fs, root, cwd)
    requires Truncate(name) != "/" ==> Resolvable(name)
    requires FilesysRemove(fs, root, cwd, name).Done?
    requires !FilesysRemove(fs, root, cwd, name).ok
    ensures FilesysRemove(fs, root, cwd, name).fs == fs
  {
    if Truncate(name) != "/" {
      var walked := Walk(fs.dirs, Start(name, root, cwd), Parent(name));
      if walked.Reached? {
        RemoveInRefused(fs, walked.dir, Last(name), root, cwd);
      }
    }
  }

  /** A successful removal clears the named entry in the parent the path
      leads to and changes no other directory; a removed directory, and any
      removed inode no one else has open, leaves the registry, loses its
      entry list and has its sector given back. */
  lemma RemoveClearsParentEntry(fs: FS, root: Sector, cwd: Sector, name: string)
    requires Coherent(fs, root, cwd)
    requires Truncate(name) != "/" ==> Resolvable(name)
    requires FilesysRemove(fs, root, cwd, name).Done?
    requires FilesysRemove(fs, root, cwd, name).ok
    ensures Truncate(name) != "/"
    ensures var w := Walk(fs.dirs, Start(name, root, cwd), Parent(name));
            w.Reached? && Lookup(fs.dirs[w.dir], Last(name)).Some?
    ensures var w := Walk(fs.dirs, Start(name, root, cwd), Parent(name)).dir;
            var k := Lookup(fs.dirs[w], Last(name)).value;
            var s := fs.dirs[w][k].inodeSector;
            var cleared := fs.dirs[w := Clear(fs.dirs[w], k)];
            var fs' := FilesysRemove(fs, root, cwd, name).fs;
            fs'.dirs == (if IsOpen(fs'.reg, s) then cleared else cleared - {s}) && Sound(fs'.reg)
            && (s in fs.dirs || !IsOpen(fs.reg, s) ==> s !in fs'.dirs && !IsOpen(fs'.reg, s) && s in fs'.fm.free)
  {
    var w := Walk(fs.dirs, Start(name, root, cwd), Parent(name)).dir;
    RemoveInClears(fs, w, Last(name), root, cwd);
    RemoveInEffect(fs, w, Last(name), root, cwd);
  }

  /** The list map after entry `k` of `w`, naming `s`, is cleared and the
      list of `s` is forgotten unless `s` is still open. */
  function AfterUnlink(dirs: map<Sector, Entries>, w: Sector, k: nat, s: Sector, reg: Registry): (r: map<Sector, Entries>)
    requires w in dirs && k < |dirs[w]|
    ensures r.Keys <= dirs.Keys && (forall x :: x in dirs && x != s ==> x in r)
    ensures !IsOpen(reg, s) ==> s !in r
    ensures forall x, j :: x in r && 0 <= j < |r[x]| && r[x][j].inUse ==>
              j < |dirs[x]| && r[x][j] == dirs[x][j] && (x != w || j != k)
  {
    Forget(dirs[w := Clear(dirs[w], k)], s, reg)
  }

  /** A successful removal keeps the state coherent: no other entry names
      the inode whose entry list may go, and no other inode changes kind. */
  lemma UnlinkKeepsCoherent(fs: FS, fs': FS, w: Sector, k: nat, s: Sector, root: Sector, cwd: Sector)
    requires Coherent(fs, root, cwd) && SingleLinks(fs.dirs)
    requires w in fs.dirs && k < |fs.dirs[w]| && fs.dirs[w][k].inUse && fs.dirs[w][k].inodeSector == s
    requires s != root && s != cwd
    requires fs'.dirs == AfterUnlink(fs.dirs, w, k, s, fs'.reg)
    requires Sound(fs'.reg) && AgreeBut(fs'.reg, fs.reg, s) && fs'.d == fs.d
    ensures Coherent(fs', root, cwd)
  {
    forall x | x in fs'.dirs
      ensures Readable(fs'.d, x) && EntriesReadable(fs'.dirs[x], fs'.d)
      ensures KindsMatch(fs'.dirs[x], fs'.dirs, fs'.reg, fs'.d)
    {
      var es, es' := fs.dirs[x], fs'.dirs[x];
      assert KindsMatch(es, fs.dirs, fs.reg, fs.d) && EntriesReadable(es, fs.d);
      forall j | 0 <= j < |es'| && es'[j].inUse
        ensures Readable(fs'.d, es'[j].inodeSector)
        ensures es'[j].inodeSector in fs'.dirs <==> IsDirInode(fs'.reg, fs'.d, es'[j].inodeSector)
      {
        var t := es[j].inodeSector;
        assert t != s;
        SameEntrySameOpen(fs'.reg, fs.reg, fs.d, t);
      }
    }
  }

  /** A successful removal keeps the free sectors unused when the removed
      inode holds its sectors apart: the sectors given back are the removed
      inode's, which no entry names any more, and those it holds. */
  lemma UnlinkKeepsFree(fs: FS, fs': FS, w: Sector, k: nat, s: Sector)
    requires FreeIsUnused(fs) && SingleLinks(fs.dirs) && HoldsApart(fs, s)
    requires w in fs.dirs && k < |fs.dirs[w]| && fs.dirs[w][k].inUse && fs.dirs[w][k].inodeSector == s
    requires fs'.dirs == AfterUnlink(fs.dirs, w, k, s, fs'.reg)
    requires Sound(fs.reg) && Sound(fs'.reg) && AgreeBut(fs'.reg, fs.reg, s) && (IsOpen(fs'.reg, s) <==> IsOpen(fs.reg, s))
    requires OpenedEntrySound(fs.reg, fs.d, s)
    requires IsOpen(fs.reg, s) ==> fs'.fm == fs.fm
    requires !IsOpen(fs.reg, s) ==> fs'.fm.free == fs.fm.free + [s] + Holdings(Opened(fs.reg, fs.d, s).data, fs.d)
    ensures FreeIsUnused(fs')
  {
    var held := Holdings(Opened(fs.reg, fs.d, s).data, fs.d);
    assert Linked(fs.dirs, s);
    assert s !in fs.fm.free;
    forall x | x in fs'.fm.free
      ensures x !in fs'.dirs && !IsOpen(fs'.reg, x)
    {
      if x != s {
        assert x !in fs.dirs && !IsOpen(fs.reg, x);
        SameEntrySameOpen(fs'.reg, fs.reg, fs.d, x);
      }
    }
    forall y, j | y in fs'.dirs && 0 <= j < |fs'.dirs[y]| && fs'.dirs[y][j].inUse
      ensures fs'.dirs[y][j].inodeSector !in fs'.fm.free
    {
      var t := fs.dirs[y][j].inodeSector;
      assert Linked(fs.dirs, t) && t != s;
    }
  }

  /** A successful removal keeps every inode named at most once: it only
      clears an entry and drops an entry list. */
  lemma UnlinkKeepsLinks(dirs: map<Sector, Entries>, w: Sector, k: nat, s: Sector, reg: Registry)
    requires SingleLinks(dirs) && w in dirs && k < |dirs[w]|
    ensures SingleLinks(AfterUnlink(dirs, w, k, s, reg))
  {
  }

  /** What a successful removal leaves, in the terms the preservation
      lemmas above take. */
  lemma RemoveInUnlinked(fs: FS, w: Sector, name: string, root: Sector, cwd: Sector)
    requires Sound(fs.reg) && w in fs.dirs && Readable(fs.d, w) && EntriesReadable(fs.dirs[w], fs.d)
    requires KindsMatch(fs.dirs[w], fs.dirs, fs.reg, fs.d)
    requires RemoveIn(fs, w, name, root, cwd).ok
    ensures Lookup(fs.dirs[w], name).Some?
    ensures var k := Lookup(fs.dirs[w], name).value;
            var s := fs.dirs[w][k].inodeSector;
            var fs' := RemoveIn(fs, w, name, root, cwd).fs;
            fs'.dirs == AfterUnlink(fs.dirs, w, k, s, fs'.reg) && fs'.d == fs.d && Sound(fs'.reg)
  {
    RemoveInClears(fs, w, name, root, cwd);
  }

  /** `filesys_remove` keeps the file system consistent, given that the
      inodes it names hold their sectors apart. */
  lemma RemoveKeepsConsistent(fs: FS, root: Sector, cwd: Sector, name: string)
    requires Consistent(fs, root, cwd) && DataApart(fs)
    requires Truncate(name) != "/" ==> Resolvable(name)
    requires FilesysRemove(fs, root, cwd, name).Done?
    ensures Consistent(FilesysRemove(fs, root, cwd, name).fs, root, cwd)
  {
    if Truncate(name) != "/" {
      var walked := Walk(fs.dirs, Start(name, root, cwd), Parent(name));
      if walked.Reached? {
        var w := walked.dir;
        assert KindsMatch(fs.dirs[w], fs.dirs, fs.reg, fs.d);
        if RemoveIn(fs, w, Last(name), root, cwd).ok {
          RemoveInUnlinked(fs, w, Last(name), root, cwd);
          RemoveInEffect(fs, w, Last(name), root, cwd);
          var k := Lookup(fs.dirs[w], Last(name)).value;
          var s := fs.dirs[w][k].inodeSector;
          var fs' := RemoveIn(fs, w, Last(name), root, cwd).fs;
          UnlinkKeepsCoherent(fs, fs', w, k, s, root, cwd);
          UnlinkKeepsFree(fs, fs', w, k, s);
          UnlinkKeepsLinks(fs.dirs, w, k, s, fs'.reg);
        } else {
          RemoveInRefused(fs, w, Last(name), root, cwd);
        }
      }
    }
  }

  // ---------------------------------------------------------------------
  // filesys_create, dir_create

  /** `free_map_release (inode_sector, 1)` when the sector is not 0. */
  function ReleaseIfSet(fm: FreeMap, s: Sector): (r: FreeMap)
    ensures s != 0 ==> s in r.free && |r.free| == |fm.free| + 1
    ensures s == 0 ==> r == fm
  {
    if s != 0 then Release(fm, s) else fm
  }

  /** `inode_create` as written (`earlyExit`: a zero-length inode reports
      failure) or without that exit. Either way the flags argument the
      callers pass is not taken, and the record's flags are 0. */
  function MakeInode(s: Sector, size: int, d: Store, fm: FreeMap, earlyExit: bool): (r: (bool, Store, FreeMap))
    requires 0 <= size < DIDIRECT_LIMIT
    ensures r.0 <==> (!earlyExit || 0 < size) && BytesToSectors(size) <= |fm.free|
    ensures !r.0 ==> r.1 == d
    ensures r.0 ==> r == InodeCreate(s, size, d, fm)
  {
    if earlyExit then InodeCreateAsWritten(s, size, d, fm) else InodeCreate(s, size, d, fm)
  }

  /** When `filesys_create` panics: a path component before the last is
      not a directory, or the parent is reached and a sector is free but
      the initial size is outside what `inode_create` asserts (negative,
      or at least the doubly indirect limit). */
  predicate CreatePanics(fs: FS, root: Sector, cwd: Sector, name: string, size: int)
    requires root in fs.dirs && cwd in fs.dirs && Resolvable(name)
  {
    var w := Walk(fs.dirs, Start(name, root, cwd), Parent(name));
    w.NotDir? || (w.Reached? && |fs.fm.free| > 0 && !(0 <= size < DIDIRECT_LIMIT))
  }

  /** `filesys_create` over either `inode_create`: walk to the parent, take
      one free sector for the inode, create the inode with the initial
      size, and add the last component to the parent. If the creation or
      the add fails, the inode sector (unless it is 0) goes back to the free
      map; data sectors the creation took stay taken. */
  function CreateWith(fs: FS, root: Sector, cwd: Sector, name: string, size: int, earlyExit: bool): (r: Outcome)
    requires root in fs.dirs && cwd in fs.dirs && KindsAgree(fs) && Resolvable(name)
    ensures r.Panicked? <==> CreatePanics(fs, root, cwd, name, size)
    ensures r.Done? ==> r.fs.reg == fs.reg
    ensures r.Done? && r.ok ==> 0 <= size < DIDIRECT_LIMIT && (!earlyExit || 0 < size) && |fs.fm.free| > 0
                                && Walk(fs.dirs, Start(name, root, cwd), Parent(name)).Reached?
    ensures r.Done? && !r.ok ==> r.fs.dirs == fs.dirs
  {
    match Walk(fs.dirs, Start(name, root, cwd), Parent(name))
    case Missing => Done(false, fs)
    case NotDir => Panicked
    case Reached(w) =>
      match Allocate(fs.fm)
      case (None, _) => Done(false, fs)
      case (Some(s), fm1) =>
        if !(0 <= size < DIDIRECT_LIMIT) then Panicked
        else
        var c := MakeInode(s, size, fs.d, fm1, earlyExit);
        if !c.0 then Done(false, FS(fs.dirs, fs.reg, c.1, ReleaseIfSet(c.2, s)))
        else
          var a := DirAdd(fs.dirs[w], Last(name), s);
          if !a.0 then Done(false, FS(fs.dirs, fs.reg, c.1, ReleaseIfSet(c.2, s)))
          else Done(true, FS(fs.dirs[w := a.1], fs.reg, c.1, c.2))
  }

  /** `filesys_create` as written: an empty file is never created. */
  function FilesysCreate(fs: FS, root: Sector, cwd: Sector, name: string, size: int): (r: Outcome)
    requires root in fs.dirs && cwd in fs.dirs && KindsAgree(fs) && Resolvable(name)
    ensures r.Panicked? <==> CreatePanics(fs, root, cwd, name, size)
    ensures size == 0 && r.Done? ==> !r.ok && r.fs.dirs == fs.dirs && r.fs.reg == fs.reg && r.fs.d == fs.d
  {
    CreateWith(fs, root, cwd, name, size, true)
  }

  /** Without the early exit in `inode_create`, an empty file is created
      wherever the parent is reached, a sector is free and the name can be
      added; with it, the same request fails. */
  lemma EmptyFileWithoutEarlyExit(fs: FS, root: Sector, cwd: Sector, name: string)
    requires root in fs.dirs && cwd in fs.dirs && KindsAgree(fs) && Resolvable(name)
    requires Walk(fs.dirs, Start(name, root, cwd), Parent(name)).Reached? && |fs.fm.free| > 0
    requires DirAdd(fs.dirs[Walk(fs.dirs, Start(name, root, cwd), Parent(name)).dir], Last(name), fs.fm.free[0]).0
    ensures CreateWith(fs, root, cwd, name, 0, false).Done? && CreateWith(fs, root, cwd, name, 0, false).ok
    ensures FilesysCreate(fs, root, cwd, name, 0).Done? && !FilesysCreate(fs, root, cwd, name, 0).ok
  {
    EmptyCreateRecord(fs.fm.free[0], fs.d, Allocate(fs.fm).1);
  }

  /** Adding an entry that is not a directory to a directory where its
      name was absent leaves every walk that succeeded before unchanged. */
  lemma {:induction false} WalkAfterAdd(dirs: map<Sector, Entries>, cur: Sector, comps: seq<string>,
                                         w: Sector, name: string, s: Sector)
    requires cur in dirs && w in dirs && s !in dirs
    requires DirAdd(dirs[w], name, s).0
    requires Walk(dirs, cur, comps).Reached?
    ensures Walk(dirs[w := DirAdd(dirs[w], name, s).1], cur, comps) == Walk(dirs, cur, comps)
    decreases |comps|
  {
    var dirs' := dirs[w := DirAdd(dirs[w], name, s).1];
    if |comps| > 0 {
      var k := Lookup(dirs[cur], comps[0]).value;
      if cur == w {
        AddKeepsLookups(dirs[w], name, s, comps[0]);
      }
      assert Lookup(dirs'[cur], comps[0]) == Some(k) && dirs'[cur][k] == dirs[cur][k];
      WalkAfterAdd(dirs, dirs[cur][k].inodeSector, comps[1..], w, name, s);
    }
  }

  /** After a successful creation with room for the data and index sectors
      the path opens as a file: the inode sector taken from the front of the
      free map. */
  lemma CreateThenOpen(fs: FS, root: Sector, cwd: Sector, name: string, size: int, earlyExit: bool)
    requires root in fs.dirs && cwd in fs.dirs && KindsAgree(fs) && Resolvable(name)
    requires 0 <= size < DIDIRECT_LIMIT && FreeIsUnused(fs) && Distinct(fs.fm.free)
    requires BytesToSectors(size) + IndexBlocksNeeded(BytesToSectors(size)) < |fs.fm.free|
    requires CreateWith(fs, root, cwd, name, size, earlyExit).Done? && CreateWith(fs, root, cwd, name, size, earlyExit).ok
    ensures KindsAgree(CreateWith(fs, root, cwd, name, size, earlyExit).fs)
    ensures var fs' := CreateWith(fs, root, cwd, name, size, earlyExit).fs;
            FilesysOpen(fs', root, cwd, name) == FileHandle(fs.fm.free[0])
  {
    CreateKeepsKinds(fs, root, cwd, name, size, earlyExit);
    var s := fs.fm.free[0];
    var c := InodeCreate(s, size, fs.d, FreeMap(fs.fm.free[1..]));
    CreatedState(fs, root, cwd, name, size, earlyExit);
    CreatedRecordPlain(fs, size);
    OpenAfterCreate(fs, CreateWith(fs, root, cwd, name, size, earlyExit).fs, root, cwd, name, c.1);
  }

  /** The record a clean creation writes to the front free sector, which
      is not open, reads as a plain file. */
  lemma CreatedRecordPlain(fs: FS, size: int)
    requires 0 <= size < DIDIRECT_LIMIT && FreeIsUnused(fs) && Distinct(fs.fm.free)
    requires BytesToSectors(size) + IndexBlocksNeeded(BytesToSectors(size)) < |fs.fm.free|
    ensures var s := fs.fm.free[0];
            !IsDirInode(fs.reg, InodeCreate(s, size, fs.d, FreeMap(fs.fm.free[1..])).1, s)
  {
    var s := fs.fm.free[0];
    var fm1 := FreeMap(fs.fm.free[1..]);
    assert Roomy(s, size, fm1);
    FreshPlainFile(fs.reg, s, size, fs.d, fm1);
  }

  /** Adding the front free sector, which reads as a plain file, to the
      parent a walk reaches makes the path open as that file. */
  lemma OpenAfterCreate(fs: FS, fs': FS, root: Sector, cwd: Sector, name: string, d': Store)
    requires root in fs.dirs && cwd in fs.dirs && Resolvable(name) && FreeIsUnused(fs) && |fs.fm.free| > 0
    requires Walk(fs.dirs, Start(name, root, cwd), Parent(name)).Reached?
    requires !IsDirInode(fs.reg, d', fs.fm.free[0])
    requires var w := Walk(fs.dirs, Start(name, root, cwd), Parent(name)).dir;
             var a := DirAdd(fs.dirs[w], Last(name), fs.fm.free[0]);
             a.0 && fs'.dirs == fs.dirs[w := a.1] && fs'.reg == fs.reg && fs'.d == d'
    requires KindsAgree(fs')
    ensures FilesysOpen(fs', root, cwd, name) == FileHandle(fs.fm.free[0])
  {
    var w := Walk(fs.dirs, Start(name, root, cwd), Parent(name)).dir;
    OpenAfterAdd(fs, fs', root, cwd, name, w, fs.fm.free[0]);
  }

  /** A freshly created inode that is not open reads as a plain file. */
  lemma FreshPlainFile(reg: Registry, s: Sector, size: int, d: Store, fm: FreeMap)
    requires Roomy(s, size, fm) && !IsOpen(reg, s)
    ensures !IsDirInode(reg, InodeCreate(s, size, d, fm).1, s)
  {
    CreatedPlainFile(s, size, d, fm);
  }

  /** Once `s`, which is no directory and has flags 0, is added to the
      parent a walk reaches, the path opens as the file `s`. */
  lemma OpenAfterAdd(fs: FS, fs': FS, root: Sector, cwd: Sector, name: string, w: Sector, s: Sector)
    requires root in fs.dirs && cwd in fs.dirs && Resolvable(name) && s !in fs.dirs
    requires Walk(fs.dirs, Start(name, root, cwd), Parent(name)) == Reached(w)
    requires DirAdd(fs.dirs[w], Last(name), s).0
    requires fs'.dirs == fs.dirs[w := DirAdd(fs.dirs[w], Last(name), s).1]
    requires !IsDirInode(fs'.reg, fs'.d, s) && KindsAgree(fs')
    ensures FilesysOpen(fs', root, cwd, name) == FileHandle(s)
  {
    WalkAfterAdd(fs.dirs, Start(name, root, cwd), Parent(name), w, Last(name), s);
    AddThenLookup(fs.dirs[w], Last(name), s);
    OpenFindsEntry(fs', root, cwd, name);
  }

  /** The state a successful creation leaves: the name added to the
      parent's entries and the clean creation's disk and free map. */
  lemma CreatedState(fs: FS, root: Sector, cwd: Sector, name: string, size: int, earlyExit: bool)
    requires root in fs.dirs && cwd in fs.dirs && KindsAgree(fs) && Resolvable(name)
    requires CreateWith(fs, root, cwd, name, size, earlyExit).Done? && CreateWith(fs, root, cwd, name, size, earlyExit).ok
    ensures Walk(fs.dirs, Start(name, root, cwd), Parent(name)).Reached? && |fs.fm.free| > 0
    ensures var w := Walk(fs.dirs, Start(name, root, cwd), Parent(name)).dir;
            var s := fs.fm.free[0];
            var c := InodeCreate(s, size, fs.d, FreeMap(fs.fm.free[1..]));
            var a := DirAdd(fs.dirs[w], Last(name), s);
            a.0 && CreateWith(fs, root, cwd, name, size, earlyExit).fs == FS(fs.dirs[w := a.1], fs.reg, c.1, c.2)
  {
  }

  /** A failed creation gives the inode sector back (unless it is 0) and
      changes no directory or registry entry. */
  lemma CreateFailureReleases(fs: FS, root: Sector, cwd: Sector, name: string, size: int, earlyExit: bool)
    requires root in fs.dirs && cwd in fs.dirs && KindsAgree(fs) && Resolvable(name)
    requires CreateWith(fs, root, cwd, name, size, earlyExit).Done?
    requires !CreateWith(fs, root, cwd, name, size, earlyExit).ok
    ensures var fs' := CreateWith(fs, root, cwd, name, size, earlyExit).fs;
            fs'.dirs == fs.dirs && fs'.reg == fs.reg
            && ((Walk(fs.dirs, Start(name, root, cwd), Parent(name)).Reached? && |fs.fm.free| > 0
                 && fs.fm.free[0] != 0) ==> fs.fm.free[0] in fs'.fm.free)
  {
  }

  /** `dir_create` over either `inode_create`: like `filesys_create` with
      size 0; once the entry is added the new inode is opened as a
      directory, which asserts its flags, and receives `.` and `..`. */
  function DirCreateWith(fs: FS, root: Sector, cwd: Sector, name: string, earlyExit: bool): (r: Outcome)
    requires root in fs.dirs && cwd in fs.dirs && KindsAgree(fs) && Resolvable(name)
    ensures r.Done? && r.ok ==> !earlyExit
  {
    match Walk(fs.dirs, Start(name, root, cwd), Parent(name))
    case Missing => Done(false, fs)
    case NotDir => Panicked
    case Reached(w) =>
      match Allocate(fs.fm)
      case (None, _) => Done(false, fs)
      case (Some(s), fm1) =>
        var c := MakeInode(s, 0, fs.d, fm1, earlyExit);
        var a := DirAdd(fs.dirs[w], Last(name), s);
        if !c.0 || !a.0 then Done(false, FS(fs.dirs, fs.reg, c.1, ReleaseIfSet(c.2, s)))
        else if !IsDirInode(fs.reg, c.1, s) then Panicked
        else WithDots(fs, w, s, a.1, c.1, c.2)
  }

  /** The end of `dir_create`: the parent's entries replaced, and the new
      directory given `.` and `..`; the call succeeds when both are added. */
  function WithDots(fs: FS, w: Sector, s: Sector, parent: Entries, d: Store, fm: FreeMap): Outcome
  {
    var dots := AddDots([], s, w);
    Done(dots.0, FS(fs.dirs[w := parent][s := dots.1], fs.reg, d, fm))
  }

  /** `dir_create` as written: the zero-length inode is never created, so
      the call fails, with the directories, the registry and the disk left
      as they were, unless a component on the way is not a directory. */
  function DirCreate(fs: FS, root: Sector, cwd: Sector, name: string): (r: Outcome)
    requires root in fs.dirs && cwd in fs.dirs && KindsAgree(fs) && Resolvable(name)
    ensures r.Panicked? <==> Walk(fs.dirs, Start(name, root, cwd), Parent(name)).NotDir?
    ensures r.Done? ==> !r.ok && r.fs.dirs == fs.dirs && r.fs.reg == fs.reg && r.fs.d == fs.d
  {
    DirCreateWith(fs, root, cwd, name, true)
  }

  /** The sector `dir_create` takes for the new inode goes back to the end
      of the free list, unless it is sector 0. */
  lemma DirCreateReleasesSector(fs: FS, root: Sector, cwd: Sector, name: string)
    requires root in fs.dirs && cwd in fs.dirs && KindsAgree(fs) && Resolvable(name)
    requires Walk(fs.dirs, Start(name, root, cwd), Parent(name)).Reached? && |fs.fm.free| > 0
    ensures var r := DirCreate(fs, root, cwd, name);
            r.Done? && !r.ok
            && (fs.fm.free[0] != 0 ==> r.fs.fm.free == fs.fm.free[1..] + [fs.fm.free[0]])
            && (fs.fm.free[0] == 0 ==> r.fs.fm.free == fs.fm.free[1..])
  {
  }

  /** `dir_create` never reports success, with or without the early exit. */
  lemma DirCreateNeverSucceeds(fs: FS, root: Sector, cwd: Sector, name: string, earlyExit: bool)
    requires root in fs.dirs && cwd in fs.dirs && KindsAgree(fs) && Resolvable(name)
    ensures DirCreateWith(fs, root, cwd, name, earlyExit).Done? ==> !DirCreateWith(fs, root, cwd, name, earlyExit).ok
  {
    EmptyDirectoryRejectsDots(0, 0);
    forall s: Sector, w: Sector
      ensures !AddDots([], s, w).0
    {
      EmptyDirectoryRejectsDots(s, w);
    }
  }

  /** Without the early exit the zero-length inode is created with flags 0,
      so once the new entry is added, opening the inode as a directory
      fails its assertion. */
  lemma DirCreatePanicsWithoutEarlyExit(fs: FS, root: Sector, cwd: Sector, name: string)
    requires root in fs.dirs && cwd in fs.dirs && KindsAgree(fs) && Resolvable(name) && FreeIsUnused(fs)
    requires Walk(fs.dirs, Start(name, root, cwd), Parent(name)).Reached?
    requires |fs.fm.free| > 0
    requires DirAdd(fs.dirs[Walk(fs.dirs, Start(name, root, cwd), Parent(name)).dir], Last(name), fs.fm.free[0]).0
    ensures DirCreateWith(fs, root, cwd, name, false) == Panicked
  {
    var s := fs.fm.free[0];
    var fm1 := Allocate(fs.fm).1;
    EmptyCreateRecord(s, fs.d, fm1);
  }

  // ---------------------------------------------------------------------
  // Creation keeps the file system consistent

  /** Creating the inode for the front free sector, with room for its data
      and index sectors, writes only sectors that were free and leaves a
      free list drawn from the rest; when it succeeds the sector holds a
      readable plain-file record. */
  lemma MakeInodeInFree(reg: Registry, size: int, d: Store, fm: FreeMap, earlyExit: bool)
    requires 0 <= size < DIDIRECT_LIMIT && Distinct(fm.free)
    requires BytesToSectors(size) + IndexBlocksNeeded(BytesToSectors(size)) < |fm.free|
    requires !IsOpen(reg, fm.free[0])
    ensures var c := MakeInode(fm.free[0], size, d, FreeMap(fm.free[1..]), earlyExit);
            (forall t :: t !in fm.free ==> ReadSector(c.1, t) == ReadSector(d, t))
            && (forall t :: t in c.2.free ==> t in fm.free && t != fm.free[0])
            && (c.0 ==> Readable(c.1, fm.free[0]) && !IsDirInode(reg, c.1, fm.free[0]))
  {
    var s := fm.free[0];
    var fm1 := FreeMap(fm.free[1..]);
    assert Roomy(s, size, fm1);
    var c := MakeInode(s, size, d, fm1, earlyExit);
    if c.0 {
      var n := BytesToSectors(size);
      CreatedShape(s, size, d, fm1);
      CreatedPlainFile(s, size, d, fm1);
      FreshPlainFile(reg, s, size, d, fm1);
      forall t | t !in fm.free
        ensures ReadSector(c.1, t) == ReadSector(d, t)
      {
        CreateWritesOwnSectors(s, size, d, fm1, t);
      }
      forall t | t in c.2.free
        ensures t in fm.free && t != s
      {
        assert t in fm1.free;
      }
    } else {
      assert c == (false, d, fm1);
    }
  }

  /** A step that keeps the entry lists and the registry, writes only free
      sectors and leaves a free list drawn from the old one keeps the file
      system consistent. */
  lemma WriteFreeKeepsConsistent(fs: FS, fs': FS, root: Sector, cwd: Sector)
    requires Consistent(fs, root, cwd)
    requires fs'.dirs == fs.dirs && fs'.reg == fs.reg
    requires forall t :: t !in fs.fm.free ==> ReadSector(fs'.d, t) == ReadSector(fs.d, t)
    requires forall t :: t in fs'.fm.free ==> t in fs.fm.free
    ensures Consistent(fs', root, cwd)
  {
    forall x | x in fs'.dirs
      ensures Readable(fs'.d, x) && EntriesReadable(fs'.dirs[x], fs'.d)
      ensures KindsMatch(fs'.dirs[x], fs'.dirs, fs'.reg, fs'.d)
    {
      var es := fs.dirs[x];
      assert EntriesReadable(es, fs.d) && KindsMatch(es, fs.dirs, fs.reg, fs.d);
      forall j | 0 <= j < |es| && es[j].inUse
        ensures Readable(fs'.d, es[j].inodeSector)
        ensures es[j].inodeSector in fs'.dirs <==> IsDirInode(fs'.reg, fs'.d, es[j].inodeSector)
      {
        assert es[j].inodeSector !in fs.fm.free;
      }
    }
  }

  /** Adding an entry for a free sector that reads as a plain file, with
      only free sectors written, keeps the entry lists matching the flags. */
  lemma AddKeepsKinds(fs: FS, fs': FS, w: Sector, name: string, s: Sector)
    requires KindsAgree(fs) && FreeIsUnused(fs) && w in fs.dirs && s in fs.fm.free
    requires DirAdd(fs.dirs[w], name, s).0
    requires fs'.dirs == fs.dirs[w := DirAdd(fs.dirs[w], name, s).1] && fs'.reg == fs.reg
    requires forall t :: t !in fs.fm.free ==> ReadSector(fs'.d, t) == ReadSector(fs.d, t)
    requires !IsDirInode(fs'.reg, fs'.d, s)
    ensures KindsAgree(fs')
  {
    forall x | x in fs'.dirs
      ensures KindsMatch(fs'.dirs[x], fs'.dirs, fs'.reg, fs'.d)
    {
      var es, es' := fs.dirs[x], fs'.dirs[x];
      assert KindsMatch(es, fs.dirs, fs.reg, fs.d);
      forall j | 0 <= j < |es'| && es'[j].inUse
        ensures es'[j].inodeSector in fs'.dirs <==> IsDirInode(fs'.reg, fs'.d, es'[j].inodeSector)
      {
        if es'[j] == es[j] && es[j].inUse {
          assert es[j].inodeSector !in fs.fm.free;
        }
      }
    }
  }

  /** Adding an entry for a free sector whose record is readable, with only
      free sectors written, keeps every listed record readable. */
  lemma AddKeepsReadable(fs: FS, fs': FS, w: Sector, name: string, s: Sector, root: Sector, cwd: Sector)
    requires Coherent(fs, root, cwd) && FreeIsUnused(fs) && w in fs.dirs
    requires DirAdd(fs.dirs[w], name, s).0
    requires fs'.dirs == fs.dirs[w := DirAdd(fs.dirs[w], name, s).1]
    requires forall t :: t !in fs.fm.free ==> ReadSector(fs'.d, t) == ReadSector(fs.d, t)
    requires Readable(fs'.d, s)
    ensures forall x :: x in fs'.dirs ==> Readable(fs'.d, x) && EntriesReadable(fs'.dirs[x], fs'.d)
  {
    forall x | x in fs'.dirs
      ensures Readable(fs'.d, x) && EntriesReadable(fs'.dirs[x], fs'.d)
    {
      var es, es' := fs.dirs[x], fs'.dirs[x];
      assert EntriesReadable(es, fs.d);
      forall j | 0 <= j < |es'| && es'[j].inUse
        ensures Readable(fs'.d, es'[j].inodeSector)
      {
        if es'[j] == es[j] && es[j].inUse {
          assert es[j].inodeSector !in fs.fm.free;
        }
      }
    }
  }

  /** Adding an entry for a free sector, with a free list drawn from the
      old one without that sector, keeps the free sectors unused and every
      inode named once. */
  lemma AddKeepsFree(fs: FS, fs': FS, w: Sector, name: string, s: Sector)
    requires FreeIsUnused(fs) && SingleLinks(fs.dirs) && w in fs.dirs && s in fs.fm.free
    requires DirAdd(fs.dirs[w], name, s).0
    requires fs'.dirs == fs.dirs[w := DirAdd(fs.dirs[w], name, s).1] && fs'.reg == fs.reg
    requires forall t :: t in fs'.fm.free ==> t in fs.fm.free && t != s
    ensures FreeIsUnused(fs') && SingleLinks(fs'.dirs)
  {
    forall y, j | y in fs'.dirs && 0 <= j < |fs'.dirs[y]| && fs'.dirs[y][j].inUse
      ensures fs'.dirs[y][j].inodeSector !in fs'.fm.free
    {
      if fs'.dirs[y][j] == fs.dirs[y][j] && fs.dirs[y][j].inUse {
        assert fs.dirs[y][j].inodeSector !in fs.fm.free;
      }
    }
    assert !Linked(fs.dirs, s);
  }

  /** Adding an entry for a free sector that holds a readable plain-file
      record, with only free sectors written and a free list drawn from the
      old one without that sector, keeps the file system consistent. */
  lemma AddKeepsConsistent(fs: FS, fs': FS, w: Sector, name: string, s: Sector, root: Sector, cwd: Sector)
    requires Consistent(fs, root, cwd) && w in fs.dirs && s in fs.fm.free
    requires DirAdd(fs.dirs[w], name, s).0
    requires fs'.dirs == fs.dirs[w := DirAdd(fs.dirs[w], name, s).1] && fs'.reg == fs.reg
    requires forall t :: t !in fs.fm.free ==> ReadSector(fs'.d, t) == ReadSector(fs.d, t)
    requires Readable(fs'.d, s) && !IsDirInode(fs'.reg, fs'.d, s)
    requires forall t :: t in fs'.fm.free ==> t in fs.fm.free && t != s
    ensures Consistent(fs', root, cwd)
  {
    AddKeepsKinds(fs, fs', w, name, s);
    AddKeepsReadable(fs, fs', w, name, s, root, cwd);
    AddKeepsFree(fs, fs', w, name, s);
  }

  /** `filesys_create` over either `inode_create` keeps the file system
      consistent when the free list has no repeats and room for the new
      inode's data and index sectors besides its own. */
  lemma CreateKeepsConsistent(fs: FS, root: Sector, cwd: Sector, name: string, size: int, earlyExit: bool)
    requires Consistent(fs, root, cwd) && Resolvable(name) && 0 <= size < DIDIRECT_LIMIT
    requires Distinct(fs.fm.free) && BytesToSectors(size) + IndexBlocksNeeded(BytesToSectors(size)) < |fs.fm.free|
    requires CreateWith(fs, root, cwd, name, size, earlyExit).Done?
    ensures Consistent(CreateWith(fs, root, cwd, name, size, earlyExit).fs, root, cwd)
  {
    if CreateWith(fs, root, cwd, name, size, earlyExit).ok {
      CreatedConsistent(fs, root, cwd, name, size, earlyExit);
    } else {
      RefusedConsistent(fs, root, cwd, name, size, earlyExit);
    }
  }

  /** The successful case of the above. */
  lemma CreatedConsistent(fs: FS, root: Sector, cwd: Sector, name: string, size: int, earlyExit: bool)
    requires Consistent(fs, root, cwd) && Resolvable(name) && 0 <= size < DIDIRECT_LIMIT
    requires Distinct(fs.fm.free) && BytesToSectors(size) + IndexBlocksNeeded(BytesToSectors(size)) < |fs.fm.free|
    requires CreateWith(fs, root, cwd, name, size, earlyExit).Done? && CreateWith(fs, root, cwd, name, size, earlyExit).ok
    ensures Consistent(CreateWith(fs, root, cwd, name, size, earlyExit).fs, root, cwd)
  {
    var w, s := Walk(fs.dirs, Start(name, root, cwd), Parent(name)).dir, fs.fm.free[0];
    MakeInodeInFree(fs.reg, size, fs.d, fs.fm, earlyExit);
    AddKeepsConsistent(fs, CreateWith(fs, root, cwd, name, size, earlyExit).fs, w, Last(name), s, root, cwd);
  }

  /** The failing case: only free sectors are written, and the inode
      sector, if given back, was free before. */
  lemma RefusedConsistent(fs: FS, root: Sector, cwd: Sector, name: string, size: int, earlyExit: bool)
    requires Consistent(fs, root, cwd) && Resolvable(name) && 0 <= size < DIDIRECT_LIMIT
    requires Distinct(fs.fm.free) && BytesToSectors(size) + IndexBlocksNeeded(BytesToSectors(size)) < |fs.fm.free|
    requires CreateWith(fs, root, cwd, name, size, earlyExit).Done? && !CreateWith(fs, root, cwd, name, size, earlyExit).ok
    ensures Consistent(CreateWith(fs, root, cwd, name, size, earlyExit).fs, root, cwd)
  {
    RefusedFootprint(fs, root, cwd, name, size, earlyExit);
    WriteFreeKeepsConsistent(fs, CreateWith(fs, root, cwd, name, size, earlyExit).fs, root, cwd);
  }

  /** A failed creation keeps the entry lists and the registry, writes
      only free sectors and leaves a free list drawn from the old one. */
  lemma RefusedFootprint(fs: FS, root: Sector, cwd: Sector, name: string, size: int, earlyExit: bool)
    requires root in fs.dirs && cwd in fs.dirs && KindsAgree(fs) && Resolvable(name) && 0 <= size < DIDIRECT_LIMIT
    requires Distinct(fs.fm.free) && BytesToSectors(size) + IndexBlocksNeeded(BytesToSectors(size)) < |fs.fm.free|
    requires !IsOpen(fs.reg, fs.fm.free[0])
    requires CreateWith(fs, root, cwd, name, size, earlyExit).Done? && !CreateWith(fs, root, cwd, name, size, earlyExit).ok
    ensures var fs' := CreateWith(fs, root, cwd, name, size, earlyExit).fs;
            fs'.dirs == fs.dirs && fs'.reg == fs.reg
            && (forall t :: t !in fs.fm.free ==> ReadSector(fs'.d, t) == ReadSector(fs.d, t))
            && (forall t :: t in fs'.fm.free ==> t in fs.fm.free)
  {
    var fs' := CreateWith(fs, root, cwd, name, size, earlyExit).fs;
    if Walk(fs.dirs, Start(name, root, cwd), Parent(name)).Reached? {
      var s := fs.fm.free[0];
      MakeInodeInFree(fs.reg, size, fs.d, fs.fm, earlyExit);
      var c := MakeInode(s, size, fs.d, FreeMap(fs.fm.free[1..]), earlyExit);
      assert fs' == FS(fs.dirs, fs.reg, c.1, ReleaseIfSet(c.2, s));
      assert fs'.fm.free <= c.2.free + [s];
    }
  }

  /** The part of the above that opening needs: the entry lists keep
      matching the flags. */
  lemma CreateKeepsKinds(fs: FS, root: Sector, cwd: Sector, name: string, size: int, earlyExit: bool)
    requires root in fs.dirs && cwd in fs.dirs && KindsAgree(fs) && FreeIsUnused(fs) && Resolvable(name)
    requires 0 <= size < DIDIRECT_LIMIT
    requires Distinct(fs.fm.free) && BytesToSectors(size) + IndexBlocksNeeded(BytesToSectors(size)) < |fs.fm.free|
    requires CreateWith(fs, root, cwd, name, size, earlyExit).Done? && CreateWith(fs, root, cwd, name, size, earlyExit).ok
    ensures KindsAgree(CreateWith(fs, root, cwd, name, size, earlyExit).fs)
  {
    var w, s := Walk(fs.dirs, Start(name, root, cwd), Parent(name)).dir, fs.fm.free[0];
    MakeInodeInFree(fs.reg, size, fs.d, fs.fm, earlyExit);
    AddKeepsKinds(fs, CreateWith(fs, root, cwd, name, size, earlyExit).fs, w, Last(name), s);
  }

  /** `dir_create` as written keeps the file system consistent: it writes
      nothing and only moves its sector to the end of the free list. */
  lemma DirCreateKeepsConsistent(fs: FS, root: Sector, cwd: Sector, name: string)
    requires Consistent(fs, root, cwd) && Resolvable(name)
    requires DirCreate(fs, root, cwd, name).Done?
    ensures Consistent(DirCreate(fs, root, cwd, name).fs, root, cwd)
  {
    var fs' := DirCreate(fs, root, cwd, name).fs;
    if Walk(fs.dirs, Start(name, root, cwd), Parent(name)).Reached? && |fs.fm.free| > 0 {
      DirCreateReleasesSector(fs, root, cwd, name);
      forall t | t in fs'.fm.free
        ensures t in fs.fm.free
      {
        if t != fs.fm.free[0] {
          assert t in fs.fm.free[1..];
        }
      }
    }
    WriteFreeKeepsConsistent(fs, fs', root, cwd);
  }

  // ---------------------------------------------------------------------
  // root_dir_create, do_format

  /** `root_dir_create`: `inode_create (sector, 0, 1)` takes the early exit
      and reports failure, writing nothing; the sector is then opened as a
      directory, which asserts the flags of whatever record it holds; the
      dot entries are added only after a successful creation. */
  function RootDirCreate(fs: FS, sector: Sector): (r: Outcome)
    ensures r.Panicked? <==> !IsDirInode(fs.reg, fs.d, sector)
    ensures r.Done? ==> r == Done(false, fs)
  {
    var c := InodeCreateAsWritten(sector, 0, fs.d, fs.fm);
    if !IsDirInode(fs.reg, c.1, sector) then Panicked
    else if !c.0 then Done(false, FS(fs.dirs, fs.reg, c.1, c.2))
    else
      var dots := AddDots([], sector, sector);
      Done(dots.0, FS(fs.dirs[sector := dots.1], fs.reg, c.1, c.2))
  }

  /** `do_format`: the kernel panics unless `root_dir_create` succeeds, so
      formatting always ends in a panic. */
  function DoFormat(fs: FS): (r: Outcome)
    ensures r == Panicked
  {
    match RootDirCreate(fs, ROOT_DIR_SECTOR)
    case Done(ok, fs') => if ok then Done(true, fs') else Panicked
    case Panicked => Panicked
  }
}

=== FILE: frame.dfy ===
/** The physical frame table of src/vm/frame.c. User frames sit above the
    first megabyte and the kernel half of the free pages; a frame's table
    index is computed from its physical address with unsigned 32-bit
    arithmetic, and each entry records the thread and user page that own
    the frame. */
module Frame {
  import opened Base
  import Swap

  const PGSIZE: int := 4096

  /** Kernel virtual addresses start here (`ptov`/`vtop` add and subtract
      it). */
  const PHYS_BASE: U32 := 0xC000_0000

  /** Pages below the first user frame: the first megabyte, the kernel
      half of the free pages, and one more. */
  function UserBase(total: U32): (b: nat)
    ensures b == 0x10_0000 / PGSIZE + total / 2 + 1
  {
    256 + total / 2 + 1
  }

  /** `struct _frame_table`: the owning thread (NULL when unowned) and the
      user page mapped to the frame. */
  datatype FrameEntry = FrameEntry(thread: Option<Swap.Thread>, page: U32)

  type FrameTable = seq<FrameEntry>

  /** The index computed from a physical frame address at the top of
      `frame_table_get` and `frame_table_set`: unsigned, so a frame below
      the user pool wraps to a huge index. */
  function Index(total: U32, pframe: U32): (i: U32)
    ensures pframe / PGSIZE >= UserBase(total) ==> i == pframe / PGSIZE - UserBase(total)
    ensures pframe / PGSIZE < UserBase(total) ==> i == pframe / PGSIZE - UserBase(total) + 0x1_0000_0000
  {
    Wrap32(pframe / PGSIZE - UserBase(total))
  }

  /** `frame_table_get_pframe`: the physical address of frame `index`,
      computed modulo 2^32. */
  function GetPframe(total: U32, index: U32): (p: U32)
    ensures p % PGSIZE == 0
    ensures index + UserBase(total) < 0x10_0000 ==> p == (index + UserBase(total)) * PGSIZE
  {
    var p := Wrap32((index + UserBase(total)) * PGSIZE);
    Aligned32(index + UserBase(total));
    p
  }

  /** A multiple of PGSIZE stays one after wrapping to 32 bits. */
  lemma Aligned32(n: nat)
    ensures Wrap32(n * PGSIZE) % PGSIZE == 0
  {
    var q := n * PGSIZE / 0x1_0000_0000;
    assert n * PGSIZE == q * 0x1_0000_0000 + Wrap32(n * PGSIZE);
    assert Wrap32(n * PGSIZE) == (n - q * 0x10_0000) * PGSIZE;
  }

  /** The index of the frame `GetPframe` returns is the index asked for,
      as long as the address does not wrap. */
  lemma IndexOfPframe(total: U32, index: U32)
    requires index + UserBase(total) < 0x10_0000
    ensures Index(total, GetPframe(total, index)) == index
  {
    assert GetPframe(total, index) / PGSIZE == index + UserBase(total);
  }

  /** Every page-aligned user frame is the frame of its own index. */
  lemma PframeOfIndex(total: U32, pframe: U32)
    requires pframe % PGSIZE == 0 && pframe / PGSIZE >= UserBase(total)
    ensures GetPframe(total, Index(total, pframe)) == pframe
  {
    assert Index(total, pframe) + UserBase(total) == pframe / PGSIZE;
  }

  /** `frame_table_set`: a non-NULL page records the current thread and the
      page; NULL clears both. Nothing else changes. */
  function FrameTableSet(ft: FrameTable, total: U32, pframe: U32, page: U32, cur: Swap.Thread): (r: FrameTable)
    requires Index(total, pframe) < |ft|
    ensures |r| == |ft|
    ensures var i := Index(total, pframe);
            (page != 0 ==> r[i] == FrameEntry(Some(cur), page))
            && (page == 0 ==> r[i] == FrameEntry(None, 0))
    ensures forall j :: 0 <= j < |ft| && j != Index(total, pframe) ==> r[j] == ft[j]
  {
    var entry := if page != 0 then FrameEntry(Some(cur), page) else FrameEntry(None, page);
    ft[Index(total, pframe) := entry]
  }

  /** `frame_table_get`: the owner and page recorded for the frame. */
  function FrameTableGet(ft: FrameTable, total: U32, pframe: U32): (r: (Option<Swap.Thread>, U32))
    requires Index(total, pframe) < |ft|
    ensures r == (ft[Index(total, pframe)].thread, ft[Index(total, pframe)].page)
  {
    var e := ft[Index(total, pframe)];
    (e.thread, e.page)
  }

  /** Reading a frame returns what was last stored there; reading another
      frame is unaffected by the store. */
  lemma SetThenGet(ft: FrameTable, total: U32, pframe: U32, page: U32, cur: Swap.Thread, other: U32)
    requires Index(total, pframe) < |ft| && Index(total, other) < |ft|
    ensures var ft' := FrameTableSet(ft, total, pframe, page, cur);
            FrameTableGet(ft', total, pframe) == (if page != 0 then Some(cur) else None, page)
            && (Index(total, other) != Index(total, pframe) ==> FrameTableGet(ft', total, other) == FrameTableGet(ft, total, other))
  {
  }

  /** `vtop`: a kernel virtual address to its physical address. */
  function Vtop(kpage: U32): (p: U32)
    requires kpage >= PHYS_BASE
    ensures p + PHYS_BASE == kpage
  {
    kpage - PHYS_BASE
  }

  /** `frame_free`: the kernel page goes back to the user pool and its frame
      entry is cleared. */
  function FrameFree(ft: FrameTable, pool: set<U32>, total: U32, kpage: U32, cur: Swap.Thread): (r: (FrameTable, set<U32>))
    requires kpage >= PHYS_BASE && Index(total, Vtop(kpage)) < |ft|
    ensures r.1 == pool + {kpage}
    ensures |r.0| == |ft| && r.0[Index(total, Vtop(kpage))] == FrameEntry(None, 0)
    ensures forall j :: 0 <= j < |ft| && j != Index(total, Vtop(kpage)) ==> r.0[j] == ft[j]
  {
    (FrameTableSet(ft, total, Vtop(kpage), 0, cur), pool + {kpage})
  }

  /** What `frame_alloc` does: hand out the page the user pool gave, or
      reserve a swap slot for an eviction, or give up. */
  datatype Allocation = Fresh(kpage: U32) | NoFrame | Evicting(slot: nat, table: Swap.SwapTable)

  /** `frame_alloc` up to the choice of victim: `kpage` is what the user
      pool returned (0 when it is empty). An empty pool reserves the lowest
      free swap slot; with no free slot either the result is NULL. */
  method FrameAlloc(kpage: U32, table: Swap.SwapTable) returns (r: Allocation)
    ensures kpage != 0 ==> r == Fresh(kpage)
    ensures kpage == 0 ==> (r.NoFrame? <==> Swap.LowestFree(table, 0).None?)
    ensures r.Evicting? ==>
              kpage == 0 && Swap.LowestFree(table, 0) == Some(r.slot) && r.table == table[r.slot := Swap.Reserved]
  {
    if kpage != 0 {
      return Fresh(kpage);
    }
    var slot, table' := Swap.SwapAlloc(table);
    if slot == -1 {
      return NoFrame;
    }
    return Evicting(slot, table');
  }

  /** A freed frame reads back as unowned, and a frame set again after
      being freed belongs to the thread that set it. */
  lemma FreeThenSet(ft: FrameTable, pool: set<U32>, total: U32, kpage: U32, cur: Swap.Thread, upage: U32)
    requires kpage >= PHYS_BASE && Index(total, Vtop(kpage)) < |ft| && upage != 0
    ensures var (ft1, _) := FrameFree(ft, pool, total, kpage, cur);
            FrameTableGet(ft1, total, Vtop(kpage)) == (None, 0)
            && FrameTableGet(FrameTableSet(ft1, total, Vtop(kpage), upage, cur), total, Vtop(kpage)) == (Some(cur), upage)
  {
  }
}

=== FILE: inode.dfy ===
/** The indexed on-disk inode of src/filesys/inode.c: its 512-byte record,
    the translation of a byte offset to a data sector (`byte_to_sector`),
    creation (`sectors_allocate`, `map_sector_to_inode`, `inode_create`) and
    the release of the direct and single-indirect tiers (`sectors_release`). */
module Inode {
  import opened Base
  import opened Disk
  import opened BlockMap

  const INODE_MAGIC: U32 := 0x494e4f44

  /** `struct inode_disk`: 12 direct sectors, the single- and
      double-indirect index sectors, the length (an `off_t`, kept as its
      32-bit pattern), flags and magic, then 111 unused words. */
  datatype InodeDisk = InodeDisk(
    dblock: seq<U32>,
    iblock: U32,
    diblock: U32,
    length: U32,
    flags: U32,
    magic: U32)

  predicate WellFormed(r: InodeDisk)
  {
    |r.dblock| == DIRECT_BLOCK
  }

  /** `inode_length`: the signed file length. */
  function Length(r: InodeDisk): int
  {
    ToSigned32(r.length)
  }

  /** The record's 128 words in field order. */
  function RecordWords(r: InodeDisk): (ws: seq<U32>)
    requires WellFormed(r)
    ensures |ws| == 128
  {
    r.dblock + [r.iblock, r.diblock, r.length, r.flags, r.magic] + seq(111, i => 0)
  }

  function EncodeRecord(r: InodeDisk): Block
    requires WellFormed(r)
  {
    EncodeWords(RecordWords(r))
  }

  function DecodeRecord(b: Block): (r: InodeDisk)
    ensures WellFormed(r)
  {
    InodeDisk(seq(DIRECT_BLOCK, i requires 0 <= i < DIRECT_BLOCK => WordAt(b, i)),
              WordAt(b, 12), WordAt(b, 13), WordAt(b, 14), WordAt(b, 15), WordAt(b, 16))
  }

  /** A record read back from the sector it was written to is the record
      that was written. */
  lemma DecodeEncodeRecord(r: InodeDisk)
    requires WellFormed(r)
    ensures DecodeRecord(EncodeRecord(r)) == r
  {
    var ws := RecordWords(r);
    forall k | 0 <= k < 17
      ensures WordAt(EncodeRecord(r), k) == ws[k]
    {
      WordAtEncodeWords(ws, k);
    }
    var back := DecodeRecord(EncodeRecord(r));
    assert back.dblock == r.dblock by {
      forall i | 0 <= i < DIRECT_BLOCK
        ensures back.dblock[i] == r.dblock[i]
      {
        assert ws[i] == r.dblock[i];
      }
    }
  }

  /** An index sector: up to 128 sector numbers, the rest zero (the C code
      fills a `calloc`ed buffer). */
  function IndexBlock(es: seq<U32>): Block
    requires |es| <= SECTORS_PER_BLOCK
  {
    EncodeWords(es + seq(SECTORS_PER_BLOCK - |es|, i => 0))
  }

  lemma IndexEntry(es: seq<U32>, k: nat)
    requires k < |es| <= SECTORS_PER_BLOCK
    ensures WordAt(IndexBlock(es), k) == es[k]
  {
    var ws := es + seq(SECTORS_PER_BLOCK - |es|, i => 0);
    WordAtEncodeWords(ws, k);
  }

  /** The sector a slot names, following index sectors on disk. */
  function SlotSector(rec: InodeDisk, d: Store, s: Slot): U32
    requires WellFormed(rec) && ValidSlot(s)
  {
    match s
    case Direct(i) => rec.dblock[i]
    case Indirect(i) => WordAt(ReadSector(d, rec.iblock), i)
    case Doubly(o, i) => WordAt(ReadSector(d, WordAt(ReadSector(d, rec.diblock), o)), i)
  }

  /** `byte_to_sector`: None (the C code's -1) at or past the end of the
      file, otherwise the sector holding byte `pos`, which is the one the
      slot of sector position pos / 512 names. */
  function ByteToSector(rec: InodeDisk, d: Store, pos: int): (r: Option<U32>)
    requires WellFormed(rec) && 0 <= pos && Length(rec) < DIDIRECT_LIMIT
    ensures r.None? <==> pos >= Length(rec)
    ensures r.Some? ==> r.value == SlotSector(rec, d, SlotOf(pos / BLOCK_SECTOR_SIZE))
  {
    if pos >= Length(rec) then None
    else if pos < DIRECT_LIMIT then Some(rec.dblock[pos / BLOCK_SECTOR_SIZE])
    else if pos < IDIRECT_LIMIT then
      var offsB := pos / BLOCK_SECTOR_SIZE - DIRECT_BLOCK;
      Some(WordAt(ReadSector(d, rec.iblock), offsB))
    else
      var offsB := pos / BLOCK_SECTOR_SIZE - DIRECT_BLOCK - SECTORS_PER_BLOCK;
      var offsD := offsB / SECTORS_PER_BLOCK;
      var offI := offsB - offsD * SECTORS_PER_BLOCK;
      assert SlotOfByte(pos) == Doubly(offsD, offI);
      var first := ReadSector(d, rec.diblock);
      Some(WordAt(ReadSector(d, WordAt(first, offsD)), offI))
  }

  // ---------------------------------------------------------------------
  // Creation

  /** One `free_map_allocate (1, &x)` whose failure is ignored: `x` keeps
      the zero of its `calloc`ed home. */
  function AllocOrZero(fm: FreeMap): (r: (U32, FreeMap))
    ensures |fm.free| > 0 ==> r.0 == fm.free[0] && r.1.free == fm.free[1..]
    ensures |fm.free| == 0 ==> r == (0, fm)
  {
    var a := Allocate(fm);
    (if a.0.Some? then a.0.value else 0, a.1)
  }

  /** k allocations of that kind, in order. */
  function AllocMany(fm: FreeMap, k: nat): (r: (seq<U32>, FreeMap))
    ensures |r.0| == k
    ensures k <= |fm.free| ==> r.0 == fm.free[..k] && r.1.free == fm.free[k..]
    decreases k
  {
    if k == 0 then ([], fm)
    else
      var a := AllocOrZero(fm);
      var rest := AllocMany(a.1, k - 1);
      ([a.0] + rest.0, rest.1)
  }

  /** `sectors_allocate`: `cnt` single-sector allocations, stopping at the
      first failure without giving back what was already taken. It succeeds
      iff `cnt` sectors were free; on failure every free sector is gone. */
  function SectorsAllocate(cnt: nat, fm: FreeMap): (r: (seq<U32>, bool, FreeMap))
    ensures r.1 <==> cnt <= |fm.free|
    ensures r.1 ==> r.0 == fm.free[..cnt] && r.2.free == fm.free[cnt..]
    ensures !r.1 ==> r.2.free == []
    decreases cnt
  {
    if cnt == 0 then ([], true, fm)
    else
      var a := Allocate(fm);
      if a.0.None? then ([], false, a.1)
      else
        var rest := SectorsAllocate(cnt - 1, a.1);
        ([a.0.value] + rest.0, rest.1, rest.2)
  }

  /** What `map_sector_to_inode` produces: the record, the data sectors it
      placed, and the second-level index sectors it allocated
      (`diblock_i[0 .. ]`). */
  datatype Layout = Layout(rec: InodeDisk, data: seq<U32>, second: seq<U32>)

  /** Index sectors of a layout in allocation order. */
  function IndexTargets(l: Layout): seq<U32>
  {
    var n := |l.data|;
    (if n >= DIRECT_BLOCK then [l.rec.iblock] else [])
    + (if n >= INDIRECT_END then [l.rec.diblock] + l.second else [])
  }

  /** `map_sector_to_inode`: the first 12 data sectors go to `dblock`; at
      12 or more an indirect index sector is allocated and takes the next
      128; at 140 or more a double-indirect index sector is allocated and
      the rest go, 128 at a time, to freshly allocated second-level index
      sectors. Allocation failures leave zeros. */
  function MapSectorToInode(idx: seq<U32>, length: U32, fm: FreeMap): (r: (Layout, FreeMap))
    requires |idx| <= MAX_SECTORS
    ensures WellFormed(r.0.rec) && r.0.data == idx
    ensures r.0.rec.length == length && r.0.rec.magic == INODE_MAGIC && r.0.rec.flags == 0
    ensures forall k :: 0 <= k < |idx| && k < DIRECT_BLOCK ==> r.0.rec.dblock[k] == idx[k]
    ensures |r.0.second| == NumChunks(|idx|)
  {
    var n := |idx|;
    var direct := Min(n, DIRECT_BLOCK);
    var dblock := idx[..direct] + seq(DIRECT_BLOCK - direct, i => 0);
    if n < DIRECT_BLOCK then
      (Layout(InodeDisk(dblock, 0, 0, length, 0, INODE_MAGIC), idx, []), fm)
    else
      var ib := AllocOrZero(fm);
      if n < INDIRECT_END then
        (Layout(InodeDisk(dblock, ib.0, 0, length, 0, INODE_MAGIC), idx, []), ib.1)
      else
        var db := AllocOrZero(ib.1);
        var second := AllocMany(db.1, NumChunks(n));
        (Layout(InodeDisk(dblock, ib.0, db.0, length, 0, INODE_MAGIC), idx, second.0), second.1)
  }

  /** When enough sectors are free, `map_sector_to_inode` takes its index
      sectors from the front of the free list, in the order the record names
      them, and leaves the rest. */
  lemma MapAllocates(idx: seq<U32>, length: U32, fm: FreeMap)
    requires |idx| <= MAX_SECTORS && IndexBlocksNeeded(|idx|) <= |fm.free|
    ensures var r := MapSectorToInode(idx, length, fm);
            var e := IndexBlocksNeeded(|idx|);
            IndexTargets(r.0) == fm.free[..e] && r.1.free == fm.free[e..]
  {
    var n := |idx|;
    var e := IndexBlocksNeeded(n);
    if n >= INDIRECT_END {
      var c := NumChunks(n);
      var rest := fm.free[2..];
      assert rest[..c] == fm.free[2..e];
      assert rest[c..] == fm.free[e..];
      assert fm.free[..e] == [fm.free[0], fm.free[1]] + fm.free[2..e];
    }
  }

  /** Contents written to the index sectors, matching `IndexTargets`. */
  function IndexBlocks(l: Layout): (bs: seq<Block>)
    requires |l.data| <= MAX_SECTORS && |l.second| == NumChunks(|l.data|)
    ensures |bs| == |IndexTargets(l)|
  {
    var n := |l.data|;
    (if n >= DIRECT_BLOCK then [IndexBlock(l.data[DIRECT_BLOCK .. Min(n, INDIRECT_END)])] else [])
    + (if n >= INDIRECT_END then
         var cs := Chunks(l.data[INDIRECT_END..]);
         [IndexBlock(l.second)] + seq(|cs|, i requires 0 <= i < |cs| => IndexBlock(cs[i]))
       else [])
  }

  /** The sectors `inode_create` writes, in order: the record, the index
      sectors, then every data sector. */
  function CreateTargets(sector: Sector, l: Layout): seq<Sector>
  {
    [sector] + IndexTargets(l) + l.data
  }

  /** What it writes there: the encoded record, the index sectors, zeros. */
  function CreateBlocks(l: Layout): (bs: seq<Block>)
    requires WellFormed(l.rec) && |l.data| <= MAX_SECTORS && |l.second| == NumChunks(|l.data|)
    ensures |bs| == 1 + |IndexTargets(l)| + |l.data|
  {
    [EncodeRecord(l.rec)] + IndexBlocks(l) + seq(|l.data|, i => Zeros(BLOCK_SECTOR_SIZE))
  }

  /** `inode_create` without its `sectors == 0` early exit: allocate the
      data sectors, place them, write the record, the index sectors and
      zeroed data. It succeeds iff all data sectors could be allocated, and
      a failure writes nothing. */
  function InodeCreate(sector: Sector, length: int, d: Store, fm: FreeMap): (r: (bool, Store, FreeMap))
    requires 0 <= length < DIDIRECT_LIMIT
    ensures r.0 <==> BytesToSectors(length) <= |fm.free|
    ensures !r.0 ==> r.1 == d
  {
    var n := BytesToSectors(length);
    var a := SectorsAllocate(n, fm);
    if !a.1 then (false, d, a.2)
    else
      var m := MapSectorToInode(a.0, length, a.2);
      (true, ApplyWrites(d, CreateTargets(sector, m.0), CreateBlocks(m.0)), m.1)
  }

  /** `inode_create` as written: a zero-length inode jumps straight to the
      exit and reports failure with nothing written. */
  function InodeCreateAsWritten(sector: Sector, length: int, d: Store, fm: FreeMap): (r: (bool, Store, FreeMap))
    requires 0 <= length < DIDIRECT_LIMIT
    ensures r.0 <==> 0 < length && BytesToSectors(length) <= |fm.free|
    ensures !r.0 ==> r.1 == d
    ensures length == 0 ==> r == (false, d, fm)
  {
    if BytesToSectors(length) == 0 then (false, d, fm) else InodeCreate(sector, length, d, fm)
  }

  /** `inode_create (sector, 0)` as written reports failure and writes no
      record, whatever the free map holds. */
  lemma EmptyCreateFails(sector: Sector, d: Store, fm: FreeMap)
    ensures InodeCreateAsWritten(sector, 0, d, fm) == (false, d, fm)
  {
  }

  /** The sector list `[sector] + s[n..m] + s[..n]` has no repeats when
      `s` has none and does not contain `sector`. */
  lemma RearrangedDistinct(sector: Sector, s: seq<Sector>, n: nat, m: nat)
    requires n <= m <= |s| && Distinct(s) && sector !in s
    ensures Distinct([sector] + s[n..m] + s[..n])
  {
    var t := [sector] + s[n..m] + s[..n];
    forall i, j | 0 <= i < j < |t|
      ensures t[i] != t[j]
    {
      var w := m - n;
      if i == 0 {
        assert t[j] in s;
      } else {
        var a := if i - 1 < w then n + i - 1 else i - 1 - w;
        var b := if j - 1 < w then n + j - 1 else j - 1 - w;
        assert t[i] == s[a] && t[j] == s[b] && a != b;
      }
    }
  }

  /** Room for a clean creation: enough distinct free sectors for the data
      and index sectors, none of them the record's own sector. */
  predicate Roomy(sector: Sector, length: int, fm: FreeMap)
  {
    0 <= length < DIDIRECT_LIMIT && Distinct(fm.free) && sector !in fm.free
    && BytesToSectors(length) + IndexBlocksNeeded(BytesToSectors(length)) <= |fm.free|
  }

  /** A layout whose direct entries hold the first data sectors and whose
      second-level sectors match the data beyond 140. */
  predicate Placed(l: Layout)
  {
    WellFormed(l.rec) && |l.data| <= MAX_SECTORS && |l.second| == NumChunks(|l.data|)
    && forall k :: 0 <= k < |l.data| && k < DIRECT_BLOCK ==> l.rec.dblock[k] == l.data[k]
  }

  /** The layout of a clean creation: the first n free sectors become data
      sectors and are placed using the free sectors after them. */
  function CleanLayout(length: int, fm: FreeMap): Layout
    requires 0 <= length < DIDIRECT_LIMIT && BytesToSectors(length) <= |fm.free|
  {
    var n := BytesToSectors(length);
    MapSectorToInode(fm.free[..n], length, FreeMap(fm.free[n..])).0
  }

  /** A clean creation succeeds and writes its layout. */
  lemma CreatedLayout(sector: Sector, length: int, d: Store, fm: FreeMap)
    requires Roomy(sector, length, fm)
    ensures var l := CleanLayout(length, fm);
            var r := InodeCreate(sector, length, d, fm);
            Placed(l) && r.0 && r.1 == ApplyWrites(d, CreateTargets(sector, l), CreateBlocks(l))
  {
  }

  /** Slicing a suffix is slicing the whole. */
  lemma SliceOfSlice<T>(s: seq<T>, n: nat, e: nat)
    requires n + e <= |s|
    ensures s[n..][..e] == s[n .. n + e] && s[n..][e..] == s[n + e..]
  {
  }

  /** The index sectors of a clean creation are the e free sectors after
      the n data sectors. */
  lemma CreatedIndex(length: int, fm: FreeMap)
    requires 0 <= length < DIDIRECT_LIMIT
    requires BytesToSectors(length) + IndexBlocksNeeded(BytesToSectors(length)) <= |fm.free|
    ensures var n := BytesToSectors(length);
            IndexTargets(CleanLayout(length, fm)) == fm.free[n .. n + IndexBlocksNeeded(n)]
  {
    var n := BytesToSectors(length);
    var rest := FreeMap(fm.free[n..]);
    MapAllocates(fm.free[..n], length, rest);
    SliceOfSlice(fm.free, n, IndexBlocksNeeded(n));
  }

  /** After a clean creation the free list keeps what follows them. */
  lemma CreatedFree(sector: Sector, length: int, d: Store, fm: FreeMap)
    requires 0 <= length < DIDIRECT_LIMIT
    requires BytesToSectors(length) + IndexBlocksNeeded(BytesToSectors(length)) <= |fm.free|
    ensures var n := BytesToSectors(length);
            InodeCreate(sector, length, d, fm).2.free == fm.free[n + IndexBlocksNeeded(n)..]
  {
    var n := BytesToSectors(length);
    var rest := FreeMap(fm.free[n..]);
    assert SectorsAllocate(n, fm).2 == rest;
    MapAllocates(fm.free[..n], length, rest);
    SliceOfSlice(fm.free, n, IndexBlocksNeeded(n));
  }

  /** The shape of a clean creation: data sectors are the first n free
      ones, index sectors the next e, and the free list keeps the rest. */
  lemma CreatedShape(sector: Sector, length: int, d: Store, fm: FreeMap)
    requires Roomy(sector, length, fm)
    ensures var n := BytesToSectors(length);
            var e := IndexBlocksNeeded(n);
            var l := CleanLayout(length, fm);
            l.rec.length == length && l.rec.magic == INODE_MAGIC && l.data == fm.free[..n]
            && IndexTargets(l) == fm.free[n .. n + e]
            && InodeCreate(sector, length, d, fm).2.free == fm.free[n + e..]
  {
    CreatedIndex(length, fm);
    CreatedFree(sector, length, d, fm);
  }

  /** Every write of a clean creation goes to its own sector. */
  lemma CreatedDistinct(sector: Sector, length: int, fm: FreeMap, l: Layout)
    requires Roomy(sector, length, fm)
    requires l.data == fm.free[..BytesToSectors(length)]
    requires IndexTargets(l) == fm.free[BytesToSectors(length) .. BytesToSectors(length) + IndexBlocksNeeded(BytesToSectors(length))]
    ensures Distinct(CreateTargets(sector, l))
  {
    var n := BytesToSectors(length);
    RearrangedDistinct(sector, fm.free, n, n + IndexBlocksNeeded(n));
  }

  /** The record sector of a clean creation decodes to the placed record. */
  lemma RecordLands(sector: Sector, l: Layout, d: Store)
    requires Placed(l) && Distinct(CreateTargets(sector, l))
    ensures DecodeRecord(ReadSector(ApplyWrites(d, CreateTargets(sector, l), CreateBlocks(l)), sector)) == l.rec
  {
    WriteLands(d, CreateTargets(sector, l), CreateBlocks(l), 0);
    DecodeEncodeRecord(l.rec);
  }

  /** The indirect index sector of a clean creation holds the data
      sectors 12 .. 139. */
  lemma IndirectReads(sector: Sector, l: Layout, d: Store)
    requires Placed(l) && Distinct(CreateTargets(sector, l)) && DIRECT_BLOCK <= |l.data|
    ensures ReadSector(ApplyWrites(d, CreateTargets(sector, l), CreateBlocks(l)), l.rec.iblock)
            == IndexBlock(l.data[DIRECT_BLOCK .. Min(|l.data|, INDIRECT_END)])
  {
    var zs := seq(|l.data|, i => Zeros(BLOCK_SECTOR_SIZE));
    FrontIndex(sector, IndexTargets(l), l.data, 0);
    FrontIndex(EncodeRecord(l.rec), IndexBlocks(l), zs, 0);
    WriteLands(d, CreateTargets(sector, l), CreateBlocks(l), 1);
  }

  /** Reading back every entry of an index sector gives its list. */
  lemma Entries(es: seq<U32>)
    requires |es| <= SECTORS_PER_BLOCK
    ensures seq(|es|, i requires 0 <= i < |es| => WordAt(IndexBlock(es), i)) == es
  {
    forall i | 0 <= i < |es|
      ensures WordAt(IndexBlock(es), i) == es[i]
    {
      IndexEntry(es, i);
    }
  }

  /** A sector found through the double-indirect tier, given what its two
      index sectors hold. */
  lemma DoublyFollow(rec: InodeDisk, d: Store, second: seq<U32>, c: seq<U32>, o: nat, i: nat)
    requires WellFormed(rec)
    requires o < |second| <= SECTORS_PER_BLOCK && i < |c| <= SECTORS_PER_BLOCK
    requires ReadSector(d, rec.diblock) == IndexBlock(second)
    requires ReadSector(d, second[o]) == IndexBlock(c)
    ensures SlotSector(rec, d, Doubly(o, i)) == c[i]
  {
    IndexEntry(second, o);
    IndexEntry(c, i);
  }

  /** A data sector placed in the indirect tier is found there. */
  lemma IndirectSlotLands(sector: Sector, l: Layout, d: Store, k: nat)
    requires Placed(l) && Distinct(CreateTargets(sector, l))
    requires DIRECT_BLOCK <= k < INDIRECT_END && k < |l.data|
    ensures SlotSector(l.rec, ApplyWrites(d, CreateTargets(sector, l), CreateBlocks(l)), SlotOf(k)) == l.data[k]
  {
    IndirectReads(sector, l, d);
    IndexEntry(l.data[DIRECT_BLOCK .. Min(|l.data|, INDIRECT_END)], k - DIRECT_BLOCK);
  }


  /** Element 1 + j of `[x] + b + c` is element j of b. */
  lemma FrontIndex<T>(x: T, b: seq<T>, c: seq<T>, j: nat)
    requires j < |b|
    ensures ([x] + b + c)[1 + j] == b[j]
  {
  }

  /** With 140 or more data sectors the index sectors are the indirect
      one, the double-indirect one and the second-level ones ... */
  lemma DoublyTargets(l: Layout, o: nat)
    requires INDIRECT_END <= |l.data| && o < |l.second|
    ensures var it := IndexTargets(l);
            2 + o < |it| && it[1] == l.rec.diblock && it[2 + o] == l.second[o]
  {
    assert IndexTargets(l) == [l.rec.iblock, l.rec.diblock] + l.second;
  }

  /** ... and their contents are the second-level sector list and the runs
      of 128 data sectors. */
  lemma DoublyIndex(l: Layout, o: nat)
    requires Placed(l) && INDIRECT_END <= |l.data| && o < |l.second|
    ensures var ib := IndexBlocks(l);
            var cs := Chunks(l.data[INDIRECT_END..]);
            o < |cs| && |cs[o]| <= SECTORS_PER_BLOCK && 2 + o < |ib|
            && ib[1] == IndexBlock(l.second) && ib[2 + o] == IndexBlock(cs[o])
  {
    var n := |l.data|;
    var cs := Chunks(l.data[INDIRECT_END..]);
    var tail := seq(|cs|, i requires 0 <= i < |cs| => IndexBlock(cs[i]));
    var ib := IndexBlocks(l);
    assert ib == [IndexBlock(l.data[DIRECT_BLOCK .. Min(n, INDIRECT_END)])] + ([IndexBlock(l.second)] + tail);
    assert o < |cs|;
    assert ib[2 + o] == tail[o];
  }

  /** With 140 or more data sectors the third write is the
      double-indirect index sector and write 3 + o the o-th second-level
      one. */
  lemma DoublyWrites(sector: Sector, l: Layout, o: nat)
    requires Placed(l) && INDIRECT_END <= |l.data| && o < |l.second|
    ensures var ts := CreateTargets(sector, l);
            var bs := CreateBlocks(l);
            var cs := Chunks(l.data[INDIRECT_END..]);
            o < |cs| && |cs[o]| <= SECTORS_PER_BLOCK
            && ts[2] == l.rec.diblock && bs[2] == IndexBlock(l.second)
            && ts[3 + o] == l.second[o] && bs[3 + o] == IndexBlock(cs[o])
  {
    var it := IndexTargets(l);
    var ib := IndexBlocks(l);
    DoublyTargets(l, o);
    DoublyIndex(l, o);
    FrontIndex(sector, it, l.data, 1);
    FrontIndex(sector, it, l.data, 2 + o);
    var zs := seq(|l.data|, i => Zeros(BLOCK_SECTOR_SIZE));
    FrontIndex(EncodeRecord(l.rec), ib, zs, 1);
    FrontIndex(EncodeRecord(l.rec), ib, zs, 2 + o);
  }

  /** After the writes of a clean creation, the double-indirect index
      sector and the o-th second-level one hold their entries. */
  lemma DoublyReads(sector: Sector, l: Layout, d: Store, o: nat)
    requires Placed(l) && Distinct(CreateTargets(sector, l))
    requires INDIRECT_END <= |l.data| && o < |l.second|
    ensures var d' := ApplyWrites(d, CreateTargets(sector, l), CreateBlocks(l));
            var cs := Chunks(l.data[INDIRECT_END..]);
            o < |cs| && |cs[o]| <= SECTORS_PER_BLOCK
            && ReadSector(d', l.rec.diblock) == IndexBlock(l.second)
            && ReadSector(d', l.second[o]) == IndexBlock(cs[o])
  {
    DoublyWrites(sector, l, o);
    WriteLands(d, CreateTargets(sector, l), CreateBlocks(l), 2);
    WriteLands(d, CreateTargets(sector, l), CreateBlocks(l), 3 + o);
  }

  /** Data position k >= 140 sits at entry i of chunk o, which is what
      its slot names. */
  lemma ChunkOf(l: Layout, k: nat)
    requires Placed(l) && INDIRECT_END <= k < |l.data|
    ensures var o := (k - INDIRECT_END) / SECTORS_PER_BLOCK;
            var i := (k - INDIRECT_END) % SECTORS_PER_BLOCK;
            var cs := Chunks(l.data[INDIRECT_END..]);
            o < |l.second| && o < |cs| && i < |cs[o]| && cs[o][i] == l.data[k]
            && SlotOf(k) == Doubly(o, i)
  {
  }

  lemma DoublySlotLands(sector: Sector, l: Layout, d: Store, k: nat)
    requires Placed(l) && Distinct(CreateTargets(sector, l))
    requires INDIRECT_END <= k < |l.data|
    ensures SlotSector(l.rec, ApplyWrites(d, CreateTargets(sector, l), CreateBlocks(l)), SlotOf(k)) == l.data[k]
  {
    var o := (k - INDIRECT_END) / SECTORS_PER_BLOCK;
    var i := (k - INDIRECT_END) % SECTORS_PER_BLOCK;
    var cs := Chunks(l.data[INDIRECT_END..]);
    ChunkOf(l, k);
    DoublyReads(sector, l, d, o);
    DoublyFollow(l.rec, ApplyWrites(d, CreateTargets(sector, l), CreateBlocks(l)), l.second, cs[o], o, i);
  }

  /** After the writes of a clean creation, the slot of every data position
      names the data sector placed there. */
  lemma SlotLands(sector: Sector, l: Layout, d: Store, k: nat)
    requires Placed(l) && Distinct(CreateTargets(sector, l)) && k < |l.data|
    ensures SlotSector(l.rec, ApplyWrites(d, CreateTargets(sector, l), CreateBlocks(l)), SlotOf(k)) == l.data[k]
  {
    if k < DIRECT_BLOCK {
    } else if k < INDIRECT_END {
      IndirectSlotLands(sector, l, d, k);
    } else {
      DoublySlotLands(sector, l, d, k);
    }
  }

  /** Creation followed by lookup: with enough distinct free sectors and a
      record sector that is not among them, `inode_create` succeeds, the
      record read back carries the length and magic, and `byte_to_sector`
      finds, for every byte offset inside the file, the data sector that
      was allocated for its position (and -1 past the end). */
  lemma CreateThenLookup(sector: Sector, length: int, d: Store, fm: FreeMap, pos: int)
    requires Roomy(sector, length, fm) && 0 <= pos
    ensures var r := InodeCreate(sector, length, d, fm);
            var rec := DecodeRecord(ReadSector(r.1, sector));
            r.0 && Length(rec) == length && rec.magic == INODE_MAGIC
            && ByteToSector(rec, r.1, pos) == (if pos < length then Some(fm.free[pos / BLOCK_SECTOR_SIZE]) else None)
  {
    CreatedLayout(sector, length, d, fm);
    CreatedShape(sector, length, d, fm);
    var l := CleanLayout(length, fm);
    CreatedDistinct(sector, length, fm, l);
    RecordLands(sector, l, d);
    if pos < length {
      SlotLands(sector, l, d, pos / BLOCK_SECTOR_SIZE);
    }
  }

  /** Element 1 + |b| + j of `[x] + b + c` is element j of c. */
  lemma BackIndex<T>(x: T, b: seq<T>, c: seq<T>, j: nat)
    requires j < |c|
    ensures ([x] + b + c)[1 + |b| + j] == c[j]
  {
  }

  /** The write of data position k zeroes the k-th data sector. */
  lemma DataWrite(sector: Sector, l: Layout, k: nat)
    requires Placed(l) && k < |l.data|
    ensures var ts := CreateTargets(sector, l);
            var bs := CreateBlocks(l);
            var j := 1 + |IndexTargets(l)| + k;
            j < |ts| && ts[j] == l.data[k] && bs[j] == Zeros(BLOCK_SECTOR_SIZE)
  {
    BackIndex(sector, IndexTargets(l), l.data, k);
    var zs := seq(|l.data|, i => Zeros(BLOCK_SECTOR_SIZE));
    BackIndex(EncodeRecord(l.rec), IndexBlocks(l), zs, k);
  }

  /** Creation leaves every allocated data sector zeroed. */
  lemma CreateZeroesData(sector: Sector, length: int, d: Store, fm: FreeMap, k: nat)
    requires Roomy(sector, length, fm) && k < BytesToSectors(length)
    ensures ReadSector(InodeCreate(sector, length, d, fm).1, fm.free[k]) == Zeros(BLOCK_SECTOR_SIZE)
  {
    CreatedLayout(sector, length, d, fm);
    CreatedShape(sector, length, d, fm);
    var l := CleanLayout(length, fm);
    CreatedDistinct(sector, length, fm, l);
    assert l.data[k] == fm.free[k];
    DataLands(sector, l, d, k);
  }

  /** The k-th data sector of a placed layout reads back as zeros. */
  lemma DataLands(sector: Sector, l: Layout, d: Store, k: nat)
    requires Placed(l) && Distinct(CreateTargets(sector, l)) && k < |l.data|
    ensures ReadSector(ApplyWrites(d, CreateTargets(sector, l), CreateBlocks(l)), l.data[k]) == Zeros(BLOCK_SECTOR_SIZE)
  {
    DataWrite(sector, l, k);
    WriteLands(d, CreateTargets(sector, l), CreateBlocks(l), 1 + |IndexTargets(l)| + k);
  }

  // ---------------------------------------------------------------------
  // Release

  /** `sectors_release`, direct and single-indirect tiers: the data sectors
      held in `dblock`, then (when the file has 12 or more sectors) the data
      sectors listed in the indirect index sector, then that index sector. */
  function SectorsRelease(rec: InodeDisk, d: Store, fm: FreeMap): (r: FreeMap)
    requires WellFormed(rec) && 0 <= Length(rec)
    ensures fm.free <= r.free
    ensures |r.free| == |fm.free| + Min(BytesToSectors(Length(rec)), INDIRECT_END)
                        + (if BytesToSectors(Length(rec)) >= DIRECT_BLOCK then 1 else 0)
  {
    var n := BytesToSectors(Length(rec));
    var direct := rec.dblock[..Min(n, DIRECT_BLOCK)];
    if n < DIRECT_BLOCK then ReleaseAll(fm, direct)
    else
      var ib := ReadSector(d, rec.iblock);
      var cnt := Min(n, INDIRECT_END) - DIRECT_BLOCK;
      var entries := seq(cnt, i requires 0 <= i < cnt => WordAt(ib, i));
      Release(ReleaseAll(ReleaseAll(fm, direct), entries), rec.iblock)
  }

  /** The entries `sectors_release` reads back from the indirect index
      sector of a clean creation are the data sectors placed there. */
  lemma IndirectEntriesLand(sector: Sector, l: Layout, d: Store)
    requires Placed(l) && Distinct(CreateTargets(sector, l)) && DIRECT_BLOCK <= |l.data|
    ensures var ib := ReadSector(ApplyWrites(d, CreateTargets(sector, l), CreateBlocks(l)), l.rec.iblock);
            var cnt := Min(|l.data|, INDIRECT_END) - DIRECT_BLOCK;
            seq(cnt, i requires 0 <= i < cnt => WordAt(ib, i)) == l.data[DIRECT_BLOCK .. Min(|l.data|, INDIRECT_END)]
  {
    IndirectReads(sector, l, d);
    Entries(l.data[DIRECT_BLOCK .. Min(|l.data|, INDIRECT_END)]);
  }

  /** The sectors `sectors_release` hands back, in release order. */
  lemma ReleasedOf(rec: InodeDisk, d: Store, fm: FreeMap)
    requires WellFormed(rec) && 0 <= Length(rec)
    ensures var n := BytesToSectors(Length(rec));
            var cnt := Min(n, INDIRECT_END) - DIRECT_BLOCK;
            var ib := ReadSector(d, rec.iblock);
            SectorsRelease(rec, d, fm).free
            == if n < DIRECT_BLOCK then fm.free + rec.dblock[..n]
               else fm.free + rec.dblock + seq(cnt, i requires 0 <= i < cnt => WordAt(ib, i)) + [rec.iblock]
  {
    assert rec.dblock[..DIRECT_BLOCK] == rec.dblock;
  }

  /** The sectors `sectors_release` gives back for a record, in order. */
  function Holdings(rec: InodeDisk, d: Store): seq<Sector>
    requires WellFormed(rec) && 0 <= Length(rec)
  {
    SectorsRelease(rec, d, FreeMap([])).free
  }

  /** Releasing a record appends its holdings to the free list. */
  lemma ReleaseAppendsHoldings(rec: InodeDisk, d: Store, fm: FreeMap)
    requires WellFormed(rec) && 0 <= Length(rec)
    ensures SectorsRelease(rec, d, fm).free == fm.free + Holdings(rec, d)
  {
    var n := BytesToSectors(Length(rec));
    var direct := rec.dblock[..Min(n, DIRECT_BLOCK)];
    if n < DIRECT_BLOCK {
      assert Holdings(rec, d) == [] + direct == direct;
    } else {
      var cnt := Min(n, INDIRECT_END) - DIRECT_BLOCK;
      var entries := seq(cnt, i requires 0 <= i < cnt => WordAt(ReadSector(d, rec.iblock), i));
      assert SectorsRelease(rec, d, fm).free == fm.free + direct + entries + [rec.iblock];
      assert Holdings(rec, d) == [] + direct + entries + [rec.iblock];
      AppendRegroup(fm.free, direct, entries, [rec.iblock]);
    }
  }

  lemma AppendRegroup<T>(f: seq<T>, a: seq<T>, b: seq<T>, c: seq<T>)
    ensures f + a + b + c == f + ([] + a + b + c)
  {
    assert [] + a == a;
  }

  lemma PrefixOfPrefix<T>(a: seq<T>, b: seq<T>, n: nat, m: nat)
    requires m <= n <= |b| && a == b[..n]
    ensures a[..m] == b[..m]
  {
  }

  /** Releasing the record of a placed layout after its writes gives back
      the data sectors of the direct and single-indirect tiers and, from 12
      sectors on, the indirect index sector. */
  lemma ReleaseLayout(sector: Sector, l: Layout, d: Store, fm: FreeMap)
    requires Placed(l) && Distinct(CreateTargets(sector, l))
    requires 0 <= Length(l.rec) < DIDIRECT_LIMIT && BytesToSectors(Length(l.rec)) == |l.data|
    ensures var n := |l.data|;
            SectorsRelease(l.rec, ApplyWrites(d, CreateTargets(sector, l), CreateBlocks(l)), fm).free
            == fm.free + l.data[..Min(n, INDIRECT_END)] + (if n >= DIRECT_BLOCK then [l.rec.iblock] else [])
  {
    var n := |l.data|;
    var d' := ApplyWrites(d, CreateTargets(sector, l), CreateBlocks(l));
    ReleasedOf(l.rec, d', fm);
    if n < DIRECT_BLOCK {
      assert l.rec.dblock[..n] == l.data[..n];
    } else {
      ReleaseLarge(sector, l, d, fm);
    }
  }

  lemma ReleaseLarge(sector: Sector, l: Layout, d: Store, fm: FreeMap)
    requires Placed(l) && Distinct(CreateTargets(sector, l)) && DIRECT_BLOCK <= |l.data|
    ensures var n := |l.data|;
            var cnt := Min(n, INDIRECT_END) - DIRECT_BLOCK;
            var ib := ReadSector(ApplyWrites(d, CreateTargets(sector, l), CreateBlocks(l)), l.rec.iblock);
            fm.free + l.rec.dblock + seq(cnt, i requires 0 <= i < cnt => WordAt(ib, i)) + [l.rec.iblock]
            == fm.free + l.data[..Min(n, INDIRECT_END)] + [l.rec.iblock]
  {
    var n := |l.data|;
    assert l.rec.dblock == l.data[..DIRECT_BLOCK];
    IndirectEntriesLand(sector, l, d);
    assert l.data[..DIRECT_BLOCK] + l.data[DIRECT_BLOCK .. Min(n, INDIRECT_END)] == l.data[..Min(n, INDIRECT_END)];
  }

  /** Release mirrors creation: releasing a freshly created inode gives back
      its first min(n, 140) data sectors in order and, from 12 sectors on,
      the indirect index sector. */
  lemma CreateThenRelease(sector: Sector, length: int, d: Store, fm: FreeMap)
    requires Roomy(sector, length, fm)
    ensures var r := InodeCreate(sector, length, d, fm);
            var n := BytesToSectors(length);
            var rec := DecodeRecord(ReadSector(r.1, sector));
            Length(rec) == length
            && SectorsRelease(rec, r.1, r.2).free
               == r.2.free + fm.free[..Min(n, INDIRECT_END)]
                  + (if n >= DIRECT_BLOCK then [fm.free[n]] else [])
  {
    var n := BytesToSectors(length);
    CreatedLayout(sector, length, d, fm);
    CreatedShape(sector, length, d, fm);
    var l := CleanLayout(length, fm);
    CreatedDistinct(sector, length, fm, l);
    RecordLands(sector, l, d);
    ReleaseLayout(sector, l, d, InodeCreate(sector, length, d, fm).2);
    PrefixOfPrefix(l.data, fm.free, n, Min(n, INDIRECT_END));
    if n >= DIRECT_BLOCK {
      assert IndexTargets(l)[0] == l.rec.iblock;
    }
  }

  /** A clean creation writes a plain-file record (flags 0) of the given
      length to its sector. */
  lemma CreatedPlainFile(sector: Sector, length: int, d: Store, fm: FreeMap)
    requires Roomy(sector, length, fm)
    ensures var rec := DecodeRecord(ReadSector(InodeCreate(sector, length, d, fm).1, sector));
            rec.flags == 0 && Length(rec) == length
  {
    var l := CleanLayout(length, fm);
    CreatedLayout(sector, length, d, fm);
    CreatedShape(sector, length, d, fm);
    CreatedDistinct(sector, length, fm, l);
    RecordLands(sector, l, d);
  }

  /** A clean creation writes nothing outside its own sector and the free
      sectors. */
  lemma CreateWritesOwnSectors(sector: Sector, length: int, d: Store, fm: FreeMap, t: Sector)
    requires Roomy(sector, length, fm)
    requires t != sector && t !in fm.free
    ensures ReadSector(InodeCreate(sector, length, d, fm).1, t) == ReadSector(d, t)
  {
    var n := BytesToSectors(length);
    var e := IndexBlocksNeeded(n);
    var l := CleanLayout(length, fm);
    CreatedLayout(sector, length, d, fm);
    CreatedShape(sector, length, d, fm);
    NotInSlice(fm.free, t, n, n + e);
    NotInSlice(fm.free, t, 0, n);
    LayoutWritesOwn(sector, l, d, t);
  }

  lemma LayoutWritesOwn(sector: Sector, l: Layout, d: Store, t: Sector)
    requires Placed(l) && t != sector && t !in IndexTargets(l) && t !in l.data
    ensures ReadSector(ApplyWrites(d, CreateTargets(sector, l), CreateBlocks(l)), t) == ReadSector(d, t)
  {
    assert t !in CreateTargets(sector, l);
  }

  lemma NotInSlice(s: seq<Sector>, t: Sector, a: nat, b: nat)
    requires a <= b <= |s| && t !in s
    ensures t !in s[a..b]
  {
  }

  /** Without the early exit a zero-length inode is created even with no
      free sector at all: its record reads back with length 0 and every
      lookup reports -1. */
  lemma EmptyCreateSucceeds(sector: Sector, d: Store, pos: int)
    requires 0 <= pos
    ensures var r := InodeCreate(sector, 0, d, FreeMap([]));
            var rec := DecodeRecord(ReadSector(r.1, sector));
            r.0 && Length(rec) == 0 && rec.magic == INODE_MAGIC && ByteToSector(rec, r.1, pos).None?
  {
    CreateThenLookup(sector, 0, d, FreeMap([]), pos);
  }

  /** A zero-length creation (without the early exit) needs no free sector,
      takes none, and writes a record whose flags are 0: `inode_create`
      never marks an inode as a directory. */
  lemma EmptyCreateRecord(sector: Sector, d: Store, fm: FreeMap)
    ensures var r := InodeCreate(sector, 0, d, fm);
            r.0 && r.2 == fm && DecodeRecord(ReadSector(r.1, sector)).flags == 0
  {
    var m := MapSectorToInode([], 0, fm);
    assert SectorsAllocate(0, fm) == ([], true, fm);
    assert CreateTargets(sector, m.0) == [sector];
    RecordLands(sector, m.0, d);
  }
}

=== FILE: inode_io.dfy ===
/** The chunked transfer loops of src/filesys/inode.c (`inode_read_at`,
    `inode_write_at`): each round moves the bytes up to the nearer of the end
    of the current sector and the end of the file; files never grow. */
module InodeIO {
  import opened Base
  import opened Disk
  import opened BlockMap
  import opened Inode
  import opened InodeTable

  /** A record the lookups can follow: well formed, with a length inside the
      range `inode_create` accepts. */
  predicate Sane(rec: InodeDisk)
  {
    WellFormed(rec) && 0 <= Length(rec) < DIDIRECT_LIMIT
  }

  /** Data sector holding byte `pos` of the file. */
  function SectorOf(rec: InodeDisk, d: Store, pos: int): Sector
    requires Sane(rec) && 0 <= pos < Length(rec)
  {
    ByteToSector(rec, d, pos).value
  }

  /** The data sector of every byte of the file. */
  function SectorMap(rec: InodeDisk, d: Store): (sm: seq<Sector>)
    requires Sane(rec)
    ensures |sm| == Length(rec)
  {
    seq(Length(rec), i requires 0 <= i < Length(rec) => SectorOf(rec, d, i))
  }

  /** The bytes a store holds at the positions a sector map names. */
  function Content(d: Store, sm: seq<Sector>): (bs: seq<Byte>)
    ensures |bs| == |sm|
  {
    seq(|sm|, i requires 0 <= i < |sm| => ReadSector(d, sm[i])[i % BLOCK_SECTOR_SIZE])
  }

  /** The whole content of the file. */
  function FileBytes(rec: InodeDisk, d: Store): (bs: seq<Byte>)
    requires Sane(rec)
    ensures |bs| == Length(rec)
  {
    Content(d, SectorMap(rec, d))
  }

  /** Bytes of one sector position share a sector. */
  predicate Aligned(sm: seq<Sector>)
  {
    forall p, q :: 0 <= p < |sm| && 0 <= q < |sm| && p / BLOCK_SECTOR_SIZE == q / BLOCK_SECTOR_SIZE
      ==> sm[p] == sm[q]
  }

  /** Bytes of different sector positions lie in different sectors. */
  predicate Spread(sm: seq<Sector>)
  {
    forall p, q :: 0 <= p < |sm| && 0 <= q < |sm| && p / BLOCK_SECTOR_SIZE != q / BLOCK_SECTOR_SIZE
      ==> sm[p] != sm[q]
  }

  /** A file's sector map is aligned. */
  lemma MapAligned(rec: InodeDisk, d: Store)
    requires Sane(rec)
    ensures Aligned(SectorMap(rec, d))
  {
  }

  /** Bytes a transfer of `size` bytes at `offset` moves in a file of
      `length` bytes: none past the end, never more than asked. */
  function Transfer(size: int, length: int, offset: int): nat
  {
    if size <= 0 || length <= offset then 0 else Min(size, length - offset)
  }

  /** The size of one round of the transfer loops: the least of what is
      left to move, what is left in the file and what is left in the
      sector. */
  function ChunkSize(sz: int, length: int, off: int): int
    requires 0 <= off
  {
    var sectorOfs := off % BLOCK_SECTOR_SIZE;
    var inodeLeft := length - off;
    var sectorLeft := BLOCK_SECTOR_SIZE - sectorOfs;
    var minLeft := if inodeLeft < sectorLeft then inodeLeft else sectorLeft;
    if sz < minLeft then sz else minLeft
  }

  /** A round moves bytes of one sector only, never past the end of the
      file, and never more than `Transfer` allows in total; a round of size
      0 or less happens only once `Transfer` is reached. */
  lemma ChunkStep(size: int, length: int, offset: int, done: nat)
    requires 0 <= offset && done <= Transfer(size, length, offset)
    requires done > 0 ==> offset + done <= length
    ensures var off := offset + done;
            var chunk := ChunkSize(size - done, length, off);
            (size - done > 0 && chunk > 0 ==>
               off + chunk <= length
               && off % BLOCK_SECTOR_SIZE + chunk <= BLOCK_SECTOR_SIZE
               && done + chunk <= Transfer(size, length, offset))
            && (size - done <= 0 || chunk <= 0 ==> done == Transfer(size, length, offset))
  {
  }


  /** Positions of one round share the round's sector position, at
      consecutive offsets inside the sector. */
  lemma InRound(off: int, chunk: int, p: int)
    requires 0 <= off && off % BLOCK_SECTOR_SIZE + chunk <= BLOCK_SECTOR_SIZE
    requires off <= p < off + chunk
    ensures p / BLOCK_SECTOR_SIZE == off / BLOCK_SECTOR_SIZE
    ensures p % BLOCK_SECTOR_SIZE == off % BLOCK_SECTOR_SIZE + (p - off)
  {
    var b := off / BLOCK_SECTOR_SIZE;
    assert off == BLOCK_SECTOR_SIZE * b + off % BLOCK_SECTOR_SIZE;
    assert p == BLOCK_SECTOR_SIZE * b + (off % BLOCK_SECTOR_SIZE + (p - off));
  }

  /** A position of the round's sector position outside the round lies
      outside the round's offsets inside the sector. */
  lemma OutOfRound(off: int, chunk: int, p: int)
    requires 0 <= off && 0 <= p && off % BLOCK_SECTOR_SIZE + chunk <= BLOCK_SECTOR_SIZE
    requires p / BLOCK_SECTOR_SIZE == off / BLOCK_SECTOR_SIZE && !(off <= p < off + chunk)
    ensures !(off % BLOCK_SECTOR_SIZE <= p % BLOCK_SECTOR_SIZE < off % BLOCK_SECTOR_SIZE + chunk)
  {
    var b := off / BLOCK_SECTOR_SIZE;
    assert off == BLOCK_SECTOR_SIZE * b + off % BLOCK_SECTOR_SIZE;
    assert p == BLOCK_SECTOR_SIZE * b + p % BLOCK_SECTOR_SIZE;
  }

  /** The bytes of one round come from one sector and are the bytes at
      their positions. */
  lemma ReadChunk(d: Store, sm: seq<Sector>, off: int, chunk: int)
    requires Aligned(sm) && 0 <= off && 0 < chunk && off + chunk <= |sm|
    requires off % BLOCK_SECTOR_SIZE + chunk <= BLOCK_SECTOR_SIZE
    ensures CachedRead(d, sm[off], off % BLOCK_SECTOR_SIZE, chunk) == Content(d, sm)[off .. off + chunk]
  {
    var got := CachedRead(d, sm[off], off % BLOCK_SECTOR_SIZE, chunk);
    var bytes := Content(d, sm);
    forall i | 0 <= i < chunk
      ensures got[i] == bytes[off + i]
    {
      InRound(off, chunk, off + i);
    }
  }

  /** `file` is the content of the file in store d. The link is kept
      behind a quantifier so that it is only unfolded where `FileBytes`
      itself is mentioned. */
  ghost predicate Reads(rec: InodeDisk, d: Store, file: seq<Byte>)
    requires Sane(rec)
  {
    forall d' {:trigger FileBytes(rec, d')} :: d' == d ==> FileBytes(rec, d') == file
  }

  /** One round of `inode_read_at`: the round's size, and when it is
      positive, the file's bytes of that round. */
  method ReadRound(rec: InodeDisk, d: Store, off: int, sz: int, ghost file: seq<Byte>)
    returns (got: seq<Byte>, chunk: int)
    requires Sane(rec) && 0 <= off && Reads(rec, d, file)
    ensures chunk == ChunkSize(sz, Length(rec), off)
    ensures chunk > 0 ==> off + chunk <= |file| && got == file[off .. off + chunk]
  {
    var sectorOfs := off % BLOCK_SECTOR_SIZE;
    var inodeLeft := Length(rec) - off;
    var sectorLeft := BLOCK_SECTOR_SIZE - sectorOfs;
    var minLeft := if inodeLeft < sectorLeft then inodeLeft else sectorLeft;
    chunk := if sz < minLeft then sz else minLeft;
    if chunk <= 0 {
      return [], chunk;
    }
    var sectorIdx := ByteToSector(rec, d, off).value;
    got := CachedRead(d, sectorIdx, sectorOfs, chunk);
    MapAligned(rec, d);
    ReadChunk(d, SectorMap(rec, d), off, chunk);
    assert FileBytes(rec, d) == file;
  }

  /** The loop of `inode_read_at`. */
  method ReadLoop(rec: InodeDisk, d: Store, size: int, offset: int, ghost file: seq<Byte>)
    returns (buf: seq<Byte>, bytesRead: int)
    requires Sane(rec) && 0 <= offset && Reads(rec, d, file) && |file| == Length(rec)
    ensures bytesRead == Transfer(size, Length(rec), offset)
    ensures var start := Min(offset, Length(rec));
            start + bytesRead <= |file| && buf == file[start .. start + bytesRead]
  {
    ghost var start := Min(offset, Length(rec));
    buf := [];
    bytesRead := 0;
    var sz := size;
    var off := offset;
    while sz > 0
      invariant off == offset + bytesRead && sz == size - bytesRead
      invariant 0 <= bytesRead <= Transfer(size, Length(rec), offset)
      invariant bytesRead > 0 ==> off <= Length(rec) && start == offset
      invariant buf == file[start .. start + bytesRead]
      decreases sz
    {
      ChunkStep(size, Length(rec), offset, bytesRead);
      var got, chunk := ReadRound(rec, d, off, sz, file);
      if chunk <= 0 {
        break;
      }
      assert file[offset .. off] + file[off .. off + chunk] == file[offset .. off + chunk];
      buf := buf + got;
      sz := sz - chunk;
      off := off + chunk;
      bytesRead := bytesRead + chunk;
    }
    ChunkStep(size, Length(rec), offset, bytesRead);
  }

  /** `inode_read_at`: returns as many bytes as `Transfer` says, and they
      are the file's bytes from `offset` on. */
  method ReadAt(e: OpenInode, d: Store, size: int, offset: int) returns (buf: seq<Byte>, bytesRead: int)
    requires Sane(e.data) && 0 <= offset
    ensures bytesRead == Transfer(size, Length(e.data), offset)
    ensures var start := Min(offset, Length(e.data));
            buf == FileBytes(e.data, d)[start .. start + bytesRead]
  {
    ghost var file := FileBytes(e.data, d);
    buf, bytesRead := ReadLoop(e.data, d, size, offset, file);
  }

  // ---------------------------------------------------------------------
  // Writing

  /** Sector t is none of the index sectors the lookups of `rec` read. */
  predicate NotIndex(rec: InodeDisk, d: Store, t: Sector)
    requires Sane(rec)
  {
    var n := BytesToSectors(Length(rec));
    (n >= DIRECT_BLOCK ==> t != rec.iblock)
    && (n >= INDIRECT_END ==>
          t != rec.diblock
          && forall o :: 0 <= o < NumChunks(n) ==> t != WordAt(ReadSector(d, rec.diblock), o))
  }

  /** No data sector doubles as an index sector. */
  predicate Separated(rec: InodeDisk, d: Store)
    requires Sane(rec)
  {
    forall pos :: 0 <= pos < Length(rec) ==> NotIndex(rec, d, SectorOf(rec, d, pos))
  }

  /** Different sector positions of the file use different data sectors. */
  predicate Injective(rec: InodeDisk, d: Store)
    requires Sane(rec)
  {
    Spread(SectorMap(rec, d))
  }

  /** An index sector the lookups read is not a data sector of the file. */
  predicate IndexSector(rec: InodeDisk, d: Store, t: Sector)
    requires Sane(rec)
  {
    var n := BytesToSectors(Length(rec));
    (n >= DIRECT_BLOCK && t == rec.iblock)
    || (n >= INDIRECT_END && t == rec.diblock)
    || (n >= INDIRECT_END && exists o :: 0 <= o < NumChunks(n) && t == WordAt(ReadSector(d, rec.diblock), o))
  }

  lemma IndexNotData(rec: InodeDisk, d: Store, t: Sector)
    requires Sane(rec) && Separated(rec, d) && IndexSector(rec, d, t)
    ensures t !in SectorMap(rec, d)
  {
    var sm := SectorMap(rec, d);
    forall p | 0 <= p < |sm|
      ensures sm[p] != t
    {
      assert NotIndex(rec, d, SectorOf(rec, d, p));
    }
  }

  /** The lookup of one byte reads only index sectors, so a store that
      agrees with d on them finds the same sector. */
  lemma KeepsSector(rec: InodeDisk, d: Store, d': Store, pos: int)
    requires Sane(rec) && Separated(rec, d) && 0 <= pos < Length(rec)
    requires Agrees(d', d, SectorMap(rec, d))
    ensures SectorOf(rec, d', pos) == SectorOf(rec, d, pos)
  {
    var n := BytesToSectors(Length(rec));
    var k := pos / BLOCK_SECTOR_SIZE;
    assert k < n;
    var s := SlotOf(k);
    if s.Indirect? {
      IndexNotData(rec, d, rec.iblock);
    } else if s.Doubly? {
      assert s.outer < NumChunks(n);
      IndexNotData(rec, d, rec.diblock);
      IndexNotData(rec, d, WordAt(ReadSector(d, rec.diblock), s.outer));
    }
  }

  /** A store that still holds every index sector of `d` (every sector
      outside the file's data sectors) has the same sector map. */
  lemma KeepsMap(rec: InodeDisk, d: Store, d': Store)
    requires Sane(rec) && Separated(rec, d)
    requires Agrees(d', d, SectorMap(rec, d))
    ensures SectorMap(rec, d') == SectorMap(rec, d)
  {
    forall pos | 0 <= pos < Length(rec)
      ensures SectorOf(rec, d', pos) == SectorOf(rec, d, pos)
    {
      KeepsSector(rec, d, d', pos);
    }
  }

  /** Writing one round's bytes into the sector of their position replaces
      exactly those bytes. */
  lemma WriteChunk(d: Store, sm: seq<Sector>, off: int, piece: seq<Byte>)
    requires Aligned(sm) && Spread(sm)
    requires 0 <= off && 0 < |piece| && off + |piece| <= |sm|
    requires off % BLOCK_SECTOR_SIZE + |piece| <= BLOCK_SECTOR_SIZE
    ensures Content(CachedWrite(d, sm[off], off % BLOCK_SECTOR_SIZE, piece), sm)
            == Content(d, sm)[..off] + piece + Content(d, sm)[off + |piece|..]
  {
    var t := sm[off];
    var ofs := off % BLOCK_SECTOR_SIZE;
    var d' := CachedWrite(d, t, ofs, piece);
    var chunk := |piece|;
    var before := Content(d, sm);
    var after := Content(d', sm);
    var spliced := before[..off] + piece + before[off + chunk..];
    forall p | 0 <= p < |sm|
      ensures after[p] == spliced[p]
    {
      if off <= p < off + chunk {
        InRound(off, chunk, p);
      } else if sm[p] == t {
        OutOfRound(off, chunk, p);
      }
    }
  }

  /** Writing the next piece into bytes that already hold the first
      `written` bytes of `data` at `offset` extends the written run. */
  lemma Splice(file: seq<Byte>, data: seq<Byte>, offset: nat, written: nat, chunk: nat)
    requires offset + written + chunk <= |file| && written + chunk <= |data|
    ensures var cur := Spliced(file, data, offset, written);
            var at := offset + written;
            cur[..at] + data[written .. written + chunk] + cur[at + chunk..]
            == Spliced(file, data, offset, written + chunk)
  {
    var cur := Spliced(file, data, offset, written);
    var at := offset + written;
    var lhs := cur[..at] + data[written .. written + chunk] + cur[at + chunk..];
    var rhs := Spliced(file, data, offset, written + chunk);
    forall p | 0 <= p < |file|
      ensures lhs[p] == rhs[p]
    {
      if p < offset {
      } else if p < at {
      } else if p < at + chunk {
      } else {
      }
    }
  }

  /** Store d' holds the same bytes as d in every sector outside sm. */
  predicate Agrees(d': Store, d: Store, sm: seq<Sector>)
  {
    forall t :: t !in sm ==> ReadSector(d', t) == ReadSector(d, t)
  }

  /** The layout facts the content clause of `WriteAt` rests on. */
  predicate Clean(rec: InodeDisk, d: Store)
    requires Sane(rec)
  {
    Separated(rec, d) && Injective(rec, d)
  }

  /** `file` with `data[..n]` in place of its bytes from `at` on. */
  function Spliced(file: seq<Byte>, data: seq<Byte>, at: nat, n: nat): (r: seq<Byte>)
    requires at + n <= |file| && n <= |data|
    ensures |r| == |file|
  {
    file[..at] + data[..n] + file[at + n..]
  }

  /** Every store that differs from d in data sectors only has the sector
      map sm. */
  ghost predicate Links(rec: InodeDisk, d: Store, sm: seq<Sector>)
    requires Sane(rec)
  {
    forall d' {:trigger SectorMap(rec, d')} :: Agrees(d', d, sm) ==> SectorMap(rec, d') == sm
  }

  /** With no data sector doubling as an index sector, writes to data
      sectors leave the sector map alone. */
  lemma LinksHold(rec: InodeDisk, d: Store)
    requires Sane(rec) && Separated(rec, d)
    ensures Links(rec, d, SectorMap(rec, d))
  {
    forall d' | Agrees(d', d, SectorMap(rec, d))
      ensures SectorMap(rec, d') == SectorMap(rec, d)
    {
      KeepsMap(rec, d, d');
    }
  }

  /** What the write loop knows about the original store d when the
      layout is clean: its sector map sm and its bytes `file`. */
  ghost predicate Frame(rec: InodeDisk, d: Store, sm: seq<Sector>, file: seq<Byte>)
    requires Sane(rec)
  {
    Links(rec, d, sm) && Aligned(sm) && Spread(sm) && |sm| == Length(rec) && |file| == |sm|
  }

  /** While the store differs from d in data sectors only, the lookup of a
      file byte finds the sector the map names. */
  lemma RoundSector(rec: InodeDisk, cur: Store, d: Store, sm: seq<Sector>, file: seq<Byte>, off: int)
    requires Sane(rec) && 0 <= off < Length(rec)
    requires Frame(rec, d, sm, file) && Agrees(cur, d, sm)
    ensures ByteToSector(rec, cur, off) == Some(sm[off])
  {
    assert SectorMap(rec, cur) == sm;
    assert SectorOf(rec, cur, off) == sm[off];
  }

  /** A write into a data sector keeps the store differing from d in data
      sectors only. */
  lemma RoundAgrees(cur: Store, d: Store, sm: seq<Sector>, off: int, ofs: nat, piece: seq<Byte>)
    requires 0 <= off < |sm| && ofs + |piece| <= BLOCK_SECTOR_SIZE
    requires Agrees(cur, d, sm)
    ensures Agrees(CachedWrite(cur, sm[off], ofs, piece), d, sm)
  {
  }

  /** A round's write extends the written run by the round's bytes. */
  lemma RoundContent(cur: Store, sm: seq<Sector>, file: seq<Byte>, data: seq<Byte>,
                     offset: nat, written: nat, chunk: int)
    requires Aligned(sm) && Spread(sm) && |file| == |sm|
    requires 0 < chunk && written + chunk <= |data| && offset + written + chunk <= |sm|
    requires (offset + written) % BLOCK_SECTOR_SIZE + chunk <= BLOCK_SECTOR_SIZE
    requires Content(cur, sm) == Spliced(file, data, offset, written)
    ensures var off := offset + written;
            Content(CachedWrite(cur, sm[off], off % BLOCK_SECTOR_SIZE, data[written .. written + chunk]), sm)
            == Spliced(file, data, offset, written + chunk)
  {
    var piece := data[written .. written + chunk];
    assert |piece| == chunk;
    WriteChunk(cur, sm, offset + written, piece);
    Splice(file, data, offset, written, chunk);
  }

  /** One round of `inode_write_at`, writing `data[written..]` at
      `offset + written` into `cur`: the round's size, and when it is
      positive and the store differs from d in data sectors only, the
      written run extended by that round. */
  method WriteRound(rec: InodeDisk, cur: Store, data: seq<Byte>, offset: int, written: nat,
                    ghost d: Store, ghost sm: seq<Sector>, ghost file: seq<Byte>, ghost clean: bool)
    returns (next: Store, chunk: int)
    requires Sane(rec) && 0 <= offset && written < |data|
    requires clean ==> Frame(rec, d, sm, file) && Agrees(cur, d, sm)
    ensures chunk == ChunkSize(|data| - written, Length(rec), offset + written)
    ensures chunk <= 0 ==> next == cur
    ensures chunk > 0 && clean ==> Agrees(next, d, sm)
    ensures chunk > 0 && clean && offset + written <= |file|
            && Content(cur, sm) == Spliced(file, data, offset, written)
            ==> Content(next, sm) == Spliced(file, data, offset, written + chunk)
  {
    var off := offset + written;
    var sz := |data| - written;
    var sectorOfs := off % BLOCK_SECTOR_SIZE;
    var inodeLeft := Length(rec) - off;
    var sectorLeft := BLOCK_SECTOR_SIZE - sectorOfs;
    var minLeft := if inodeLeft < sectorLeft then inodeLeft else sectorLeft;
    chunk := if sz < minLeft then sz else minLeft;
    if chunk <= 0 {
      return cur, chunk;
    }
    var sectorIdx := ByteToSector(rec, cur, off).value;
    var piece := data[written .. written + chunk];
    next := CachedWrite(cur, sectorIdx, sectorOfs, piece);
    if clean {
      RoundSector(rec, cur, d, sm, file, off);
      RoundAgrees(cur, d, sm, off, sectorOfs, piece);
      if offset + written <= |file| && Content(cur, sm) == Spliced(file, data, offset, written) {
        RoundContent(cur, sm, file, data, offset, written, chunk);
      }
    }
  }

  /** The loop of `inode_write_at`. */
  method WriteLoop(rec: InodeDisk, d: Store, data: seq<Byte>, offset: int,
                   ghost sm: seq<Sector>, ghost file: seq<Byte>, ghost clean: bool)
    returns (d': Store, written: int)
    requires Sane(rec) && 0 <= offset
    requires clean ==> Frame(rec, d, sm, file) && Content(d, sm) == file
    ensures written == Transfer(|data|, Length(rec), offset)
    ensures clean ==> var start := Min(offset, Length(rec));
                      Agrees(d', d, sm) && start + written <= |file|
                      && Content(d', sm) == Spliced(file, data, start, written)
  {
    d' := d;
    written := 0;
    var sz := |data|;
    var off := offset;
    ghost var start := Min(offset, Length(rec));
    assert clean ==> Spliced(file, data, start, 0) == file;
    while sz > 0
      invariant off == offset + written && sz == |data| - written
      invariant 0 <= written <= Transfer(|data|, Length(rec), offset)
      invariant written > 0 ==> off <= Length(rec) && start == offset
      invariant clean ==> Agrees(d', d, sm)
      invariant clean ==> Content(d', sm) == Spliced(file, data, start, written)
      decreases sz
    {
      ChunkStep(|data|, Length(rec), offset, written);
      var next, chunk := WriteRound(rec, d', data, offset, written, d, sm, file, clean);
      if chunk <= 0 {
        break;
      }
      d' := next;
      sz := sz - chunk;
      off := off + chunk;
      written := written + chunk;
    }
    ChunkStep(|data|, Length(rec), offset, written);
  }

  /** `inode_write_at`: nothing is written while writes are denied;
      otherwise as many bytes as `Transfer` says, the length never changes,
      and when the data sectors are separate from the index sectors and from
      one another the file afterwards holds the written bytes at `offset`
      and its old bytes everywhere else. */
  method WriteAt(e: OpenInode, d: Store, data: seq<Byte>, offset: int) returns (d': Store, written: int)
    requires Sane(e.data) && 0 <= offset
    ensures e.denyWriteCnt > 0 ==> written == 0 && d' == d
    ensures e.denyWriteCnt == 0 ==> written == Transfer(|data|, Length(e.data), offset)
    ensures e.denyWriteCnt == 0 && Clean(e.data, d) ==>
              var start := Min(offset, Length(e.data));
              start + written <= Length(e.data)
              && FileBytes(e.data, d') == Spliced(FileBytes(e.data, d), data, start, written)
  {
    if e.denyWriteCnt > 0 {
      return d, 0;
    }
    var rec := e.data;
    ghost var clean := Clean(rec, d);
    ghost var sm := SectorMap(rec, d);
    ghost var file := FileBytes(rec, d);
    if clean {
      LinksHold(rec, d);
      MapAligned(rec, d);
    }
    d', written := WriteLoop(rec, d, data, offset, sm, file, clean);
    if clean {
      assert SectorMap(rec, d') == sm;
    }
  }
}

=== FILE: inode_table.dfy ===
/** The open-inode registry of src/filesys/inode.c (`open_inodes`): at most
    one in-memory inode per sector, with its opener count, write-denial
    count and removal mark, and deferred release of a removed inode's
    sectors when its last opener closes it. An open inode is named by its
    sector, which the registry keeps unique. */
module InodeTable {
  import opened Base
  import opened Disk
  import opened BlockMap
  import opened Inode

  /** `struct inode` without its list link and lock. */
  datatype OpenInode = OpenInode(
    sector: Sector,
    openCnt: nat,
    removed: bool,
    denyWriteCnt: nat,
    data: InodeDisk)

  /** The list in order, newest first. */
  type Registry = seq<OpenInode>

  predicate UniqueSectors(reg: Registry)
  {
    forall i, j :: 0 <= i < j < |reg| ==> reg[i].sector != reg[j].sector
  }

  predicate IsOpen(reg: Registry, sector: Sector)
  {
    exists i :: 0 <= i < |reg| && reg[i].sector == sector
  }

  /** Position of the first entry for `sector` at or after position i. */
  function FindFrom(reg: Registry, sector: Sector, i: nat): (r: Option<nat>)
    requires i <= |reg|
    ensures r.Some? ==> i <= r.value < |reg| && reg[r.value].sector == sector
    ensures r.Some? ==> forall j :: i <= j < r.value ==> reg[j].sector != sector
    ensures r.None? <==> forall j :: i <= j < |reg| ==> reg[j].sector != sector
    decreases |reg| - i
  {
    if i == |reg| then None
    else if reg[i].sector == sector then Some(i)
    else FindFrom(reg, sector, i + 1)
  }

  /** Position of the first entry for `sector` in list order. */
  function Find(reg: Registry, sector: Sector): (r: Option<nat>)
    ensures r.Some? ==> r.value < |reg| && reg[r.value].sector == sector
    ensures r.Some? ==> forall j :: 0 <= j < r.value ==> reg[j].sector != sector
    ensures r.None? <==> !IsOpen(reg, sector)
  {
    FindFrom(reg, sector, 0)
  }

  lemma FindUnique(reg: Registry, sector: Sector, i: nat)
    requires UniqueSectors(reg) && i < |reg| && reg[i].sector == sector
    ensures Find(reg, sector) == Some(i)
  {
  }

  /** Entries whose sectors agree position by position are found at the
      same place. */
  lemma {:induction false} FindFromSameSectors(reg: Registry, r: Registry, sector: Sector, i: nat)
    requires i <= |reg| == |r| && forall j :: 0 <= j < |reg| ==> r[j].sector == reg[j].sector
    ensures FindFrom(r, sector, i) == FindFrom(reg, sector, i)
    decreases |reg| - i
  {
    if i < |reg| && reg[i].sector != sector {
      FindFromSameSectors(reg, r, sector, i + 1);
    }
  }

  lemma FindSameSectors(reg: Registry, r: Registry, sector: Sector)
    requires |r| == |reg| && forall j :: 0 <= j < |reg| ==> r[j].sector == reg[j].sector
    ensures Find(r, sector) == Find(reg, sector)
  {
    FindFromSameSectors(reg, r, sector, 0);
  }

  /** `inode_open`: an inode already in the list is reopened; otherwise a
      fresh one (one opener, writes allowed, not removed) holding the record
      read from `sector` is pushed to the front. */
  function InodeOpen(reg: Registry, d: Store, sector: Sector): (r: Registry)
    ensures UniqueSectors(reg) ==> UniqueSectors(r)
    ensures IsOpen(r, sector)
    ensures IsOpen(reg, sector) ==> |r| == |reg|
    ensures !IsOpen(reg, sector) ==>
              r == [OpenInode(sector, 1, false, 0, DecodeRecord(ReadSector(d, sector)))] + reg
  {
    match Find(reg, sector)
    case Some(i) =>
      var r := reg[i := reg[i].(openCnt := reg[i].openCnt + 1)];
      assert r[i].sector == sector;
      r
    case None =>
      var r := [OpenInode(sector, 1, false, 0, DecodeRecord(ReadSector(d, sector)))] + reg;
      assert r[0].sector == sector;
      r
  }

  /** The entry `inode_open` hands back: the registered one with one more
      opener, or a fresh one read from disk. */
  function Opened(reg: Registry, d: Store, sector: Sector): OpenInode
  {
    match Find(reg, sector)
    case Some(i) => reg[i].(openCnt := reg[i].openCnt + 1)
    case None => OpenInode(sector, 1, false, 0, DecodeRecord(ReadSector(d, sector)))
  }

  /** In a registry with one entry per sector, the opened inode is found
      where `Opened` says, and the registry stays one-per-sector. */
  lemma OpenedEntry(reg: Registry, d: Store, sector: Sector)
    requires UniqueSectors(reg)
    ensures var r := InodeOpen(reg, d, sector);
            UniqueSectors(r) && IsOpen(r, sector) && r[Find(r, sector).value] == Opened(reg, d, sector)
  {
    var r := InodeOpen(reg, d, sector);
    match Find(reg, sector)
    case Some(i) =>
      FindUnique(r, sector, i);
    case None =>
      assert r[0].sector == sector;
      FindUnique(r, sector, 0);
  }

  /** Opening a sector that is already open adds one opener to its entry
      and changes nothing else. */
  lemma OpenExisting(reg: Registry, d: Store, sector: Sector, i: nat)
    requires UniqueSectors(reg) && i < |reg| && reg[i].sector == sector
    ensures InodeOpen(reg, d, sector) == reg[i := reg[i].(openCnt := reg[i].openCnt + 1)]
  {
    FindUnique(reg, sector, i);
  }

  /** Two entries for the same inode that differ at most in their opener
      count. */
  predicate SameButCount(a: OpenInode, b: OpenInode)
  {
    a.sector == b.sector && a.removed == b.removed && a.denyWriteCnt == b.denyWriteCnt && a.data == b.data
  }

  /** Two entries for the same inode that differ at most in their denial
      count. */
  predicate SameButDenials(a: OpenInode, b: OpenInode)
  {
    a.sector == b.sector && a.removed == b.removed && a.openCnt == b.openCnt && a.data == b.data
  }

  /** `inode_reopen`: one more opener; a NULL inode is passed through. */
  function InodeReopen(reg: Registry, h: Option<Sector>): (r: Registry)
    requires h.Some? ==> IsOpen(reg, h.value)
    ensures |r| == |reg|
    ensures forall i :: 0 <= i < |reg| ==> r[i].sector == reg[i].sector
    ensures h.None? ==> r == reg
    ensures h.Some? ==> var i := Find(reg, h.value).value;
                        r[i].openCnt == reg[i].openCnt + 1 && SameButCount(r[i], reg[i])
                        && forall j :: 0 <= j < |reg| && j != i ==> r[j] == reg[j]
  {
    if h.None? then reg
    else
      var i := Find(reg, h.value).value;
      reg[i := reg[i].(openCnt := reg[i].openCnt + 1)]
  }

  /** Registry without position i. */
  function Without(reg: Registry, i: nat): (r: Registry)
    requires i < |reg|
    ensures |r| == |reg| - 1
    ensures forall j :: 0 <= j < i ==> r[j] == reg[j]
    ensures forall j :: i < j < |reg| ==> r[j - 1] == reg[j]
    ensures UniqueSectors(reg) ==> UniqueSectors(r) && !IsOpen(r, reg[i].sector)
  {
    var r := reg[..i] + reg[i + 1..];
    assert forall k :: 0 <= k < |r| ==> r[k] == reg[if k < i then k else k + 1];
    r
  }

  /** `inode_close`: one opener fewer. The last close takes the inode out
      of the list and, if it was removed, gives back its record sector and
      then its data sectors. A NULL inode is ignored. */
  function InodeClose(reg: Registry, d: Store, fm: FreeMap, h: Option<Sector>): (r: (Registry, FreeMap))
    requires h.Some? ==> IsOpen(reg, h.value)
    requires h.Some? ==> var e := reg[Find(reg, h.value).value];
                         e.openCnt > 0 && WellFormed(e.data) && 0 <= Length(e.data)
    ensures h.None? ==> r == (reg, fm)
    ensures h.Some? && reg[Find(reg, h.value).value].openCnt > 1 ==>
              var i := Find(reg, h.value).value;
              |r.0| == |reg| && r.1 == fm
              && r.0[i].openCnt == reg[i].openCnt - 1 && SameButCount(r.0[i], reg[i])
              && forall j :: 0 <= j < |reg| && j != i ==> r.0[j] == reg[j]
    ensures h.Some? && reg[Find(reg, h.value).value].openCnt == 1 ==>
              var i := Find(reg, h.value).value;
              r.0 == Without(reg, i) && (UniqueSectors(reg) ==> !IsOpen(r.0, h.value))
    ensures h.Some? && reg[Find(reg, h.value).value].openCnt == 1 && !reg[Find(reg, h.value).value].removed ==>
              r.1 == fm
    ensures h.Some? && reg[Find(reg, h.value).value].openCnt == 1 && reg[Find(reg, h.value).value].removed ==>
              r.1 == SectorsRelease(reg[Find(reg, h.value).value].data, d, Release(fm, h.value))
  {
    if h.None? then (reg, fm)
    else
      var i := Find(reg, h.value).value;
      var e := reg[i];
      if e.openCnt - 1 > 0 then (reg[i := e.(openCnt := e.openCnt - 1)], fm)
      else
        var fm' := if e.removed then SectorsRelease(e.data, d, Release(fm, e.sector)) else fm;
        (Without(reg, i), fm')
  }

  /** The last close of a removed inode gives back its record sector and
      then the data sectors its record lists: the direct ones, and from 12
      sectors on those in the indirect index sector and that index sector. */
  lemma RemovedLastCloseReleases(reg: Registry, d: Store, fm: FreeMap, sector: Sector)
    requires Sound(reg) && IsOpen(reg, sector)
    requires var e := reg[Find(reg, sector).value]; e.openCnt == 1 && e.removed
    ensures var e := reg[Find(reg, sector).value];
            var n := BytesToSectors(Length(e.data));
            var cnt := Min(n, INDIRECT_END) - DIRECT_BLOCK;
            var ib := ReadSector(d, e.data.iblock);
            InodeClose(reg, d, fm, Some(sector)).1.free
            == if n < DIRECT_BLOCK then fm.free + [sector] + e.data.dblock[..n]
               else fm.free + [sector] + e.data.dblock + seq(cnt, i requires 0 <= i < cnt => WordAt(ib, i)) + [e.data.iblock]
  {
    var e := reg[Find(reg, sector).value];
    ReleasedOf(e.data, d, Release(fm, sector));
  }

  /** Close mirrors creation: a freshly created inode, opened, removed and
      closed, leaves the registry as it was and gives back its record
      sector, its first min(n, 140) data sectors in order and, from 12
      sectors on, the indirect index sector. */
  lemma CreateRemoveClose(reg: Registry, sector: Sector, length: int, d: Store, fm: FreeMap)
    requires Roomy(sector, length, fm) && !IsOpen(reg, sector)
    ensures Length(DecodeRecord(ReadSector(InodeCreate(sector, length, d, fm).1, sector))) == length
    ensures var c := InodeCreate(sector, length, d, fm);
            var n := BytesToSectors(length);
            var r := InodeClose(InodeRemove(InodeOpen(reg, c.1, sector), sector), c.1, c.2, Some(sector));
            r.0 == reg
            && r.1.free == c.2.free + [sector] + fm.free[..Min(n, INDIRECT_END)]
                           + (if n >= DIRECT_BLOCK then [fm.free[n]] else [])
  {
    var c := InodeCreate(sector, length, d, fm);
    var n := BytesToSectors(length);
    var l := CleanLayout(length, fm);
    CreatedLayout(sector, length, d, fm);
    CreatedShape(sector, length, d, fm);
    CreatedDistinct(sector, length, fm, l);
    RecordLands(sector, l, d);
    RemoveCloseFresh(reg, c.1, c.2, sector);
    ReleaseLayout(sector, l, d, Release(c.2, sector));
    PrefixOfPrefix(l.data, fm.free, n, Min(n, INDIRECT_END));
    if n >= DIRECT_BLOCK {
      assert IndexTargets(l)[0] == l.rec.iblock;
    }
  }

  /** Opening a sector nobody has open, marking it removed and closing it
      leaves the registry as it was and releases the record's sectors. */
  lemma RemoveCloseFresh(reg: Registry, d: Store, fm: FreeMap, sector: Sector)
    requires !IsOpen(reg, sector)
    requires var rec := DecodeRecord(ReadSector(d, sector)); WellFormed(rec) && 0 <= Length(rec)
    ensures InodeClose(InodeRemove(InodeOpen(reg, d, sector), sector), d, fm, Some(sector))
            == (reg, SectorsRelease(DecodeRecord(ReadSector(d, sector)), d, Release(fm, sector)))
  {
    var reg1 := InodeOpen(reg, d, sector);
    assert Find(reg1, sector) == Some(0);
    var removed := InodeRemove(reg1, sector);
    assert Find(removed, sector) == Some(0);
    assert Without(removed, 0) == reg by {
      assert removed[..0] + removed[1..] == removed[1..];
    }
  }

  /** A fresh open followed by a close leaves the registry and the free map
      as they were. */
  lemma OpenThenClose(reg: Registry, d: Store, fm: FreeMap, sector: Sector)
    requires !IsOpen(reg, sector)
    requires 0 <= Length(DecodeRecord(ReadSector(d, sector)))
    ensures var r := InodeOpen(reg, d, sector);
            InodeClose(r, d, fm, Some(sector)) == (reg, fm)
  {
    var r := InodeOpen(reg, d, sector);
    assert Find(r, sector) == Some(0);
    assert Without(r, 0) == reg by {
      assert r[..0] + r[1..] == r[1..];
    }
  }

  /** A reopen followed by a close leaves the registry and the free map as
      they were. */
  lemma ReopenThenClose(reg: Registry, d: Store, fm: FreeMap, sector: Sector)
    requires UniqueSectors(reg) && IsOpen(reg, sector)
    requires var e := reg[Find(reg, sector).value];
             e.openCnt > 0 && WellFormed(e.data) && 0 <= Length(e.data)
    ensures InodeClose(InodeReopen(reg, Some(sector)), d, fm, Some(sector)) == (reg, fm)
  {
    var i := Find(reg, sector).value;
    var r := InodeReopen(reg, Some(sector));
    assert r == reg[i := reg[i].(openCnt := reg[i].openCnt + 1)];
    FindUnique(r, sector, i);
    assert r[i := r[i].(openCnt := r[i].openCnt - 1)] == reg;
  }

  /** `inode_remove`: marks the inode for deletion at its last close. */
  function InodeRemove(reg: Registry, sector: Sector): (r: Registry)
    requires IsOpen(reg, sector)
    ensures |r| == |reg| && forall j :: 0 <= j < |reg| ==> r[j].sector == reg[j].sector
    ensures var i := Find(reg, sector).value;
            r[i] == reg[i].(removed := true)
            && forall j :: 0 <= j < |reg| && j != i ==> r[j] == reg[j]
  {
    var i := Find(reg, sector).value;
    reg[i := reg[i].(removed := true)]
  }

  /** Removing and then closing the last opener gives back the record
      sector. */
  lemma RemoveThenLastClose(reg: Registry, d: Store, fm: FreeMap, sector: Sector)
    requires UniqueSectors(reg) && IsOpen(reg, sector)
    requires var e := reg[Find(reg, sector).value];
             e.openCnt == 1 && WellFormed(e.data) && 0 <= Length(e.data)
    ensures var r := InodeClose(InodeRemove(reg, sector), d, fm, Some(sector));
            !IsOpen(r.0, sector) && fm.free + [sector] <= r.1.free
  {
    var i := Find(reg, sector).value;
    FindUnique(InodeRemove(reg, sector), sector, i);
  }

  /** `inode_deny_write`: one more denial, at most one per opener. */
  function InodeDenyWrite(reg: Registry, sector: Sector): (r: Registry)
    requires IsOpen(reg, sector)
    requires var e := reg[Find(reg, sector).value]; e.denyWriteCnt < e.openCnt
    ensures |r| == |reg| && forall j :: 0 <= j < |reg| ==> r[j].sector == reg[j].sector
    ensures var i := Find(reg, sector).value;
            r[i].denyWriteCnt > 0 && r[i].denyWriteCnt <= r[i].openCnt
            && r[i].denyWriteCnt == reg[i].denyWriteCnt + 1 && SameButDenials(r[i], reg[i])
            && forall j :: 0 <= j < |reg| && j != i ==> r[j] == reg[j]
  {
    var i := Find(reg, sector).value;
    reg[i := reg[i].(denyWriteCnt := reg[i].denyWriteCnt + 1)]
  }

  /** `inode_allow_write`: withdraws one denial. */
  function InodeAllowWrite(reg: Registry, sector: Sector): (r: Registry)
    requires IsOpen(reg, sector)
    requires var e := reg[Find(reg, sector).value]; 0 < e.denyWriteCnt <= e.openCnt
    ensures |r| == |reg| && forall j :: 0 <= j < |reg| ==> r[j].sector == reg[j].sector
    ensures var i := Find(reg, sector).value;
            r[i].denyWriteCnt < r[i].openCnt
            && r[i].denyWriteCnt == reg[i].denyWriteCnt - 1 && SameButDenials(r[i], reg[i])
            && forall j :: 0 <= j < |reg| && j != i ==> r[j] == reg[j]
  {
    var i := Find(reg, sector).value;
    reg[i := reg[i].(denyWriteCnt := reg[i].denyWriteCnt - 1)]
  }

  /** Deny then allow restores the registry. */
  lemma DenyThenAllow(reg: Registry, sector: Sector)
    requires IsOpen(reg, sector)
    requires var e := reg[Find(reg, sector).value]; e.denyWriteCnt < e.openCnt
    ensures InodeAllowWrite(InodeDenyWrite(reg, sector), sector) == reg
  {
    var i := Find(reg, sector).value;
    var r := InodeDenyWrite(reg, sector);
    assert r == reg[i := reg[i].(denyWriteCnt := reg[i].denyWriteCnt + 1)];
    FindSameSectors(reg, r, sector);
    var back := r[i := r[i].(denyWriteCnt := r[i].denyWriteCnt - 1)];
    assert InodeAllowWrite(r, sector) == back;
    assert back == reg;
  }

  // ---------------------------------------------------------------------
  // The registry invariant

  /** A record on disk that can be opened and later released: its length
      is not negative. */
  predicate Readable(d: Store, sector: Sector)
  {
    0 <= Length(DecodeRecord(ReadSector(d, sector)))
  }

  /** One entry per sector, each with at least one opener and a
      well-formed record of non-negative length. */
  predicate Sound(reg: Registry)
  {
    UniqueSectors(reg)
    && forall i :: 0 <= i < |reg| ==> reg[i].openCnt > 0 && WellFormed(reg[i].data) && 0 <= Length(reg[i].data)
  }

  /** Opening keeps the registry sound. */
  lemma OpenKeepsSound(reg: Registry, d: Store, sector: Sector)
    requires Sound(reg) && Readable(d, sector)
    ensures Sound(InodeOpen(reg, d, sector))
  {
    var r := InodeOpen(reg, d, sector);
    match Find(reg, sector)
    case Some(i) =>
      assert r == reg[i := reg[i].(openCnt := reg[i].openCnt + 1)];
    case None =>
      forall j | 0 <= j < |r|
        ensures r[j].openCnt > 0 && WellFormed(r[j].data) && 0 <= Length(r[j].data)
      {
        if j > 0 {
          assert r[j] == reg[j - 1];
        }
      }
  }

  /** Opening keeps every open sector open. */
  lemma OpenKeepsOpen(reg: Registry, d: Store, sector: Sector, w: Sector)
    requires IsOpen(reg, w)
    ensures IsOpen(InodeOpen(reg, d, sector), w)
  {
    var r := InodeOpen(reg, d, sector);
    var j :| 0 <= j < |reg| && reg[j].sector == w;
    match Find(reg, sector)
    case Some(i) =>
      assert r[j].sector == w;
    case None =>
      assert r[j + 1].sector == w;
  }

  /** Marking an inode removed keeps the registry sound and the set of
      open sectors unchanged. */
  lemma RemoveKeepsSound(reg: Registry, sector: Sector)
    requires Sound(reg) && IsOpen(reg, sector)
    ensures Sound(InodeRemove(reg, sector))
    ensures forall w :: IsOpen(reg, w) ==> IsOpen(InodeRemove(reg, sector), w)
  {
    var r := InodeRemove(reg, sector);
    forall w | IsOpen(reg, w)
      ensures IsOpen(r, w)
    {
      var j :| 0 <= j < |reg| && reg[j].sector == w;
      assert r[j].sector == w;
    }
  }

  /** Closing keeps the registry sound. */
  lemma CloseKeepsSound(reg: Registry, d: Store, fm: FreeMap, sector: Sector)
    requires Sound(reg) && IsOpen(reg, sector)
    ensures Sound(InodeClose(reg, d, fm, Some(sector)).0)
  {
    var i := Find(reg, sector).value;
    var e := reg[i];
    var r := InodeClose(reg, d, fm, Some(sector)).0;
    if e.openCnt - 1 > 0 {
      assert r == reg[i := e.(openCnt := e.openCnt - 1)];
    } else {
      assert r == Without(reg, i);
      WithoutSound(reg, i);
    }
  }

  lemma WithoutSound(reg: Registry, i: nat)
    requires Sound(reg) && i < |reg|
    ensures Sound(Without(reg, i))
  {
    var r := Without(reg, i);
    forall k | 0 <= k < |r|
      ensures r[k].openCnt > 0 && WellFormed(r[k].data) && 0 <= Length(r[k].data)
    {
      if k < i {
        assert r[k] == reg[k];
      } else {
        assert r[k] == reg[k + 1];
      }
    }
  }

  /** Closing one sector keeps every other open sector open. */
  lemma CloseKeepsOpen(reg: Registry, d: Store, fm: FreeMap, sector: Sector, w: Sector)
    requires Sound(reg) && IsOpen(reg, sector)
    requires w != sector && IsOpen(reg, w)
    ensures IsOpen(InodeClose(reg, d, fm, Some(sector)).0, w)
  {
    var i := Find(reg, sector).value;
    var e := reg[i];
    var r := InodeClose(reg, d, fm, Some(sector)).0;
    var j :| 0 <= j < |reg| && reg[j].sector == w;
    if e.openCnt - 1 > 0 {
      assert r == reg[i := e.(openCnt := e.openCnt - 1)];
      assert r[j].sector == w;
    } else {
      assert r == Without(reg, i);
      assert j != i;
      if j < i {
        assert r[j] == reg[j];
      } else {
        assert r[j - 1] == reg[j];
      }
    }
  }

  // ---------------------------------------------------------------------
  // What the registry holds for each sector

  /** The entry registered for `sector`, if any. */
  function Entry(reg: Registry, sector: Sector): (r: Option<OpenInode>)
    ensures r.None? <==> !IsOpen(reg, sector)
    ensures r.Some? ==> r.value.sector == sector
  {
    match Find(reg, sector)
    case Some(i) => Some(reg[i])
    case None => None
  }

  /** Two registries holding the same entry for every sector but `s`. */
  predicate AgreeBut(a: Registry, b: Registry, s: Sector)
  {
    forall t :: t != s ==> Entry(a, t) == Entry(b, t)
  }

  lemma EntryAt(reg: Registry, sector: Sector, i: nat)
    requires UniqueSectors(reg) && i < |reg| && reg[i].sector == sector
    ensures Entry(reg, sector) == Some(reg[i])
  {
    FindUnique(reg, sector, i);
  }

  /** Registries holding the same entry for a sector open it alike. */
  lemma SameEntrySameOpen(a: Registry, b: Registry, d: Store, sector: Sector)
    requires Entry(a, sector) == Entry(b, sector)
    ensures Opened(a, d, sector) == Opened(b, d, sector)
    ensures IsOpen(a, sector) <==> IsOpen(b, sector)
  {
  }

  /** Replacing the entry at position i by one for the same sector changes
      what the registry holds for no other sector. */
  lemma UpdateAgrees(reg: Registry, i: nat, e: OpenInode)
    requires UniqueSectors(reg) && i < |reg| && e.sector == reg[i].sector
    ensures AgreeBut(reg[i := e], reg, e.sector)
    ensures Entry(reg[i := e], e.sector) == Some(e)
  {
    var r := reg[i := e];
    assert UniqueSectors(r) by {
      assert forall k :: 0 <= k < |r| ==> r[k].sector == reg[k].sector;
    }
    EntryAt(r, e.sector, i);
    forall t | t != e.sector
      ensures Entry(r, t) == Entry(reg, t)
    {
      FindSameSectors(reg, r, t);
    }
  }

  /** Opening `s` changes what the registry holds for no other sector. */
  lemma OpenAgrees(reg: Registry, d: Store, s: Sector)
    requires UniqueSectors(reg)
    ensures AgreeBut(InodeOpen(reg, d, s), reg, s)
  {
    match Find(reg, s)
    case Some(i) =>
      UpdateAgrees(reg, i, reg[i].(openCnt := reg[i].openCnt + 1));
    case None =>
      PrependAgrees(reg, OpenInode(s, 1, false, 0, DecodeRecord(ReadSector(d, s))));
  }

  /** Pushing an entry for a sector not yet open changes what the registry
      holds for no other sector. */
  lemma PrependAgrees(reg: Registry, e: OpenInode)
    requires UniqueSectors(reg) && !IsOpen(reg, e.sector)
    ensures AgreeBut([e] + reg, reg, e.sector)
  {
    var r := [e] + reg;
    assert UniqueSectors(r) by {
      assert forall k :: 0 < k < |r| ==> r[k] == reg[k - 1];
    }
    forall t | t != e.sector
      ensures Entry(r, t) == Entry(reg, t)
    {
      if IsOpen(reg, t) {
        var j := Find(reg, t).value;
        assert r[j + 1] == reg[j];
        EntryAt(r, t, j + 1);
        EntryAt(reg, t, j);
      } else {
        forall k | 0 <= k < |r|
          ensures r[k].sector != t
        {
          if k > 0 {
            assert r[k] == reg[k - 1];
          }
        }
      }
    }
  }

  /** Marking `s` removed changes what the registry holds for no other
      sector. */
  lemma RemoveAgrees(reg: Registry, s: Sector)
    requires UniqueSectors(reg) && IsOpen(reg, s)
    ensures AgreeBut(InodeRemove(reg, s), reg, s)
    ensures Entry(InodeRemove(reg, s), s) == Some(Entry(reg, s).value.(removed := true))
  {
    var i := Find(reg, s).value;
    UpdateAgrees(reg, i, reg[i].(removed := true));
  }

  /** Closing `s` changes what the registry holds for no other sector; for
      `s` it holds one opener fewer, or nothing after the last close. */
  lemma CloseAgrees(reg: Registry, d: Store, fm: FreeMap, s: Sector)
    requires Sound(reg) && IsOpen(reg, s)
    ensures var r := InodeClose(reg, d, fm, Some(s)).0;
            var e := Entry(reg, s).value;
            AgreeBut(r, reg, s)
            && Entry(r, s) == if e.openCnt > 1 then Some(e.(openCnt := e.openCnt - 1)) else None
  {
    var i := Find(reg, s).value;
    var e := reg[i];
    if e.openCnt - 1 > 0 {
      UpdateAgrees(reg, i, e.(openCnt := e.openCnt - 1));
    } else {
      WithoutAgrees(reg, i);
    }
  }

  /** Dropping the entry at position i changes what the registry holds for
      no other sector. */
  lemma WithoutAgrees(reg: Registry, i: nat)
    requires UniqueSectors(reg) && i < |reg|
    ensures AgreeBut(Without(reg, i), reg, reg[i].sector)
  {
    var r := Without(reg, i);
    forall t | t != reg[i].sector
      ensures Entry(r, t) == Entry(reg, t)
    {
      if IsOpen(reg, t) {
        var j := Find(reg, t).value;
        if j < i {
          EntryAt(r, t, j);
        } else {
          EntryAt(r, t, j - 1);
        }
        EntryAt(reg, t, j);
      } else {
        forall k | 0 <= k < |r|
          ensures r[k].sector != t
        {
          if k < i {
            assert r[k] == reg[k];
          } else {
            assert r[k] == reg[k + 1];
          }
        }
      }
    }
  }

  /** What closing `w` does depends only on the entry held for `w`: two
      registries that agree but for `s != w` still agree after it, and give
      back the same sectors. */
  lemma CloseKeepsAgreement(a: Registry, b: Registry, d: Store, fm: FreeMap, s: Sector, w: Sector)
    requires Sound(a) && Sound(b) && IsOpen(b, w) && w != s && AgreeBut(a, b, s)
    ensures IsOpen(a, w)
    ensures AgreeBut(InodeClose(a, d, fm, Some(w)).0, InodeClose(b, d, fm, Some(w)).0, s)
    ensures InodeClose(a, d, fm, Some(w)).1 == InodeClose(b, d, fm, Some(w)).1
  {
    assert Entry(a, w) == Entry(b, w);
    CloseAgrees(a, d, fm, w);
    CloseAgrees(b, d, fm, w);
  }
}

=== FILE: page.dfy ===
/** The supplemental page table of src/vm/page.c: a hash table of
    `struct page` records keyed by virtual address, each carrying an `aux`
    word that says where the page's contents come from. Pages of a memory
    mapping are stored under their address with the PTE_AVL bits set, and
    lookup falls back to that tagged key. */
module Page {
  import opened Base

  /** A user virtual address, as a 32-bit word because the table's keys
      are built with bitwise OR. */
  datatype VAddr = VAddr(bits: bv32)

  /** The three available-for-OS bits of an x86 page-table entry. */
  const PTE_AVL: bv32 := 0xE00

  /** `struct page` without its hash link. */
  datatype PageEntry = PageEntry(vaddr: VAddr, aux: U32)

  /** The table: `aux` by `vaddr` (hashing and comparing use `vaddr`
      only, so there is at most one record per address). */
  type PageTable = map<VAddr, U32>

  /** `address | PTE_AVL`: the AVL bits are set and every other bit is
      kept, so the tag changes the address exactly when one of its AVL bits
      is clear. */
  function Tagged(a: VAddr): (r: VAddr)
    ensures r.bits & PTE_AVL == PTE_AVL
    ensures r.bits & !PTE_AVL == a.bits & !PTE_AVL
  {
    VAddr(a.bits | PTE_AVL)
  }

  /** Tagging leaves an address alone exactly when its AVL bits are all
      set already. */
  lemma TaggedFixed(a: VAddr)
    ensures Tagged(a) == a <==> a.bits & PTE_AVL == PTE_AVL
  {
  }

  /** `page_table_insert`: a new address is added and NULL returned; an
      address already present keeps its record, which is returned. */
  function PageTableInsert(pt: PageTable, address: VAddr, aux: U32): (r: (Option<PageEntry>, PageTable))
    ensures address !in pt ==> r.0.None? && r.1 == pt[address := aux]
    ensures address in pt ==> r.0 == Some(PageEntry(address, pt[address])) && r.1 == pt
  {
    if address in pt then (Some(PageEntry(address, pt[address])), pt)
    else (None, pt[address := aux])
  }

  /** `page_table_lookup`: the record for the address itself, else the
      record for the address with PTE_AVL set, else NULL. */
  function PageTableLookup(pt: PageTable, address: VAddr): (r: Option<PageEntry>)
    ensures r.Some? <==> address in pt || Tagged(address) in pt
    ensures r.Some? ==> r.value.vaddr in pt && pt[r.value.vaddr] == r.value.aux
    ensures address in pt ==> r == Some(PageEntry(address, pt[address]))
  {
    if address in pt then Some(PageEntry(address, pt[address]))
    else if Tagged(address) in pt then Some(PageEntry(Tagged(address), pt[Tagged(address)]))
    else None
  }

  /** `page_table_remove`: the record must be in the table (the deleted
      element must be it); exactly that record goes. */
  function PageTableRemove(pt: PageTable, p: PageEntry): (r: PageTable)
    requires p.vaddr in pt && pt[p.vaddr] == p.aux
    ensures p.vaddr !in r
    ensures forall a :: a != p.vaddr ==> (a in r <==> a in pt) && (a in r ==> r[a] == pt[a])
  {
    pt - {p.vaddr}
  }

  /** `page_table_destroy`: every record is freed. */
  function PageTableDestroy(pt: PageTable): (r: PageTable)
    ensures forall a :: a !in r
  {
    map[]
  }

  /** A freshly inserted address is found with the `aux` it was inserted
      with; inserting it again returns that record and changes nothing. */
  lemma InsertThenLookup(pt: PageTable, address: VAddr, aux: U32)
    requires address !in pt
    ensures var pt' := PageTableInsert(pt, address, aux).1;
            PageTableLookup(pt', address) == Some(PageEntry(address, aux))
            && PageTableInsert(pt', address, aux) == (Some(PageEntry(address, aux)), pt')
  {
  }

  /** A page of a mapping, stored under its tagged address, is found by
      looking up the page itself. */
  lemma TaggedInsertFound(pt: PageTable, upage: VAddr, aux: U32)
    requires upage.bits & PTE_AVL == 0 && upage !in pt && Tagged(upage) !in pt
    ensures var pt' := PageTableInsert(pt, Tagged(upage), aux).1;
            PageTableLookup(pt', upage) == Some(PageEntry(Tagged(upage), aux))
  {
    TaggedFixed(upage);
  }

  /** Removing the record found for an address makes the address unknown
      unless the other key (plain or tagged) still holds a record. */
  lemma LookupThenRemove(pt: PageTable, address: VAddr)
    requires PageTableLookup(pt, address).Some?
    ensures var p := PageTableLookup(pt, address).value;
            var pt' := PageTableRemove(pt, p);
            |pt'| == |pt| - 1
            && (p.vaddr == address ==> PageTableLookup(pt', address) == PageTableLookup(pt - {address}, address))
            && (p.vaddr != address ==> PageTableLookup(pt', address).None?)
  {
    var p := PageTableLookup(pt, address).value;
    assert pt.Keys == (pt - {p.vaddr}).Keys + {p.vaddr};
  }

  /** Destroying leaves a table in which every lookup fails. */
  lemma DestroyThenLookup(pt: PageTable, address: VAddr)
    ensures PageTableLookup(PageTableDestroy(pt), address).None?
  {
  }
}

=== FILE: page_fault.dfy ===
/** The page-fault handler of src/userprog/exception.c. A fault is killed
    outright when its address is NULL or in kernel space, or when it is a
    write to a present page. Otherwise the supplemental page table decides:
    a record there says where the page's contents come from (zero fill,
    a memory-mapped file, or a swap slot), and the record is consumed. With
    no record, a fault close to the stack pointer grows the stack by
    mapping every missing page from the faulting one up to PHYS_BASE;
    anything else is killed. */
module PageFault {
  import opened Base
  import Page
  import Segment

  const PGSIZE: int := 4096
  const PHYS_BASE: int := 0xC000_0000

  /** What the handler reads from the interrupt frame and CR2: the
      faulting address, the user stack pointer and the three error-code
      bits. */
  datatype Fault = Fault(addr: U32, esp: U32, present: bool, write: bool, user: bool)

  /** Where the contents of a page found in the supplemental table come
      from. */
  datatype Source =
    | ZeroFill                                // aux -1: a fresh frame, nothing read
    | MmapFile(fileIndex: U32, offset: U32)   // descriptor aux - 2, at vpage - mmap_start
    | SwapSlot(slot: nat)                     // slot aux >> PGBITS

  /** How a fault ends. `cleared` lists the pages whose dirty and accessed
      bits are reset; `pinned` is set for a fault taken in kernel mode,
      which marks the frame restricted. */
  datatype Outcome =
    | Kill
    | Resolve(source: Source, upage: U32, table: Page.PageTable, cleared: seq<U32>, pinned: bool)
    | GrowStack(installed: seq<U32>, cleared: seq<U32>)

  /** `ROUND_DOWN (fault_addr, PGSIZE)`. */
  function PageOf(addr: U32): (v: U32)
    ensures v % PGSIZE == 0 && v <= addr < v + PGSIZE
  {
    addr - addr % PGSIZE
  }

  /** The source a supplemental-table record names, tested in the order of
      the source: an `aux` of -1 first, then an address carrying AVL bits,
      else a swap slot. */
  function SourceOf(p: Page.PageEntry, vpage: U32, mmapStart: U32 -> U32): (s: Source)
    ensures p.aux == Segment.ZERO_AUX <==> s.ZeroFill?
    ensures s.MmapFile? <==> p.aux != Segment.ZERO_AUX && p.vaddr.bits & Page.PTE_AVL != 0
    ensures s.SwapSlot? ==> s.slot * PGSIZE <= p.aux < (s.slot + 1) * PGSIZE
  {
    if p.aux == Segment.ZERO_AUX then ZeroFill
    else if p.vaddr.bits & Page.PTE_AVL != 0 then
      var index := Wrap32(p.aux - 2);
      MmapFile(index, Wrap32(vpage - mmapStart(index)))
    else SwapSlot(p.aux / PGSIZE)
  }

  /** The user pages from `vpage` up to PHYS_BASE, lowest first. */
  function PagesUpTo(vpage: int): (ps: seq<U32>)
    requires 0 <= vpage && vpage % PGSIZE == 0
    ensures vpage <= PHYS_BASE ==> |ps| * PGSIZE == PHYS_BASE - vpage
    ensures forall k :: 0 <= k < |ps| ==> ps[k] == vpage + PGSIZE * k
    decreases PHYS_BASE - vpage
  {
    if vpage >= PHYS_BASE then [] else [vpage] + PagesUpTo(vpage + PGSIZE)
  }

  /** The pages of `ps` not yet mapped in the page directory, in order. */
  function Missing(ps: seq<U32>, mapped: set<U32>): (r: seq<U32>)
  {
    if |ps| == 0 then []
    else if ps[0] in mapped then Missing(ps[1..], mapped)
    else [ps[0]] + Missing(ps[1..], mapped)
  }

  /** A page is missing exactly when it is one of the pages and not
      mapped. */
  lemma {:induction false} MissingMeans(ps: seq<U32>, mapped: set<U32>)
    ensures forall v :: v in Missing(ps, mapped) <==> v in ps && v !in mapped
  {
    if |ps| > 0 {
      MissingMeans(ps[1..], mapped);
      assert ps == [ps[0]] + ps[1..];
    }
  }

  /** `page_fault` with the stack-growth test already decided (`nearStack`).
      `framesOk` says whether `frame_alloc` and `install_page` succeed,
      `mapped` is the set of pages the page directory maps, and
      `mmapStart` gives each descriptor's mapping start. */
  function Handle(f: Fault, pt: Page.PageTable, mapped: set<U32>, framesOk: bool,
                  mmapStart: U32 -> U32, nearStack: bool): (r: Outcome)
    ensures f.addr == 0 || PageOf(f.addr) >= PHYS_BASE ==> r.Kill?
    ensures f.write && f.present ==> r.Kill?
    ensures r.Resolve? ==>
              var hit := Page.PageTableLookup(pt, Segment.Key(PageOf(f.addr)));
              hit.Some? && framesOk && r.upage == PageOf(f.addr)
              && r.source == SourceOf(hit.value, r.upage, mmapStart)
              && r.table == Page.PageTableRemove(pt, hit.value)
              && r.cleared == [r.upage] && (r.pinned <==> !f.user)
    ensures r.GrowStack? ==>
              Page.PageTableLookup(pt, Segment.Key(PageOf(f.addr))).None? && nearStack
              && r.cleared == PagesUpTo(PageOf(f.addr))
              && r.installed == Missing(r.cleared, mapped)
              && (framesOk || |r.installed| == 0)
  {
    var vpage := PageOf(f.addr);
    if f.addr == 0 || vpage >= PHYS_BASE then Kill
    else if f.write && f.present then Kill
    else
      match Page.PageTableLookup(pt, Segment.Key(vpage))
      case Some(p) =>
        if !framesOk then Kill
        else Resolve(SourceOf(p, vpage, mmapStart), vpage, Page.PageTableRemove(pt, p), [vpage], !f.user)
      case None =>
        if !nearStack then Kill
        else
          var pages := PagesUpTo(vpage);
          var installed := Missing(pages, mapped);
          if !framesOk && |installed| > 0 then Kill else GrowStack(installed, pages)
  }

  /** Every fault that is not killed is resolved from the table or grows
      the stack, and which one depends only on whether the faulting page
      has a record: a valid fault with a record and frames to spare is
      always resolved; one with no record is killed unless it is near the
      stack. */
  lemma HandleClassifies(f: Fault, pt: Page.PageTable, mapped: set<U32>, framesOk: bool,
                         mmapStart: U32 -> U32, nearStack: bool)
    requires f.addr != 0 && PageOf(f.addr) < PHYS_BASE && !(f.write && f.present)
    ensures var r := Handle(f, pt, mapped, framesOk, mmapStart, nearStack);
            var hit := Page.PageTableLookup(pt, Segment.Key(PageOf(f.addr)));
            (hit.Some? && framesOk ==> r.Resolve?)
            && (hit.None? && !nearStack ==> r.Kill?)
            && (hit.None? && nearStack && framesOk ==> r.GrowStack?)
  {
  }

  /** Stack growth maps every page from the faulting one to PHYS_BASE: each
      is mapped already or installed now, and only missing pages are
      installed. */
  lemma GrowthCovers(f: Fault, pt: Page.PageTable, mapped: set<U32>, framesOk: bool,
                     mmapStart: U32 -> U32, nearStack: bool)
    requires Handle(f, pt, mapped, framesOk, mmapStart, nearStack).GrowStack?
    ensures var r := Handle(f, pt, mapped, framesOk, mmapStart, nearStack);
            (forall v :: PageOf(f.addr) <= v < PHYS_BASE && v % PGSIZE == 0 ==> v in mapped || v in r.installed)
            && (forall v :: v in r.installed ==> v !in mapped && PageOf(f.addr) <= v < PHYS_BASE)
  {
    var vpage := PageOf(f.addr);
    MissingMeans(PagesUpTo(vpage), mapped);
    PagesUpToMeans(vpage);
  }

  /** The pages up to PHYS_BASE are exactly the aligned addresses from
      `vpage` below PHYS_BASE. */
  lemma PagesUpToMeans(vpage: int)
    requires 0 <= vpage && vpage % PGSIZE == 0
    ensures forall v :: v in PagesUpTo(vpage) <==> vpage <= v < PHYS_BASE && v % PGSIZE == 0
  {
    var pages := PagesUpTo(vpage);
    forall v | vpage <= v < PHYS_BASE && v % PGSIZE == 0
      ensures v in pages
    {
      var k := (v - vpage) / PGSIZE;
      assert v == vpage + PGSIZE * k;
      assert pages[k] == v;
    }
  }

  /** A resolved fault consumes the record it used: the page is then found
      only if its other key (plain or tagged) still holds a record. */
  lemma ResolveConsumes(f: Fault, pt: Page.PageTable, mapped: set<U32>, framesOk: bool,
                        mmapStart: U32 -> U32, nearStack: bool)
    requires Handle(f, pt, mapped, framesOk, mmapStart, nearStack).Resolve?
    ensures var r := Handle(f, pt, mapped, framesOk, mmapStart, nearStack);
            |r.table| == |pt| - 1
            && (Page.PageTableLookup(pt, Segment.Key(r.upage)).value.vaddr != Segment.Key(r.upage) ==>
                  Page.PageTableLookup(r.table, Segment.Key(r.upage)).None?)
  {
    Page.LookupThenRemove(pt, Segment.Key(PageOf(f.addr)));
  }

  /** A page `load_segment` left for lazy loading (its record carries
      -1) is zero-filled by the first fault on it that is not a write to a
      present page. */
  lemma LazyPageZeroFills(f: Fault, pt: Page.PageTable, mapped: set<U32>,
                          mmapStart: U32 -> U32, nearStack: bool, upage: U32)
    requires upage % PGSIZE == 0 && 0 < upage < PHYS_BASE && upage <= f.addr < upage + PGSIZE
    requires Segment.Key(upage) in pt && pt[Segment.Key(upage)] == Segment.ZERO_AUX
    requires !(f.write && f.present)
    ensures var r := Handle(f, pt, mapped, true, mmapStart, nearStack);
            r.Resolve? && r.source == ZeroFill && r.upage == upage && Segment.Key(upage) !in r.table
  {
    PageOfInside(f.addr, upage);
    var hit := Page.PageTableLookup(pt, Segment.Key(upage));
    assert hit == Some(Page.PageEntry(Segment.Key(upage), Segment.ZERO_AUX));
    HandleClassifies(f, pt, mapped, true, mmapStart, nearStack);
  }

  /** An address inside an aligned page belongs to that page. */
  lemma PageOfInside(addr: U32, upage: U32)
    requires upage % PGSIZE == 0 && upage <= addr < upage + PGSIZE
    ensures PageOf(addr) == upage
  {
    var k := upage / PGSIZE;
    assert addr == k * PGSIZE + (addr - upage);
  }

  /** A record whose `aux` holds a swap slot shifted left by PGBITS sends
      the fault to that slot. */
  lemma SwapRecordFindsSlot(p: Page.PageEntry, vpage: U32, mmapStart: U32 -> U32, slot: nat)
    requires p.aux == slot * PGSIZE && p.vaddr.bits & Page.PTE_AVL == 0
    ensures SourceOf(p, vpage, mmapStart) == SwapSlot(slot)
  {
  }

  /** The stack-growth test as written: both pointer differences are
      32-bit signed values compared with PGSIZE, so they wrap. */
  function NearStackAsWritten(addr: U32, esp: U32): bool
  {
    ToSigned32(Wrap32(addr - esp)) < PGSIZE && ToSigned32(Wrap32(esp - addr)) < PGSIZE
  }

  /** The stack-growth test as intended: the fault lies less than one page
      from the stack pointer, on either side. */
  function NearStack(addr: U32, esp: U32): (r: bool)
  {
    -PGSIZE < addr - esp < PGSIZE
  }

  /** The wrapped test accepts every fault the intended one accepts. */
  lemma NearStackAccepted(addr: U32, esp: U32)
    requires NearStack(addr, esp)
    ensures NearStackAsWritten(addr, esp)
  {
    var d := addr - esp;
    if d >= 0 {
      assert Wrap32(d) == d;
      assert Wrap32(-d) == WORD_MODULUS - d || d == 0;
    } else {
      assert Wrap32(-d) == -d;
      assert Wrap32(d) == WORD_MODULUS + d;
    }
  }

  /** The wrapped test also accepts a fault 2^31 bytes below the stack
      pointer: with esp at 0xBFFFF000, a fault at 0x3FFFF000 makes both
      differences -2^31, and the handler maps the half million pages from
      there up to PHYS_BASE. A fault at 0x8 with esp at 0xFFFFFFF0 passes
      too: the differences wrap to 24 and -24. */
  lemma NearStackWraps()
    ensures NearStackAsWritten(0x3FFF_F000, 0xBFFF_F000)
    ensures !NearStack(0x3FFF_F000, 0xBFFF_F000)
    ensures |PagesUpTo(0x3FFF_F000)| == 0x8_0001
    ensures NearStackAsWritten(0x8, 0xFFFF_FFF0) && !NearStack(0x8, 0xFFFF_FFF0)
  {
    assert Wrap32(0x3FFF_F000 - 0xBFFF_F000) == 0x8000_0000;
    assert Wrap32(0xBFFF_F000 - 0x3FFF_F000) == 0x8000_0000;
    assert Wrap32(0x8 - 0xFFFF_FFF0) == 0x18;
    assert Wrap32(0xFFFF_FFF0 - 0x8) == 0xFFFF_FFE8;
  }

  /** The faults the wrapped test accepts on top of the intended window:
      exactly 2^31 bytes from the stack pointer, or so far from it that the
      difference comes within one page of 2^32. */
  predicate Wraps(addr: U32, esp: U32)
  {
    addr - esp == 0x8000_0000 || esp - addr == 0x8000_0000
    || addr - esp > WORD_MODULUS - PGSIZE || esp - addr > WORD_MODULUS - PGSIZE
  }

  /** Exactly what the wrapped test accepts: the intended window and the
      wrapped distances. */
  lemma NearStackAsWrittenMeans(addr: U32, esp: U32)
    ensures NearStackAsWritten(addr, esp) <==> NearStack(addr, esp) || Wraps(addr, esp)
  {
    var d := addr - esp;
    if d >= 0 {
      assert Wrap32(d) == d;
      assert d > 0 ==> Wrap32(-d) == WORD_MODULUS - d;
    } else {
      assert Wrap32(-d) == -d;
      assert Wrap32(d) == WORD_MODULUS + d;
    }
  }

  /** `page_fault` as written: a fault with no record grows the stack
      exactly where the intended handler grows it, and also for the
      wrapped distances. */
  function PageFaultAsWritten(f: Fault, pt: Page.PageTable, mapped: set<U32>, framesOk: bool,
                              mmapStart: U32 -> U32): (r: Outcome)
    ensures r.GrowStack? ==> NearStack(f.addr, f.esp) || Wraps(f.addr, f.esp)
    ensures r.GrowStack?
            <==> (PageFault(f, pt, mapped, framesOk, mmapStart).GrowStack?
                  || (Wraps(f.addr, f.esp) && f.addr != 0 && PageOf(f.addr) < PHYS_BASE && !(f.write && f.present)
                      && Page.PageTableLookup(pt, Segment.Key(PageOf(f.addr))).None?
                      && (framesOk || |Missing(PagesUpTo(PageOf(f.addr)), mapped)| == 0)))
  {
    NearStackAsWrittenMeans(f.addr, f.esp);
    Handle(f, pt, mapped, framesOk, mmapStart, NearStackAsWritten(f.addr, f.esp))
  }

  /** `page_fault` with the intended stack window: the stack only grows for
      a fault within one page of the stack pointer. */
  function PageFault(f: Fault, pt: Page.PageTable, mapped: set<U32>, framesOk: bool,
                     mmapStart: U32 -> U32): (r: Outcome)
    ensures r.GrowStack? ==> -PGSIZE < f.addr - f.esp < PGSIZE
  {
    Handle(f, pt, mapped, framesOk, mmapStart, NearStack(f.addr, f.esp))
  }

  /** The two versions differ only where the wrapped test lets a distant
      fault through: whatever the intended handler does, the one as written
      does too. */
  lemma PageFaultAgrees(f: Fault, pt: Page.PageTable, mapped: set<U32>, framesOk: bool,
                        mmapStart: U32 -> U32)
    requires !PageFault(f, pt, mapped, framesOk, mmapStart).Kill?
    ensures PageFaultAsWritten(f, pt, mapped, framesOk, mmapStart) == PageFault(f, pt, mapped, framesOk, mmapStart)
  {
    if PageFault(f, pt, mapped, framesOk, mmapStart).GrowStack? {
      NearStackAccepted(f.addr, f.esp);
    }
  }
}

=== FILE: process.dfy ===
/** Program loading in src/userprog/process.c: the command line is cut into
    arguments, the ELF executable header and program headers are checked,
    each loadable segment is split into pages that are read from the file
    or left to be zero-filled on first touch, and the initial user stack is
    laid out as a cdecl call of `main (argc, argv)`. File contents are a
    byte sequence; frame allocation and page-directory updates are left to
    the frame and page models. */
module Process {
  import opened Base
  import Tokens
  import Page

  const PGSIZE: int := 4096

  /** User addresses lie below PHYS_BASE (`is_user_vaddr`). */
  const PHYS_BASE: int := 0xC000_0000

  /** The command line buffer: `strlcpy` into it keeps at most 4095 bytes. */
  const MAX_CMD_LEN: int := 4096

  /** Size of the `argv` array in `load`, and the `strlcpy` bound used when
      copying an argument onto the stack. */
  const MAX_ARGV_LEN: int := 128

  const SPACE: Byte := 0x20

  /** A C string: no NUL byte inside. */
  predicate CString(s: seq<Byte>)
  {
    forall i :: 0 <= i < |s| ==> s[i] != 0
  }

  // ---------------------------------------------------------------------
  // The command line

  /** `userprog_parser` on the copy `load` makes of the command line: the
      first MAX_CMD_LEN - 1 bytes, cut at spaces with empty pieces dropped.
      The count it returns is the length of the result. */
  function Parse(cmd: seq<Byte>): (argv: seq<seq<Byte>>)
    ensures forall i :: 0 <= i < |argv| ==> Tokens.IsToken(argv[i], SPACE)
    ensures |cmd| == 0 ==> argv == []
  {
    Tokens.Split(cmd[..Min(|cmd|, MAX_CMD_LEN - 1)], SPACE)
  }

  /** Arguments that fit the command buffer are recovered from the command
      line they are written into, one space apart. */
  lemma ParseJoin(args: seq<seq<Byte>>)
    requires forall i :: 0 <= i < |args| ==> Tokens.IsToken(args[i], SPACE)
    requires |Tokens.Join(args, SPACE)| < MAX_CMD_LEN
    ensures Parse(Tokens.Join(args, SPACE)) == args
  {
    var cmd := Tokens.Join(args, SPACE);
    assert cmd[..Min(|cmd|, MAX_CMD_LEN - 1)] == cmd;
    Tokens.SplitJoin(args, SPACE);
  }

  /** Parsing loses and reorders no argument byte: the arguments, written
      back to back, are the kept part of the command line with its spaces
      removed. */
  lemma ParseKeepsPayload(cmd: seq<Byte>)
    ensures Tokens.Concat(Parse(cmd)) == Tokens.Strip(cmd[..Min(|cmd|, MAX_CMD_LEN - 1)], SPACE)
  {
    Tokens.SplitKeepsPayload(cmd[..Min(|cmd|, MAX_CMD_LEN - 1)], SPACE);
  }

  // ---------------------------------------------------------------------
  // ELF headers

  /** `struct Elf32_Ehdr`: 52 bytes, little-endian. */
  datatype Ehdr = Ehdr(
    ident: seq<Byte>, etype: U16, machine: U16, version: U32, entry: U32,
    phoff: U32, shoff: U32, flags: U32, ehsize: U16, phentsize: U16,
    phnum: U16, shentsize: U16, shnum: U16, shstrndx: U16)

  const EHDR_SIZE: int := 52

  /** `struct Elf32_Phdr`: eight 32-bit words. */
  datatype Phdr = Phdr(
    ptype: U32, offset: U32, vaddr: U32, paddr: U32,
    filesz: U32, memsz: U32, flags: U32, align: U32)

  const PHDR_SIZE: int := 32

  const PT_LOAD: U32 := 1
  const PT_DYNAMIC: U32 := 2
  const PT_INTERP: U32 := 3
  const PT_SHLIB: U32 := 5
  const PF_W: U32 := 2

  /** The first seven identification bytes: `\177ELF`, 32-bit class,
      little-endian data, current version. */
  const ELF_MAGIC: seq<Byte> := [0x7F, 0x45, 0x4C, 0x46, 1, 1, 1]

  function EncodeHalf(h: U16): (bs: seq<Byte>)
    ensures |bs| == 2 && DecodeHalf(bs) == h
  {
    [h % 0x100, h / 0x100]
  }

  function DecodeEhdr(bs: seq<Byte>): (h: Ehdr)
    requires |bs| == EHDR_SIZE
    ensures |h.ident| == 16
  {
    var words := bs[20..40];
    Ehdr(bs[0..16], DecodeHalf(bs[16..18]), DecodeHalf(bs[18..20]),
         WordAt(words, 0), WordAt(words, 1), WordAt(words, 2), WordAt(words, 3), WordAt(words, 4),
         DecodeHalf(bs[40..42]), DecodeHalf(bs[42..44]), DecodeHalf(bs[44..46]),
         DecodeHalf(bs[46..48]), DecodeHalf(bs[48..50]), DecodeHalf(bs[50..52]))
  }

  function EncodeEhdr(h: Ehdr): (bs: seq<Byte>)
    requires |h.ident| == 16
    ensures |bs| == EHDR_SIZE
  {
    h.ident + EncodeHalf(h.etype) + EncodeHalf(h.machine)
    + EncodeWords([h.version, h.entry, h.phoff, h.shoff, h.flags])
    + EncodeHalf(h.ehsize) + EncodeHalf(h.phentsize) + EncodeHalf(h.phnum)
    + EncodeHalf(h.shentsize) + EncodeHalf(h.shnum) + EncodeHalf(h.shstrndx)
  }

  /** Reading a header back from its bytes gives the header. */
  lemma DecodeEncodeEhdr(h: Ehdr)
    requires |h.ident| == 16
    ensures DecodeEhdr(EncodeEhdr(h)) == h
  {
    EhdrHead(h);
    EhdrWords(h);
    EhdrTail(h);
  }

  lemma EhdrHead(h: Ehdr)
    requires |h.ident| == 16
    ensures var bs := EncodeEhdr(h);
            bs[0..16] == h.ident && DecodeHalf(bs[16..18]) == h.etype && DecodeHalf(bs[18..20]) == h.machine
  {
    var bs := EncodeEhdr(h);
    assert bs[0..16] == h.ident;
    assert bs[16..18] == EncodeHalf(h.etype);
    assert bs[18..20] == EncodeHalf(h.machine);
  }

  lemma EhdrWords(h: Ehdr)
    requires |h.ident| == 16
    ensures var words := EncodeEhdr(h)[20..40];
            WordAt(words, 0) == h.version && WordAt(words, 1) == h.entry && WordAt(words, 2) == h.phoff
            && WordAt(words, 3) == h.shoff && WordAt(words, 4) == h.flags
  {
    var ws := [h.version, h.entry, h.phoff, h.shoff, h.flags];
    assert EncodeEhdr(h)[20..40] == EncodeWords(ws);
    WordAtEncodeWords(ws, 0);
    WordAtEncodeWords(ws, 1);
    WordAtEncodeWords(ws, 2);
    WordAtEncodeWords(ws, 3);
    WordAtEncodeWords(ws, 4);
  }

  lemma EhdrTail(h: Ehdr)
    requires |h.ident| == 16
    ensures var bs := EncodeEhdr(h);
            DecodeHalf(bs[40..42]) == h.ehsize && DecodeHalf(bs[42..44]) == h.phentsize
            && DecodeHalf(bs[44..46]) == h.phnum && DecodeHalf(bs[46..48]) == h.shentsize
            && DecodeHalf(bs[48..50]) == h.shnum && DecodeHalf(bs[50..52]) == h.shstrndx
  {
    var p0 := h.ident + EncodeHalf(h.etype) + EncodeHalf(h.machine)
              + EncodeWords([h.version, h.entry, h.phoff, h.shoff, h.flags]);
    var p1 := p0 + EncodeHalf(h.ehsize);
    var p2 := p1 + EncodeHalf(h.phentsize);
    var p3 := p2 + EncodeHalf(h.phnum);
    var p4 := p3 + EncodeHalf(h.shentsize);
    var p5 := p4 + EncodeHalf(h.shnum);
    var bs := p5 + EncodeHalf(h.shstrndx);
    assert bs == EncodeEhdr(h);
    assert |p0| == 40;
    assert p5 <= bs;
    assert p4 <= bs;
    assert p3 <= bs;
    assert p2 <= bs;
    FieldAt(p0, EncodeHalf(h.ehsize), bs);
    FieldAt(p1, EncodeHalf(h.phentsize), bs);
    FieldAt(p2, EncodeHalf(h.phnum), bs);
    FieldAt(p3, EncodeHalf(h.shentsize), bs);
    FieldAt(p4, EncodeHalf(h.shnum), bs);
    FieldAt(p5, EncodeHalf(h.shstrndx), bs);
  }

  /** A field placed after a prefix is found at the prefix's length. */
  lemma FieldAt(pre: seq<Byte>, field: seq<Byte>, bs: seq<Byte>)
    requires pre + field <= bs
    ensures bs[|pre|..|pre| + |field|] == field
  {
    assert bs[|pre|..|pre| + |field|] == (pre + field)[|pre|..];
  }

  /** The header checks of `load`, on the executable's bytes: a full
      header must be readable and must describe a version-1 i386
      executable whose program headers are 32 bytes, at most 1024 of
      them. */
  function ReadEhdr(file: seq<Byte>): (r: Option<Ehdr>)
    ensures r.Some? ==> |file| >= EHDR_SIZE && r.value == DecodeEhdr(file[..EHDR_SIZE])
    ensures |file| < EHDR_SIZE ==> r.None?
  {
    if |file| < EHDR_SIZE then None
    else
      var h := DecodeEhdr(file[..EHDR_SIZE]);
      if h.ident[..7] != ELF_MAGIC || h.etype != 2 || h.machine != 3 || h.version != 1
         || h.phentsize != PHDR_SIZE || h.phnum > 1024
      then None
      else Some(h)
  }

  /** A header with the right field values, followed by anything, is
      accepted exactly when its fields pass; the accepted header is the one
      written. */
  lemma ReadEhdrAccepts(h: Ehdr, rest: seq<Byte>)
    requires |h.ident| == 16
    ensures var r := ReadEhdr(EncodeEhdr(h) + rest);
            (r.Some? <==> h.ident[..7] == ELF_MAGIC && h.etype == 2 && h.machine == 3 && h.version == 1
                          && h.phentsize == PHDR_SIZE && h.phnum <= 1024)
            && (r.Some? ==> r.value == h)
  {
    var file := EncodeEhdr(h) + rest;
    assert file[..EHDR_SIZE] == EncodeEhdr(h);
    DecodeEncodeEhdr(h);
  }

  function DecodePhdr(bs: seq<Byte>): Phdr
    requires |bs| == PHDR_SIZE
  {
    Phdr(WordAt(bs, 0), WordAt(bs, 1), WordAt(bs, 2), WordAt(bs, 3),
         WordAt(bs, 4), WordAt(bs, 5), WordAt(bs, 6), WordAt(bs, 7))
  }

  function EncodePhdr(p: Phdr): (bs: seq<Byte>)
    ensures |bs| == PHDR_SIZE
  {
    EncodeWords([p.ptype, p.offset, p.vaddr, p.paddr, p.filesz, p.memsz, p.flags, p.align])
  }

  /** Reading a program header back from its bytes gives the header. */
  lemma DecodeEncodePhdr(p: Phdr)
    ensures DecodePhdr(EncodePhdr(p)) == p
  {
    var ws := [p.ptype, p.offset, p.vaddr, p.paddr, p.filesz, p.memsz, p.flags, p.align];
    forall k | 0 <= k < 8
      ensures WordAt(EncodePhdr(p), k) == ws[k]
    {
      WordAtEncodeWords(ws, k);
    }
  }

  /** `validate_segment`, check by check in the source's order, with the
      source's 32-bit additions. */
  function ValidateSegment(p: Phdr, fileLength: nat): (ok: bool)
    requires fileLength < 0x8000_0000
    ensures ok <==> p.offset % PGSIZE == p.vaddr % PGSIZE && p.offset <= fileLength
                    && p.filesz <= p.memsz && p.memsz != 0
                    && PGSIZE <= p.vaddr && p.vaddr + p.memsz < PHYS_BASE
  {
    var sum := p.vaddr + p.memsz;
    var end := if sum < WORD_MODULUS then sum else sum - WORD_MODULUS;
    if p.offset % PGSIZE != p.vaddr % PGSIZE then false
    else if p.offset > fileLength then false
    else if p.memsz < p.filesz then false
    else if p.memsz == 0 then false
    else if !(p.vaddr < PHYS_BASE) then false
    else if !(end < PHYS_BASE) then false
    else if end < p.vaddr then false
    else if p.vaddr < PGSIZE then false
    else true
  }

  /** What the program-header loop does with one entry. */
  datatype Action = Ignore | Fail | Load

  function Classify(p: Phdr, fileLength: nat): (a: Action)
    requires fileLength < 0x8000_0000
    ensures a == Fail <==> p.ptype in {PT_DYNAMIC, PT_INTERP, PT_SHLIB}
                           || (p.ptype == PT_LOAD && !ValidateSegment(p, fileLength))
    ensures a == Load <==> p.ptype == PT_LOAD && ValidateSegment(p, fileLength)
  {
    if p.ptype == PT_DYNAMIC || p.ptype == PT_INTERP || p.ptype == PT_SHLIB then Fail
    else if p.ptype == PT_LOAD then (if ValidateSegment(p, fileLength) then Load else Fail)
    else Ignore
  }

  /** Entry at file offset `ofs` can be read and does not stop the load. */
  predicate EntryOk(file: seq<Byte>, ofs: int)
    requires |file| < 0x8000_0000
  {
    0 <= ofs && ofs + PHDR_SIZE <= |file|
    && Classify(DecodePhdr(file[ofs .. ofs + PHDR_SIZE]), |file|) != Fail
  }

  /** The program-header loop of `load` from file offset `ofs` with `n`
      entries to go: the segments to load, in table order, or None when an
      offset is out of the file, a read comes up short, or an entry makes
      the load fail. */
  function ScanPhdrs(file: seq<Byte>, ofs: int, n: nat): (r: Option<seq<Phdr>>)
    requires |file| < 0x8000_0000
    decreases n
  {
    if n == 0 then Some([])
    else if ofs < 0 || ofs > |file| then None
    else if ofs + PHDR_SIZE > |file| then None
    else
      var p := DecodePhdr(file[ofs .. ofs + PHDR_SIZE]);
      var rest := ScanPhdrs(file, ofs + PHDR_SIZE, n - 1);
      match Classify(p, |file|)
      case Fail => None
      case Ignore => rest
      case Load => if rest.None? then None else Some([p] + rest.value)
  }

  /** What the loop hands on are valid PT_LOAD segments only, at most one
      per entry. */
  lemma {:induction false} ScanLoadsValid(file: seq<Byte>, ofs: int, n: nat)
    requires |file| < 0x8000_0000
    ensures var r := ScanPhdrs(file, ofs, n);
            r.Some? ==> |r.value| <= n
                        && forall j :: 0 <= j < |r.value| ==> r.value[j].ptype == PT_LOAD && ValidateSegment(r.value[j], |file|)
    decreases n
  {
    if n > 0 {
      ScanLoadsValid(file, ofs + PHDR_SIZE, n - 1);
    }
  }

  /** The entry check as a property of offsets. */
  function EntryCheck(file: seq<Byte>): (p: int -> bool)
    requires |file| < 0x8000_0000
    ensures forall ofs :: p(ofs) == EntryOk(file, ofs)
  {
    ofs => EntryOk(file, ofs)
  }

  /** `p` holds at each of the `n` offsets `ofs`, `ofs + 32`, ... */
  predicate AllAt(p: int -> bool, ofs: int, n: nat)
    decreases n
  {
    n == 0 || (p(ofs) && AllAt(p, ofs + PHDR_SIZE, n - 1))
  }

  /** `AllAt` is the quantified statement it abbreviates. */
  lemma {:induction false} AllAtMeans(p: int -> bool, ofs: int, n: nat)
    ensures AllAt(p, ofs, n) <==> forall k :: 0 <= k < n ==> p(ofs + PHDR_SIZE * k)
    decreases n
  {
    if n > 0 {
      AllAtMeans(p, ofs + PHDR_SIZE, n - 1);
      if AllAt(p, ofs, n) {
        forall k | 0 <= k < n
          ensures p(ofs + PHDR_SIZE * k)
        {
          if k > 0 {
            assert ofs + PHDR_SIZE * k == ofs + PHDR_SIZE + PHDR_SIZE * (k - 1);
          }
        }
      }
      if forall k :: 0 <= k < n ==> p(ofs + PHDR_SIZE * k) {
        assert p(ofs + PHDR_SIZE * 0);
        forall k | 0 <= k < n - 1
          ensures p(ofs + PHDR_SIZE + PHDR_SIZE * k)
        {
          assert ofs + PHDR_SIZE + PHDR_SIZE * k == ofs + PHDR_SIZE * (k + 1);
        }
      }
    }
  }

  /** One step of the loop: it goes on exactly when the entry at hand
      passes. */
  lemma ScanStep(file: seq<Byte>, ofs: int, n: nat)
    requires |file| < 0x8000_0000 && n > 0
    ensures ScanPhdrs(file, ofs, n).Some? <==> EntryCheck(file)(ofs) && ScanPhdrs(file, ofs + PHDR_SIZE, n - 1).Some?
  {
  }

  /** The loop succeeds exactly when every one of the `n` entries can be
      read and passes. */
  lemma {:induction false} ScanSucceeds(file: seq<Byte>, ofs: int, n: nat)
    requires |file| < 0x8000_0000
    ensures ScanPhdrs(file, ofs, n).Some? <==> AllAt(EntryCheck(file), ofs, n)
    decreases n
  {
    if n > 0 {
      ScanSucceeds(file, ofs + PHDR_SIZE, n - 1);
      ScanStep(file, ofs, n);
    }
  }

  /** The same, entry by entry: `load` gets past its header loop exactly
      when the entry at each offset `ofs + 32 k`, k < n, can be read and
      passes. */
  lemma ScanAccepts(file: seq<Byte>, ofs: int, n: nat)
    requires |file| < 0x8000_0000
    ensures ScanPhdrs(file, ofs, n).Some? <==> forall k :: 0 <= k < n ==> EntryOk(file, ofs + PHDR_SIZE * k)
  {
    ScanSucceeds(file, ofs, n);
    AllAtMeans(EntryCheck(file), ofs, n);
  }

  /** `load`'s start of the header walk: `file_ofs` is an `off_t`, so a
      program-header offset of 2^31 or more reads as negative and fails. */
  function LoadPhdrs(file: seq<Byte>, h: Ehdr): (r: Option<seq<Phdr>>)
    requires |file| < 0x8000_0000
    ensures h.phoff >= 0x8000_0000 && h.phnum > 0 ==> r.None?
  {
    ScanPhdrs(file, ToSigned32(h.phoff), h.phnum)
  }
}

=== FILE: scheduler.dfy ===
/** The scheduler of src/threads/thread.c: priority scheduling with
    donation, the multi-level feedback queue formulas (14-bit fixed point),
    the sleeping list that the timer tick counts down, and thread
    identifiers. Lists are sequences in list order; the idle thread is the
    `None` of an Option. */
module Scheduler {
  import opened Base

  const PRI_MIN: int := 0
  const PRI_DEFAULT: int := 31
  const PRI_MAX: int := 63

  const NICE_MIN: int := -20
  const NICE_MAX: int := 20

  /** `1 << FRACT_BITS`: one in 14-bit fixed point. */
  const F: int := 16384

  /** The scheduling part of `struct thread`. `recentCpu` and the load are
      fixed-point numbers; a right shift of a signed value is a floor
      division, which is what `/` by a positive divisor is here. */
  datatype Thread = Thread(
    tid: int,
    priority: int,
    nonDonated: int,
    nice: int,
    recentCpu: int,
    blockedTicks: int)

  /** A value forced into `[lo, hi]` by the two `if`s the source uses. */
  function Clamp(x: int, lo: int, hi: int): int
    requires lo <= hi
  {
    if x > hi then hi else if x < lo then lo else x
  }

  /** The MLFQS priority `PRI_MAX - (recent_cpu >> 16) - (nice << 1)`
      (recent_cpu / 4 in integer terms), clamped to the priority range. */
  function MlfqsPriority(recentCpu: int, nice: int): (p: int)
    ensures PRI_MIN <= p <= PRI_MAX
    ensures var raw := PRI_MAX - recentCpu / (4 * F) - 2 * nice;
            (PRI_MIN <= raw <= PRI_MAX ==> p == raw)
            && (raw > PRI_MAX ==> p == PRI_MAX) && (raw < PRI_MIN ==> p == PRI_MIN)
  {
    Clamp(PRI_MAX - recentCpu / (4 * F) - 2 * nice, PRI_MIN, PRI_MAX)
  }

  /** More recent CPU time or a higher nice value never raises the MLFQS
      priority, and a thread that has used no CPU at nice 0 gets PRI_MAX. */
  lemma MlfqsAntitone(recentCpu: int, nice: int, recentCpu': int, nice': int)
    requires recentCpu <= recentCpu' && nice <= nice'
    ensures MlfqsPriority(recentCpu', nice') <= MlfqsPriority(recentCpu, nice)
    ensures MlfqsPriority(0, 0) == PRI_MAX
  {
  }

  /** The highest priority among the threads (`list_max` with
      `thread_cmp`, read for its value). */
  function MaxPriority(ts: seq<Thread>): (m: int)
    requires |ts| > 0
    ensures forall j :: 0 <= j < |ts| ==> ts[j].priority <= m
    ensures exists j :: 0 <= j < |ts| && ts[j].priority == m
  {
    if |ts| == 1 then ts[0].priority
    else
      var rest := MaxPriority(ts[1..]);
      assert forall j :: 1 <= j < |ts| ==> ts[j] == ts[1..][j - 1];
      if ts[0].priority >= rest then ts[0].priority else rest
  }

  /** `thread_set_priority`: the base priority becomes the new value and
      the effective priority becomes the larger of it and the highest
      priority of a thread waiting on this one. */
  function SetPriority(t: Thread, newPriority: int, waiters: seq<Thread>): (r: Thread)
    ensures r == t.(priority := r.priority, nonDonated := newPriority)
  {
    if |waiters| > 0 && newPriority < MaxPriority(waiters) then
      t.(priority := MaxPriority(waiters), nonDonated := newPriority)
    else
      t.(priority := newPriority, nonDonated := newPriority)
  }

  /** The effective priority after `thread_set_priority` is the least
      value that is at least the new priority and at least every waiter's:
      a donation is never lost and never invents a priority. */
  lemma SetPriorityDonation(t: Thread, newPriority: int, waiters: seq<Thread>)
    ensures var r := SetPriority(t, newPriority, waiters);
            r.priority >= newPriority
            && (forall j :: 0 <= j < |waiters| ==> r.priority >= waiters[j].priority)
            && (r.priority == newPriority || exists j :: 0 <= j < |waiters| && r.priority == waiters[j].priority)
  {
  }

  /** With nobody waiting, the effective priority is the new one. */
  lemma SetPriorityAlone(t: Thread, newPriority: int)
    ensures SetPriority(t, newPriority, []).priority == newPriority
  {
  }

  /** `thread_set_nice`: the nice value is clamped to [-20, 20] and the
      thread's priority is set to the MLFQS priority it implies. */
  function SetNice(t: Thread, nice: int, waiters: seq<Thread>): (r: Thread)
    ensures NICE_MIN <= r.nice <= NICE_MAX
    ensures NICE_MIN <= nice <= NICE_MAX ==> r.nice == nice
    ensures r.nonDonated == MlfqsPriority(t.recentCpu, r.nice)
    ensures r.recentCpu == t.recentCpu && r.tid == t.tid && r.blockedTicks == t.blockedTicks
  {
    var n := Clamp(nice, NICE_MIN, NICE_MAX);
    SetPriority(t.(nice := n), MlfqsPriority(t.recentCpu, n), waiters)
  }

  /** Raising the nice value never raises the base priority. */
  lemma NiceAntitone(t: Thread, nice: int, nice': int, waiters: seq<Thread>)
    requires nice <= nice'
    ensures SetNice(t, nice', waiters).nonDonated <= SetNice(t, nice, waiters).nonDonated
  {
    MlfqsAntitone(t.recentCpu, Clamp(nice, NICE_MIN, NICE_MAX), t.recentCpu, Clamp(nice', NICE_MIN, NICE_MAX));
  }

  /** `list_max (&ready_list, thread_cmp)`: the first thread of maximal
      priority, since a later thread replaces the current best only when
      it is strictly higher. */
  predicate FirstMax(ts: seq<Thread>, i: int)
  {
    0 <= i < |ts|
    && (forall j :: 0 <= j < |ts| ==> ts[j].priority <= ts[i].priority)
    && (forall j :: 0 <= j < i ==> ts[j].priority < ts[i].priority)
  }

  /** There is only one first maximal thread. */
  lemma FirstMaxUnique(ts: seq<Thread>, i: int, k: int)
    requires FirstMax(ts, i) && FirstMax(ts, k)
    ensures i == k
  {
    var pi, pk := ts[i].priority, ts[k].priority;
    assert pi == pk;
  }

  method ListMax(ts: seq<Thread>) returns (i: nat)
    requires |ts| > 0
    ensures FirstMax(ts, i)
  {
    i := 0;
    var e := 1;
    while e < |ts|
      invariant i < e <= |ts|
      invariant forall j :: 0 <= j < e ==> ts[j].priority <= ts[i].priority
      invariant forall j :: 0 <= j < i ==> ts[j].priority < ts[i].priority
    {
      if ts[i].priority < ts[e].priority {
        i := e;
      }
      e := e + 1;
    }
  }

  /** `next_thread_to_run`: the idle thread (`None`) when nothing is
      ready, else the first ready thread of highest priority, taken off the
      ready list. */
  method NextThreadToRun(ready: seq<Thread>) returns (next: Option<Thread>, ready': seq<Thread>)
    ensures next.None? <==> |ready| == 0
    ensures next.None? ==> ready' == ready
    ensures next.Some? ==>
              exists i :: FirstMax(ready, i) && next.value == ready[i] && ready' == ready[..i] + ready[i + 1..]
  {
    if |ready| == 0 {
      return None, ready;
    }
    var i := ListMax(ready);
    next, ready' := Some(ready[i]), ready[..i] + ready[i + 1..];
  }

  /** Taking the chosen thread off the ready list loses no other thread,
      and no thread left behind outranks it. */
  lemma NextKeepsOthers(ready: seq<Thread>, i: int)
    requires FirstMax(ready, i)
    ensures multiset(ready[..i] + ready[i + 1..]) + multiset{ready[i]} == multiset(ready)
    ensures forall t :: t in ready[..i] + ready[i + 1..] ==> t.priority <= ready[i].priority
  {
    assert ready == ready[..i] + [ready[i]] + ready[i + 1..];
  }

  /** One timer tick of a sleeping thread. */
  function Tick(t: Thread): Thread
  {
    t.(blockedTicks := t.blockedTicks - 1)
  }

  /** What `reduce_block_ticks` leaves: the threads still sleeping and, in
      list order, the threads whose count reached zero. */
  function Wake(blocked: seq<Thread>): (r: (seq<Thread>, seq<Thread>))
  {
    if |blocked| == 0 then ([], [])
    else
      var (still, woken) := Wake(blocked[1..]);
      var t := Tick(blocked[0]);
      if t.blockedTicks == 0 then (still, [t] + woken) else ([t] + still, woken)
  }

  /** Every sleeper counted down once. */
  function TickAll(blocked: seq<Thread>): (r: seq<Thread>)
  {
    if |blocked| == 0 then [] else [Tick(blocked[0])] + TickAll(blocked[1..])
  }

  /** Every sleeper is counted down once and lands in exactly one of the
      two lists. */
  lemma {:induction false} WakePartition(blocked: seq<Thread>)
    ensures multiset(Wake(blocked).0) + multiset(Wake(blocked).1) == multiset(TickAll(blocked))
  {
    if |blocked| > 0 {
      WakePartition(blocked[1..]);
    }
  }

  /** The woken threads have a count of zero, the others a count that is
      not zero. */
  lemma {:induction false} WakeCounts(blocked: seq<Thread>)
    ensures forall t :: t in Wake(blocked).1 ==> t.blockedTicks == 0
    ensures forall t :: t in Wake(blocked).0 ==> t.blockedTicks != 0
  {
    if |blocked| > 0 {
      WakeCounts(blocked[1..]);
    }
  }

  /** `reduce_block_ticks`, walking the sleeping list in order: each woken
      thread is appended to the ready list, and a yield is requested when
      one of them outranks the running thread. */
  method ReduceBlockTicks(blocked: seq<Thread>, ready: seq<Thread>, running: Thread)
    returns (blocked': seq<Thread>, ready': seq<Thread>, yieldOnReturn: bool)
    ensures blocked' == Wake(blocked).0 && ready' == ready + Wake(blocked).1
    ensures yieldOnReturn <==> exists t :: t in Wake(blocked).1 && t.priority > running.priority
  {
    blocked', ready', yieldOnReturn := [], ready, false;
    var k := 0;
    while k < |blocked|
      invariant 0 <= k <= |blocked|
      invariant |ready| <= |ready'| && ready'[..|ready|] == ready
      invariant Wake(blocked).0 == blocked' + Wake(blocked[k..]).0
      invariant Wake(blocked).1 == ready'[|ready|..] + Wake(blocked[k..]).1
      invariant yieldOnReturn <==> exists t :: t in ready'[|ready|..] && t.priority > running.priority
    {
      assert blocked[k..][1..] == blocked[k + 1..];
      var (still, woken) := Wake(blocked[k + 1..]);
      var t := Tick(blocked[k]);
      ghost var wokenSoFar := ready'[|ready|..];
      if t.blockedTicks == 0 {
        ready' := ready' + [t];
        assert ready'[|ready|..] == wokenSoFar + [t];
        assert wokenSoFar + ([t] + woken) == ready'[|ready|..] + woken;
        yieldOnReturn := yieldOnReturn || t.priority > running.priority;
      } else {
        assert blocked' + ([t] + still) == (blocked' + [t]) + still;
        blocked' := blocked' + [t];
      }
      k := k + 1;
    }
    assert blocked[k..] == [];
    assert ready' == ready + ready'[|ready|..];
  }

  /** How a sleeper fares in `reduce_block_ticks`: counted down once, it
      wakes exactly when its count was 1 and otherwise stays asleep. */
  lemma {:induction false} WakeMembership(blocked: seq<Thread>, i: int)
    requires 0 <= i < |blocked|
    ensures blocked[i].blockedTicks == 1 ==> Tick(blocked[i]) in Wake(blocked).1
    ensures blocked[i].blockedTicks != 1 ==> Tick(blocked[i]) in Wake(blocked).0
  {
    if i > 0 {
      WakeMembership(blocked[1..], i - 1);
      assert blocked[1..][i - 1] == blocked[i];
    }
  }

  /** Every thread on the sleeping list has a positive count. */
  predicate Sleeping(blocked: seq<Thread>)
  {
    forall j :: 0 <= j < |blocked| ==> blocked[j].blockedTicks > 0
  }

  /** A tick keeps the counts of the threads left asleep positive, so a
      thread that sleeps for n ticks is woken by the n-th. */
  lemma {:induction false} WakeKeepsSleeping(blocked: seq<Thread>)
    requires Sleeping(blocked)
    ensures Sleeping(Wake(blocked).0)
  {
    if |blocked| > 0 {
      WakeKeepsSleeping(blocked[1..]);
    }
  }

  /** A thread on the sleeping list with a negative count is never woken:
      every tick leaves it asleep with a count that is still negative. */
  lemma {:induction false} NegativeNeverWakes(blocked: seq<Thread>, i: int)
    requires 0 <= i < |blocked| && blocked[i].blockedTicks < 0
    ensures Tick(blocked[i]) in Wake(blocked).0 && Tick(blocked[i]).blockedTicks < 0
  {
    WakeMembership(blocked, i);
  }

  /** `thread_sleep` as written: only a count of exactly zero returns at
      once; any other count, negative ones included, puts the running
      thread at the back of the sleeping list with that count. */
  function SleepAsWritten(blocked: seq<Thread>, cur: Thread, ticks: int): (r: seq<Thread>)
    ensures ticks == 0 ==> r == blocked
    ensures ticks != 0 ==> |r| == |blocked| + 1 && r[..|blocked|] == blocked && r[|blocked|].blockedTicks == ticks
  {
    if ticks == 0 then blocked else blocked + [cur.(blockedTicks := ticks)]
  }

  /** `thread_sleep (-1)` as written: the thread goes to sleep with count
      -1 and the next tick leaves it asleep with count -2, and so on for
      ever, where sleeping for a non-positive time should return at once. */
  lemma SleepNegativeHangs(cur: Thread)
    ensures var blocked := SleepAsWritten([], cur, -1);
            |blocked| == 1 && Tick(blocked[0]) in Wake(blocked).0
            && Wake(blocked).0 == [cur.(blockedTicks := -2)] && Wake(blocked).1 == []
  {
    NegativeNeverWakes(SleepAsWritten([], cur, -1), 0);
  }

  /** `thread_sleep` returning at once for every count that is not
      positive, so the sleeping list keeps only positive counts. */
  function Sleep(blocked: seq<Thread>, cur: Thread, ticks: int): (r: seq<Thread>)
    ensures Sleeping(blocked) ==> Sleeping(r)
    ensures ticks > 0 ==> r == blocked + [cur.(blockedTicks := ticks)]
    ensures ticks <= 0 ==> r == blocked
  {
    if ticks <= 0 then blocked else blocked + [cur.(blockedTicks := ticks)]
  }

  /** A thread that sleeps for n > 0 ticks is still asleep, with n - k
      ticks to go, after k < n ticks, and wakes on the n-th: over any
      sleeping list, a count of c + 1 becomes c and a count of 1 wakes. */
  lemma SleepWakesOnTime(blocked: seq<Thread>, cur: Thread, ticks: int)
    requires Sleeping(blocked) && ticks > 0
    ensures var b := Sleep(blocked, cur, ticks);
            Sleeping(Wake(b).0)
            && (ticks == 1 ==> cur.(blockedTicks := 0) in Wake(b).1)
            && (ticks > 1 ==> cur.(blockedTicks := ticks - 1) in Wake(b).0)
  {
    var b := Sleep(blocked, cur, ticks);
    WakeKeepsSleeping(b);
    WakeMembership(b, |blocked|);
  }

  /** `allocate_tid`: the identifier handed out and the counter after it. */
  function AllocateTid(next: int): (r: (int, int))
  {
    (next, next + 1)
  }

  /** The identifiers of n successive `allocate_tid` calls from counter
      `next`. */
  function Tids(next: int, n: nat): seq<int>
    decreases n
  {
    if n == 0 then [] else var (tid, next') := AllocateTid(next); [tid] + Tids(next', n - 1)
  }

  /** From the initial counter of 1, the k-th call returns k: identifiers
      are 1, 2, 3, ... and strictly increasing, so never repeat. */
  lemma {:induction false} TidsIncreasing(next: int, n: nat)
    decreases n
    ensures |Tids(next, n)| == n
    ensures forall i :: 0 <= i < n ==> Tids(next, n)[i] == next + i
    ensures forall i, j :: 0 <= i < j < n ==> Tids(next, n)[i] < Tids(next, n)[j]
  {
    if n > 0 {
      TidsIncreasing(next + 1, n - 1);
    }
  }

  /** `init_thread` followed by the tid `thread_create` assigns: the
      initial thread (no parent) starts at nice 0 and no CPU time, any
      other inherits both from the thread creating it; the priority is the
      one asked for, or under MLFQS the one the formula gives. */
  function InitThread(parent: Option<Thread>, tid: int, priority: int, mlfqs: bool): (t: Thread)
    requires PRI_MIN <= priority <= PRI_MAX
    ensures PRI_MIN <= t.priority <= PRI_MAX && t.nonDonated == t.priority
    ensures t.tid == tid && t.blockedTicks == 0
    ensures parent.None? ==> t.nice == 0 && t.recentCpu == 0
    ensures parent.Some? ==> t.nice == parent.value.nice && t.recentCpu == parent.value.recentCpu
    ensures !mlfqs ==> t.priority == priority
  {
    var nice := if parent.None? then 0 else parent.value.nice;
    var recentCpu := if parent.None? then 0 else parent.value.recentCpu;
    var p := if mlfqs then MlfqsPriority(recentCpu, nice) else priority;
    Thread(tid, p, p, nice, recentCpu, 0)
  }

  /** Under MLFQS the initial thread starts at the top priority. */
  lemma InitialThreadTop(tid: int, priority: int)
    requires PRI_MIN <= priority <= PRI_MAX
    ensures InitThread(None, tid, priority, true).priority == PRI_MAX
  {
    MlfqsAntitone(0, 0, 0, 0);
  }

  /** The once-a-second load update `59 * load / 60 + (2^14 / 60) *
      runnable`, where the running thread counts unless it is the idle
      thread. The load starts at 0 and never goes negative, so C's
      truncating division agrees with `/` here. */
  function LoadStep(load: int, readyCount: nat, runningNotIdle: bool): (r: int)
    requires load >= 0
    ensures r >= 0
  {
    (59 * load) / 60 + (F / 60) * (readyCount + if runningNotIdle then 1 else 0)
  }

  /** With n runnable threads the load moves toward 273 * 60 * n (the fixed
      point of the update with the truncated weight 2^14 / 60 = 273): below
      it the load stays below it, above it the load does not grow. */
  lemma LoadBounded(load: int, readyCount: nat, runningNotIdle: bool)
    requires load >= 0
    ensures var n := readyCount + if runningNotIdle then 1 else 0;
            var r := LoadStep(load, readyCount, runningNotIdle);
            (load <= 16380 * n ==> r <= 16380 * n) && (load >= 16380 * n ==> r <= load)
  {
    var n := readyCount + if runningNotIdle then 1 else 0;
    assert (59 * load) / 60 * 60 <= 59 * load;
  }

  /** `thread_get_load_avg` and `thread_get_recent_cpu`: a fixed-point
      value times 100, shifted back to an integer (rounding down). */
  function Report(x: int): (r: int)
    ensures r * F <= 100 * x < (r + 1) * F
  {
    (x * 100) / F
  }

  /** A whole number k in fixed point reports as 100 k. */
  lemma ReportWhole(k: int)
    ensures Report(k * F) == 100 * k
  {
    assert (k * F) * 100 == (100 * k) * F;
  }

  /** The decay factor `(load << 15) / ((load << 1) + 2^14)`, that is
      2 load / (2 load + 1) in fixed point: always below one. */
  function DecayCoefficient(load: int): (c: int)
    requires load >= 0
    ensures 0 <= c < F
  {
    var c := (load * 32768) / (load * 2 + F);
    assert load * 32768 < F * (load * 2 + F);
    c
  }

  /** The once-a-second recent_cpu update of one thread:
      `coefficient * (recent_cpu >> 14) + (nice << 14)`. */
  function DecayRecentCpu(t: Thread, coefficient: int): (r: Thread)
    ensures r == t.(recentCpu := r.recentCpu)
    ensures t.recentCpu >= 0 && 0 <= coefficient < F ==> r.recentCpu <= t.recentCpu + t.nice * F
  {
    var q := t.recentCpu / F;
    assert t.recentCpu >= 0 && 0 <= coefficient < F ==> coefficient * q <= F * q <= t.recentCpu;
    t.(recentCpu := coefficient * q + t.nice * F)
  }

  /** Who holds the CPU when the timer ticks. */
  datatype Holder = IdleThread | UserThread | KernelThread

  /** The recent_cpu charge of `thread_tick`: under MLFQS a kernel thread
      gains one (in fixed point) per tick; the idle thread and a thread
      with a user page directory are not charged. */
  function ChargeTick(t: Thread, holder: Holder, mlfqs: bool): (r: Thread)
    ensures r == t.(recentCpu := r.recentCpu)
    ensures r.recentCpu == t.recentCpu + (if holder == KernelThread && mlfqs then F else 0)
  {
    if holder == KernelThread && mlfqs then t.(recentCpu := t.recentCpu + F) else t
  }

  /** A charged tick never raises the thread's MLFQS priority, and an
      uncharged one leaves the thread as it was. */
  lemma ChargeNeverRaises(t: Thread, holder: Holder, mlfqs: bool)
    ensures var r := ChargeTick(t, holder, mlfqs);
            MlfqsPriority(r.recentCpu, r.nice) <= MlfqsPriority(t.recentCpu, t.nice)
    ensures !(holder == KernelThread && mlfqs) ==> ChargeTick(t, holder, mlfqs) == t
  {
    var r := ChargeTick(t, holder, mlfqs);
    MlfqsAntitone(t.recentCpu, t.nice, r.recentCpu, r.nice);
  }

  /** The end-of-slice MLFQS pass over every thread: each priority becomes
      the MLFQS priority of its recent_cpu and nice; nothing else changes,
      and the base priority is left alone. */
  function RecomputePriorities(all: seq<Thread>): (r: seq<Thread>)
    ensures |r| == |all|
    ensures forall i :: 0 <= i < |all| ==> r[i] == all[i].(priority := r[i].priority)
    ensures forall i :: 0 <= i < |all| ==> r[i].priority == MlfqsPriority(all[i].recentCpu, all[i].nice)
    ensures forall i :: 0 <= i < |all| ==> PRI_MIN <= r[i].priority <= PRI_MAX
  {
    seq(|all|, i requires 0 <= i < |all| => all[i].(priority := MlfqsPriority(all[i].recentCpu, all[i].nice)))
  }

  /** After the pass, a thread that has used no more CPU and is no nicer
      than another is not scheduled below it. */
  lemma RecomputeOrder(all: seq<Thread>, i: int, j: int)
    requires 0 <= i < |all| && 0 <= j < |all|
    requires all[i].recentCpu <= all[j].recentCpu && all[i].nice <= all[j].nice
    ensures RecomputePriorities(all)[j].priority <= RecomputePriorities(all)[i].priority
  {
    MlfqsAntitone(all[i].recentCpu, all[i].nice, all[j].recentCpu, all[j].nice);
  }
}

=== FILE: segment.dfy ===
/** Loading one PT_LOAD segment (src/userprog/process.c): `load` turns the
    program header into a page-aligned file offset, user page, and a count
    of bytes to read followed by a count of bytes to zero; `load_segment`
    then walks the range a page at a time. A page holding file bytes gets a
    frame filled from the file at once; a page with none is only recorded in
    the supplemental page table with `aux` -1, to be zero-filled on its
    first fault. */
module Segment {
  import opened Base
  import Page
  import Process

  const PGSIZE: int := 4096

  /** The `aux` value of a page still to be zero-filled: `(uint8_t *) -1`. */
  const ZERO_AUX: U32 := 0xFFFF_FFFF

  function RoundUp(x: nat): (r: nat)
    ensures r % PGSIZE == 0 && x <= r < x + PGSIZE
  {
    (x + PGSIZE - 1) / PGSIZE * PGSIZE
  }

  /** The arguments `load` passes to `load_segment`. */
  datatype Span = Span(filePage: U32, memPage: U32, readBytes: nat, zeroBytes: nat, writable: bool)

  /** The PT_LOAD branch of `load`, for a header `validate_segment`
      accepted. */
  function SplitSegment(p: Process.Phdr, fileLength: nat): (s: Span)
    requires fileLength < 0x8000_0000 && Process.ValidateSegment(p, fileLength)
    ensures s.filePage % PGSIZE == 0 && s.memPage % PGSIZE == 0
    ensures s.memPage <= p.vaddr < s.memPage + PGSIZE
    ensures (s.readBytes + s.zeroBytes) % PGSIZE == 0
    ensures s.readBytes + s.zeroBytes == RoundUp(p.vaddr % PGSIZE + p.memsz)
    ensures p.filesz == 0 ==> s.readBytes == 0
    ensures p.filesz > 0 ==> s.filePage + s.readBytes == p.offset + p.filesz
    ensures s.memPage + s.readBytes + s.zeroBytes >= p.vaddr + p.memsz
    ensures s.memPage + s.readBytes + s.zeroBytes <= Process.PHYS_BASE
    ensures s.writable <==> (p.flags / Process.PF_W) % 2 == 1
  {
    var pageOffset := p.vaddr % PGSIZE;
    var filePage := p.offset - p.offset % PGSIZE;
    var memPage := p.vaddr - pageOffset;
    var total := RoundUp(pageOffset + p.memsz);
    assert memPage + total <= Process.PHYS_BASE by {
      assert memPage + pageOffset + p.memsz < Process.PHYS_BASE;
      assert Process.PHYS_BASE % PGSIZE == 0;
      RoundUpBelow(memPage, pageOffset + p.memsz, Process.PHYS_BASE);
    }
    if p.filesz > 0 then
      Span(filePage, memPage, pageOffset + p.filesz, total - (pageOffset + p.filesz), (p.flags / Process.PF_W) % 2 == 1)
    else
      Span(filePage, memPage, 0, total, (p.flags / Process.PF_W) % 2 == 1)
  }

  /** Rounding up the length of a range that starts on a page boundary
      never runs past a page boundary the range stays below. */
  lemma RoundUpBelow(base: nat, x: nat, limit: nat)
    requires base % PGSIZE == 0 && limit % PGSIZE == 0 && base + x <= limit
    ensures base + RoundUp(x) <= limit
  {
    var q := (x + PGSIZE - 1) / PGSIZE;
    assert RoundUp(x) == q * PGSIZE;
    var lb := (limit - base) / PGSIZE;
    assert limit - base == lb * PGSIZE;
    assert q <= lb by {
      assert x + PGSIZE - 1 < (lb + 1) * PGSIZE;
    }
  }

  /** What `load_segment` does with one page. */
  datatype PageFill =
    | Filled(upage: U32, fileOfs: nat, readBytes: nat)  // a frame, `readBytes` from the file, the rest zeroed
    | Lazy(upage: U32)                                 // only a page-table record with aux -1

  /** The page-table key of a user page. */
  function Key(upage: U32): Page.VAddr
  {
    Page.VAddr(upage as bv32)
  }

  /** `load_segment`'s loop: one page per iteration, `min (read_bytes,
      PGSIZE)` file bytes read at the running file offset and the rest of
      the page zeroed; a page with no file bytes is recorded in the page
      table instead. Frames, file reads and page installation always
      succeed here. The pages are planned first and the table records
      made after, which the source interleaves; neither step looks at the
      other's result. */
  method LoadSegment(ofs: nat, upage: U32, readBytes: nat, zeroBytes: nat, pt: Page.PageTable)
    returns (pages: seq<PageFill>, pt': Page.PageTable)
    requires (readBytes + zeroBytes) % PGSIZE == 0 && upage % PGSIZE == 0 && ofs % PGSIZE == 0
    requires upage + readBytes + zeroBytes <= Process.PHYS_BASE
    ensures |pages| == (readBytes + zeroBytes) / PGSIZE
    ensures forall k :: 0 <= k < |pages| ==> pages[k].upage == upage + PGSIZE * k
    ensures forall k :: 0 <= k < |pages| && PGSIZE * k < readBytes ==>
              pages[k] == Filled(upage + PGSIZE * k, ofs + PGSIZE * k, Min(readBytes - PGSIZE * k, PGSIZE))
    ensures forall k :: 0 <= k < |pages| && PGSIZE * k >= readBytes ==> pages[k] == Lazy(upage + PGSIZE * k)
    ensures forall k :: 0 <= k < |pages| && pages[k].Lazy? ==> Key(pages[k].upage) in pt'
    ensures forall a :: a in pt ==> a in pt' && pt'[a] == pt[a]
    ensures forall a :: a in pt' && a !in pt ==> pt'[a] == ZERO_AUX
    ensures pt'.Keys == pt.Keys + LazyKeys(pages, |pages|)
  {
    pages := PlanPages(ofs, upage, readBytes, zeroBytes);
    pt' := RecordLazy(pages, pt);
  }

  /** The page-by-page walk of `load_segment`, counting `read_bytes` and
      `zero_bytes` down a page at a time. */
  method PlanPages(ofs: nat, upage: U32, readBytes: nat, zeroBytes: nat) returns (pages: seq<PageFill>)
    requires (readBytes + zeroBytes) % PGSIZE == 0 && upage % PGSIZE == 0 && ofs % PGSIZE == 0
    requires upage + readBytes + zeroBytes <= Process.PHYS_BASE
    ensures |pages| == (readBytes + zeroBytes) / PGSIZE
    ensures forall k :: 0 <= k < |pages| ==> pages[k].upage == upage + PGSIZE * k
    ensures forall k :: 0 <= k < |pages| && PGSIZE * k < readBytes ==>
              pages[k] == Filled(upage + PGSIZE * k, ofs + PGSIZE * k, Min(readBytes - PGSIZE * k, PGSIZE))
    ensures forall k :: 0 <= k < |pages| && PGSIZE * k >= readBytes ==> pages[k] == Lazy(upage + PGSIZE * k)
  {
    var read, zero, page, fileOfs := readBytes, zeroBytes, upage, ofs;
    pages := [];
    while read > 0 || zero > 0
      invariant read + zero == readBytes + zeroBytes - PGSIZE * |pages|
      invariant (read + zero) % PGSIZE == 0 && zero >= 0
      invariant page == upage + PGSIZE * |pages| && fileOfs == ofs + readBytes - read
      invariant read == if readBytes > PGSIZE * |pages| then readBytes - PGSIZE * |pages| else 0
      invariant forall k :: 0 <= k < |pages| ==> pages[k].upage == upage + PGSIZE * k
      invariant forall k :: 0 <= k < |pages| && PGSIZE * k < readBytes ==>
                  pages[k] == Filled(upage + PGSIZE * k, ofs + PGSIZE * k, Min(readBytes - PGSIZE * k, PGSIZE))
      invariant forall k :: 0 <= k < |pages| && PGSIZE * k >= readBytes ==> pages[k] == Lazy(upage + PGSIZE * k)
      decreases read + zero
    {
      var pageRead := Min(read, PGSIZE);
      var pageZero := PGSIZE - pageRead;
      var fill;
      if pageRead > 0 {
        assert fileOfs == ofs + PGSIZE * |pages|;
        fill := Filled(page, fileOfs, pageRead);
      } else {
        fill := Lazy(page);
      }
      pages := pages + [fill];
      read, zero := read - pageRead, zero - pageZero;
      page, fileOfs := page + PGSIZE, fileOfs + pageRead;
    }
    assert readBytes + zeroBytes == PGSIZE * |pages|;
  }

  /** The page-table keys of the lazy pages among the first `n`. */
  function LazyKeys(pages: seq<PageFill>, n: nat): set<Page.VAddr>
    requires n <= |pages|
  {
    set j | 0 <= j < n && pages[j].Lazy? :: Key(pages[j].upage)
  }

  /** The table after recording the first `k` pages: the old records
      unchanged, a record with `aux` -1 for each lazy page, and nothing
      else. */
  predicate RecordedUpTo(pages: seq<PageFill>, pt: Page.PageTable, cur: Page.PageTable, k: nat)
    requires k <= |pages|
  {
    (forall j :: 0 <= j < k && pages[j].Lazy? ==> Key(pages[j].upage) in cur)
    && (forall a :: a in pt ==> a in cur && cur[a] == pt[a])
    && (forall a :: a in cur && a !in pt ==> cur[a] == ZERO_AUX)
    && cur.Keys == pt.Keys + LazyKeys(pages, k)
  }

  /** One iteration of the recording loop keeps the above. */
  lemma RecordStep(pages: seq<PageFill>, pt: Page.PageTable, cur: Page.PageTable, k: nat)
    requires k < |pages| && RecordedUpTo(pages, pt, cur, k)
    ensures RecordedUpTo(pages, pt, RecordOne(cur, pages[k]), k + 1)
  {
    var next := RecordOne(cur, pages[k]);
    if pages[k].Lazy? {
      assert Key(pages[k].upage) in LazyKeys(pages, k + 1);
      assert LazyKeys(pages, k + 1) == LazyKeys(pages, k) + {Key(pages[k].upage)};
    } else {
      assert LazyKeys(pages, k + 1) == LazyKeys(pages, k);
    }
  }

  /** The record `load_segment` makes for one page, if any. */
  function RecordOne(pt: Page.PageTable, p: PageFill): Page.PageTable
  {
    if p.Lazy? then Page.PageTableInsert(pt, Key(p.upage), ZERO_AUX).1 else pt
  }

  /** The page-table records of the pages left for lazy loading, each
      with `aux` -1; records already in the table stay as they are. */
  method RecordLazy(pages: seq<PageFill>, pt: Page.PageTable) returns (pt': Page.PageTable)
    ensures forall k :: 0 <= k < |pages| && pages[k].Lazy? ==> Key(pages[k].upage) in pt'
    ensures forall a :: a in pt ==> a in pt' && pt'[a] == pt[a]
    ensures forall a :: a in pt' && a !in pt ==> pt'[a] == ZERO_AUX
    ensures pt'.Keys == pt.Keys + LazyKeys(pages, |pages|)
  {
    pt' := pt;
    for k := 0 to |pages|
      invariant RecordedUpTo(pages, pt, pt', k)
    {
      RecordStep(pages, pt, pt', k);
      pt' := RecordOne(pt', pages[k]);
    }
  }
}

=== FILE: stack.dfy ===
/** The initial user stack `setup_stack` builds in src/userprog/process.c,
    as the bytes between the final stack pointer and PHYS_BASE. From the
    top down: the argument strings, last argument highest; zero bytes down
    to a word boundary; the pointers `argv[argc]` (NULL), `argv[argc-1]`,
    ..., `argv[0]`; `argv` itself; `argc`; and a NULL return address. */
module UserStack {
  import opened Base
  import Tokens
  import Process

  const PGSIZE: int := 4096

  /** The bytes the copy of one argument leaves in the `|arg| + 1` bytes
      reserved for it: `strlcpy` with a bound of MAX_ARGV_LEN copies at most
      127 bytes and a NUL. The bytes after that NUL in a longer argument's
      slot keep what the page held before, zero for a fresh page. */
  function ArgBytes(arg: seq<Byte>): (bs: seq<Byte>)
    ensures |bs| == |arg| + 1
  {
    var n := Kept(arg);
    arg[..n] + [0] + Zeros(|arg| - n)
  }

  /** How many bytes of an argument survive the copy. */
  function Kept(arg: seq<Byte>): (n: nat)
    ensures n <= |arg| && n < Process.MAX_ARGV_LEN
    ensures |arg| < Process.MAX_ARGV_LEN ==> n == |arg|
  {
    Min(|arg|, Process.MAX_ARGV_LEN - 1)
  }

  /** The string area, lowest address first: `argv[0]` lies lowest because
      the arguments are pushed from the last to the first. */
  function Strings(argv: seq<seq<Byte>>): (bs: seq<Byte>)
    ensures |bs| == Tokens.TotalLength(argv) + |argv|
  {
    if |argv| == 0 then [] else ArgBytes(argv[0]) + Strings(argv[1..])
  }

  /** Zero bytes pushed until the stack pointer is word-aligned again. */
  function Padding(strings: nat): (pad: nat)
    ensures pad < 4 && (strings + pad) % 4 == 0
  {
    if strings % 4 == 0 then 0 else 4 - strings % 4
  }

  /** Bytes from the final stack pointer up to PHYS_BASE. */
  function StackSize(argv: seq<seq<Byte>>): nat
  {
    4 * (|argv| + 4) + Padding(|Strings(argv)|) + |Strings(argv)|
  }

  /** The stack pointer left in `*esp`. */
  function FinalEsp(argv: seq<seq<Byte>>): (esp: U32)
    requires StackSize(argv) <= PGSIZE
    ensures esp + StackSize(argv) == Process.PHYS_BASE && esp % 4 == 0
  {
    Process.PHYS_BASE - StackSize(argv)
  }

  /** Where argument i starts: its slot sits above those of arguments
      0 .. i-1 in the string area. */
  function ArgAddr(argv: seq<seq<Byte>>, i: nat): (a: U32)
    requires StackSize(argv) <= PGSIZE && i <= |argv|
  {
    var _ := if i < |argv| then StringsSplit(argv, i); 0 else assert argv[..i] == argv; 0;
    Process.PHYS_BASE - |Strings(argv)| + |Strings(argv[..i])|
  }

  /** The words at the bottom of the stack, lowest first: return address,
      `argc`, `argv`, then the argument pointers and the NULL that ends
      them. */
  function Frame(argv: seq<seq<Byte>>): (ws: seq<U32>)
    requires StackSize(argv) <= PGSIZE
    ensures |ws| == |argv| + 4
  {
    [0, |argv|, FinalEsp(argv) + 12]
    + seq(|argv|, i requires 0 <= i < |argv| => ArgAddr(argv, i))
    + [0]
  }

  /** `setup_stack` after its page is installed: the stack pointer and the
      bytes from it up to PHYS_BASE. The argument vector must fit the one
      page the function maps. */
  function SetupStack(argv: seq<seq<Byte>>): (r: (U32, seq<Byte>))
    requires StackSize(argv) <= PGSIZE
    ensures r.0 == FinalEsp(argv) && r.0 % 4 == 0
    ensures r.0 + |r.1| == Process.PHYS_BASE
  {
    (FinalEsp(argv), EncodeWords(Frame(argv)) + Zeros(Padding(|Strings(argv)|)) + Strings(argv))
  }

  /** The C string a program reads at offset `at` of the stack bytes: the
      bytes up to the first NUL. */
  function CStringAt(bs: seq<Byte>, at: nat): seq<Byte>
    requires at <= |bs|
  {
    bs[at..][..Tokens.RunLength(bs[at..], 0)]
  }

  /** The string area splits around the slot of argument i. */
  lemma {:induction false} StringsSplit(argv: seq<seq<Byte>>, i: nat)
    requires i < |argv|
    ensures Strings(argv) == Strings(argv[..i]) + (ArgBytes(argv[i]) + Strings(argv[i + 1..]))
  {
    if i == 0 {
      assert argv[..0] == [];
    } else {
      var t := argv[1..];
      StringsSplit(t, i - 1);
      TailSlices(argv, i);
      var a, b, c := ArgBytes(argv[0]), Strings(t[..i - 1]), ArgBytes(argv[i]) + Strings(argv[i + 1..]);
      assert Strings(t) == b + c;
      assert Strings(argv[..i]) == a + b;
      Associative(a, b, c);
    }
  }

  lemma Associative<T>(a: seq<T>, b: seq<T>, c: seq<T>)
    ensures a + (b + c) == (a + b) + c
  {
  }

  lemma TailSlices<T>(s: seq<T>, i: nat)
    requires 0 < i < |s|
    ensures s[1..][i - 1] == s[i] && s[1..][i..] == s[i + 1..]
    ensures s[..i][0] == s[0] && s[..i][1..] == s[1..][..i - 1]
  {
  }

  /** A word inside the leading word array is read back unchanged. */
  lemma WordOfPrefix(ws: seq<U32>, rest: seq<Byte>, j: nat)
    requires j < |ws|
    ensures WordAt(EncodeWords(ws) + rest, j) == ws[j]
  {
    WordAtPrefix(EncodeWords(ws), rest, j);
    WordAtEncodeWords(ws, j);
  }

  /** The frame a cdecl `main (argc, argv)` expects: above the stack
      pointer lie a NULL return address, `argc`, and `argv` pointing at the
      next word; from there word i is the address of argument i and word
      `argc` is NULL. */
  lemma StackFrame(argv: seq<seq<Byte>>)
    requires StackSize(argv) <= PGSIZE
    ensures var (esp, bs) := SetupStack(argv);
            WordAt(bs, 0) == 0 && WordAt(bs, 1) == |argv| && WordAt(bs, 2) == esp + 12
            && WordAt(bs, 3 + |argv|) == 0
            && forall i :: 0 <= i < |argv| ==> WordAt(bs, 3 + i) == ArgAddr(argv, i)
  {
    var ws := Frame(argv);
    var rest := Zeros(Padding(|Strings(argv)|)) + Strings(argv);
    assert SetupStack(argv).1 == EncodeWords(ws) + rest;
    WordOfPrefix(ws, rest, 0);
    WordOfPrefix(ws, rest, 1);
    WordOfPrefix(ws, rest, 2);
    WordOfPrefix(ws, rest, 3 + |argv|);
    forall i | 0 <= i < |argv|
      ensures WordAt(EncodeWords(ws) + rest, 3 + i) == ArgAddr(argv, i)
    {
      WordOfPrefix(ws, rest, 3 + i);
    }
  }

  /** Every argument pointer points into the stack bytes, above the frame
      and padding. */
  lemma ArgAddrInside(argv: seq<seq<Byte>>, i: nat)
    requires StackSize(argv) <= PGSIZE && i < |argv|
    ensures var at := ArgAddr(argv, i) - FinalEsp(argv);
            at == 4 * (|argv| + 4) + Padding(|Strings(argv)|) + |Strings(argv[..i])|
            && at + |argv[i]| + 1 <= StackSize(argv)
  {
    StringsSplit(argv, i);
  }

  /** From the address of argument i upward the stack holds that
      argument's slot and then the slots of the arguments after it. */
  lemma SlotAt(argv: seq<seq<Byte>>, i: nat)
    requires StackSize(argv) <= PGSIZE && i < |argv|
    ensures var (esp, bs) := SetupStack(argv);
            ArgAddr(argv, i) - esp <= |bs|
            && bs[ArgAddr(argv, i) - esp..] == ArgBytes(argv[i]) + Strings(argv[i + 1..])
  {
    var bs := SetupStack(argv).1;
    var head := EncodeWords(Frame(argv)) + Zeros(Padding(|Strings(argv)|));
    var before := Strings(argv[..i]);
    var after := ArgBytes(argv[i]) + Strings(argv[i + 1..]);
    StringsSplit(argv, i);
    ArgAddrInside(argv, i);
    assert bs == (head + before) + after;
    assert ArgAddr(argv, i) - FinalEsp(argv) == |head + before|;
  }

  /** A NUL-free argument reads back from its slot, whatever follows the
      slot, cut to the bytes the copy keeps. */
  lemma SlotReadBack(arg: seq<Byte>, tail: seq<Byte>)
    requires Process.CString(arg)
    ensures var bs := ArgBytes(arg) + tail;
            bs[..Tokens.RunLength(bs, 0)] == arg[..Kept(arg)]
  {
    var n := Kept(arg);
    var after := [0] + Zeros(|arg| - n) + tail;
    assert ArgBytes(arg) + tail == arg[..n] + after;
    assert 0 !in arg[..n] by {
      forall j | 0 <= j < n
        ensures arg[..n][j] != 0
      {
        assert arg[j] != 0;
      }
    }
    Tokens.RunLengthOfPrefix(arg[..n], after, 0);
  }

  /** Reading argument i back as a C string from the address the stack
      holds for it gives the argument, cut to the 127 bytes the copy keeps:
      the stack round-trips every argument shorter than MAX_ARGV_LEN. */
  lemma ArgReadBack(argv: seq<seq<Byte>>, i: nat)
    requires StackSize(argv) <= PGSIZE && i < |argv|
    requires Process.CString(argv[i])
    ensures var (esp, bs) := SetupStack(argv);
            ArgAddr(argv, i) - esp <= |bs|
            && CStringAt(bs, ArgAddr(argv, i) - esp) == argv[i][..Kept(argv[i])]
  {
    SlotAt(argv, i);
    SlotReadBack(argv[i], Strings(argv[i + 1..]));
  }
}

=== FILE: swap.dfy ===
/** The swap-slot table of src/vm/swap.c. The swap device is cut into
    page-sized slots; slot i covers the eight 512-byte sectors starting at
    sector 8 * i. The table records for each slot NULL (free), -1 (reserved
    by `swap_alloc`, not yet written) or the thread whose page it holds. */
module Swap {
  import opened Base
  import opened Disk

  const PGSIZE: int := 4096
  const SECTORS_PER_PAGE: int := 8

  /** Slots the 32-bit index arithmetic can address: `swap_index * PGSIZE`
      stays below 2^32. */
  const MAX_SLOTS: int := 0x10_0000

  /** A thread, named by an identity that is neither NULL nor -1. */
  type Thread = nat

  datatype Slot = Free | Reserved | Owned(t: Thread)

  type SwapTable = seq<Slot>

  /** First sector of slot i: `swap_index * PGSIZE / BLOCK_SECTOR_SIZE`. */
  function SlotSector(i: nat): (s: nat)
    requires i < MAX_SLOTS
    ensures s == SECTORS_PER_PAGE * i && s + SECTORS_PER_PAGE <= 0x1_0000_0000
  {
    i * PGSIZE / SECTOR_SIZE
  }

  /** Index of the lowest free slot at or after `from`. */
  function LowestFree(table: SwapTable, from: nat): (r: Option<nat>)
    requires from <= |table|
    ensures r.Some? ==> from <= r.value < |table| && table[r.value] == Free
    ensures r.Some? ==> forall j :: from <= j < r.value ==> table[j] != Free
    ensures r.None? <==> forall j :: from <= j < |table| ==> table[j] != Free
    decreases |table| - from
  {
    if from == |table| then None
    else if table[from] == Free then Some(from)
    else LowestFree(table, from + 1)
  }

  /** `swap_alloc`: scans for the first free slot and reserves it, or
      returns -1 with the table unchanged. */
  method SwapAlloc(table: SwapTable) returns (i: int, table': SwapTable)
    ensures i == -1 <==> LowestFree(table, 0).None?
    ensures i == -1 ==> table' == table
    ensures i != -1 ==> 0 <= i < |table| && LowestFree(table, 0) == Some(i)
                        && table' == table[i := Reserved]
  {
    i := 0;
    while i < |table|
      invariant 0 <= i <= |table|
      invariant LowestFree(table, 0) == LowestFree(table, i)
    {
      if table[i] == Free {
        break;
      }
      i := i + 1;
    }
    if i < |table| {
      table' := table[i := Reserved];
    } else {
      i, table' := -1, table;
    }
  }

  /** `swap_out`: the reserved slot becomes the thread's, and the page's
      eight 512-byte pieces are written to the slot's sectors in order. */
  method SwapOut(table: SwapTable, dev: Store, page: seq<Byte>, index: nat, t: Thread)
    returns (table': SwapTable, dev': Store)
    requires |page| == PGSIZE && index < |table| <= MAX_SLOTS && table[index] == Reserved
    ensures table' == table[index := Owned(t)]
    ensures forall k :: 0 <= k < SECTORS_PER_PAGE ==>
              ReadSector(dev', SlotSector(index) + k) == page[SECTOR_SIZE * k .. SECTOR_SIZE * (k + 1)]
    ensures forall s: Sector :: !(SlotSector(index) <= s < SlotSector(index) + SECTORS_PER_PAGE) ==>
              ReadSector(dev', s) == ReadSector(dev, s)
  {
    table' := table[index := Owned(t)];
    var write := 0;
    var sector := SlotSector(index);
    dev' := dev;
    while write < PGSIZE
      invariant 0 <= write <= PGSIZE && write % SECTOR_SIZE == 0
      invariant sector == SlotSector(index) + write / SECTOR_SIZE
      invariant forall k :: 0 <= k < write / SECTOR_SIZE ==>
                  ReadSector(dev', SlotSector(index) + k) == page[SECTOR_SIZE * k .. SECTOR_SIZE * (k + 1)]
      invariant forall s: Sector :: !(SlotSector(index) <= s < sector) ==> ReadSector(dev', s) == ReadSector(dev, s)
    {
      dev' := WriteBlock(dev', sector, page[write .. write + SECTOR_SIZE]);
      write := write + SECTOR_SIZE;
      sector := sector + 1;
    }
  }

  /** `swap_in`: the slot must belong to the calling thread; its eight
      sectors are read back in order into the page and the slot is freed. */
  method SwapIn(table: SwapTable, dev: Store, index: nat, cur: Thread)
    returns (page: seq<Byte>, table': SwapTable)
    requires index < |table| <= MAX_SLOTS && table[index] == Owned(cur)
    ensures |page| == PGSIZE
    ensures forall k :: 0 <= k < SECTORS_PER_PAGE ==>
              page[SECTOR_SIZE * k .. SECTOR_SIZE * (k + 1)] == ReadSector(dev, SlotSector(index) + k)
    ensures table' == table[index := Free]
  {
    var read := 0;
    var sector := SlotSector(index);
    page := [];
    while read < PGSIZE
      invariant 0 <= read <= PGSIZE && read % SECTOR_SIZE == 0 && |page| == read
      invariant sector == SlotSector(index) + read / SECTOR_SIZE
      invariant forall k :: 0 <= k < read / SECTOR_SIZE ==>
                  page[SECTOR_SIZE * k .. SECTOR_SIZE * (k + 1)] == ReadSector(dev, SlotSector(index) + k)
    {
      var piece := ReadSector(dev, sector);
      Extend(page, piece, read / SECTOR_SIZE);
      page := page + piece;
      read := read + SECTOR_SIZE;
      sector := sector + 1;
    }
    table' := table[index := Free];
  }

  /** Appending a 512-byte piece keeps the earlier pieces. */
  lemma Extend(page: seq<Byte>, piece: seq<Byte>, n: nat)
    requires |page| == SECTOR_SIZE * n && |piece| == SECTOR_SIZE
    ensures forall k :: 0 <= k < n ==>
              (page + piece)[SECTOR_SIZE * k .. SECTOR_SIZE * (k + 1)] == page[SECTOR_SIZE * k .. SECTOR_SIZE * (k + 1)]
    ensures (page + piece)[SECTOR_SIZE * n .. SECTOR_SIZE * (n + 1)] == piece
  {
    forall k | 0 <= k < n
      ensures (page + piece)[SECTOR_SIZE * k .. SECTOR_SIZE * (k + 1)] == page[SECTOR_SIZE * k .. SECTOR_SIZE * (k + 1)]
    {
      assert SECTOR_SIZE * (k + 1) <= SECTOR_SIZE * n;
    }
  }

  /** Two pages that agree piece by piece are equal. */
  lemma Pieces(a: seq<Byte>, b: seq<Byte>)
    requires |a| == |b| == PGSIZE
    requires forall k :: 0 <= k < SECTORS_PER_PAGE ==>
               a[SECTOR_SIZE * k .. SECTOR_SIZE * (k + 1)] == b[SECTOR_SIZE * k .. SECTOR_SIZE * (k + 1)]
    ensures a == b
  {
    forall i | 0 <= i < PGSIZE
      ensures a[i] == b[i]
    {
      var k := i / SECTOR_SIZE;
      assert a[SECTOR_SIZE * k .. SECTOR_SIZE * (k + 1)][i - SECTOR_SIZE * k] == a[i];
      assert b[SECTOR_SIZE * k .. SECTOR_SIZE * (k + 1)][i - SECTOR_SIZE * k] == b[i];
    }
  }

  /** `swap_free`: every slot the thread owns becomes free; every other
      slot keeps its state. */
  method SwapFree(table: SwapTable, t: Thread) returns (table': SwapTable)
    ensures |table'| == |table|
    ensures forall i :: 0 <= i < |table| ==> table'[i] == if table[i] == Owned(t) then Free else table[i]
    ensures forall i :: 0 <= i < |table'| ==> table'[i] != Owned(t)
  {
    table' := table;
    var i := 0;
    while i < |table|
      invariant 0 <= i <= |table| && |table'| == |table|
      invariant forall j :: 0 <= j < i ==> table'[j] == if table[j] == Owned(t) then Free else table[j]
      invariant forall j :: i <= j < |table| ==> table'[j] == table[j]
    {
      if table'[i] == Owned(t) {
        table' := table'[i := Free];
      }
      i := i + 1;
    }
  }

  /** A page written out to a slot and read back by its owner is the same
      page, and the slot is free again: reserving, writing and reading back
      leaves the table as it was. */
  method SwapRoundTrip(table: SwapTable, dev: Store, page: seq<Byte>, t: Thread)
    returns (slot: int, back: seq<Byte>, table': SwapTable)
    requires |page| == PGSIZE && |table| <= MAX_SLOTS
    ensures slot == -1 <==> LowestFree(table, 0).None?
    ensures slot != -1 ==> back == page && table' == table
  {
    var t1;
    slot, t1 := SwapAlloc(table);
    if slot == -1 {
      return slot, [], table;
    }
    var t2, dev2 := SwapOut(t1, dev, page, slot, t);
    back, table' := SwapIn(t2, dev2, slot, t);
    Pieces(back, page);
    assert table' == table[slot := Free];
    assert table[slot] == Free;
  }
}

=== FILE: tokens.dfy ===
/** The `strtok_r` loop shared by path resolution (`/`-separated components)
    and command-line parsing (space-separated arguments): a string is cut at
    every separator and the empty pieces between adjacent separators are
    dropped. */
module Tokens {

  /** Length of the longest separator-free prefix of `s`. */
  function RunLength<T(==)>(s: seq<T>, sep: T): (n: nat)
    ensures n <= |s|
    ensures forall i :: 0 <= i < n ==> s[i] != sep
    ensures n < |s| ==> s[n] == sep
  {
    if |s| == 0 || s[0] == sep then 0 else 1 + RunLength(s[1..], sep)
  }

  /** The tokens `strtok_r` returns, in order. */
  function Split<T(==)>(s: seq<T>, sep: T): (ts: seq<seq<T>>)
    ensures forall i :: 0 <= i < |ts| ==> |ts[i]| > 0 && sep !in ts[i]
    ensures |s| == 0 ==> ts == []
    decreases |s|
  {
    if |s| == 0 then []
    else if s[0] == sep then Split(s[1..], sep)
    else
      var n := RunLength(s, sep);
      [s[..n]] + Split(s[n..], sep)
  }

  /** Tokens written back with one separator between neighbours. */
  function Join<T>(ts: seq<seq<T>>, sep: T): seq<T>
  {
    if |ts| == 0 then []
    else if |ts| == 1 then ts[0]
    else ts[0] + [sep] + Join(ts[1..], sep)
  }

  predicate IsToken<T(==)>(t: seq<T>, sep: T)
  {
    |t| > 0 && sep !in t
  }

  lemma {:induction false} RunLengthOfPrefix<T>(a: seq<T>, b: seq<T>, sep: T)
    requires sep !in a
    requires |b| == 0 || b[0] == sep
    ensures RunLength(a + b, sep) == |a|
  {
    if |a| > 0 {
      assert (a + b)[1..] == a[1..] + b;
      RunLengthOfPrefix(a[1..], b, sep);
    }
  }

  /** Splitting undoes joining: tokens survive a round trip through the
      separated string. */
  lemma {:induction false} SplitJoin<T>(ts: seq<seq<T>>, sep: T)
    requires forall i :: 0 <= i < |ts| ==> IsToken(ts[i], sep)
    ensures Split(Join(ts, sep), sep) == ts
  {
    if |ts| == 0 {
    } else if |ts| == 1 {
      var t := ts[0];
      assert IsToken(t, sep);
      RunLengthOfPrefix(t, [], sep);
      assert t + [] == t;
      assert t[|t|..] == [];
      assert t[..|t|] == t;
    } else {
      var t := ts[0];
      assert IsToken(t, sep);
      var rest := Join(ts[1..], sep);
      var s := Join(ts, sep);
      assert s == t + ([sep] + rest);
      RunLengthOfPrefix(t, [sep] + rest, sep);
      assert s[..|t|] == t;
      assert s[|t|..] == [sep] + rest;
      assert ([sep] + rest)[1..] == rest;
      SplitJoin(ts[1..], sep);
      assert Split(s, sep) == [t] + Split(s[|t|..], sep);
      assert Split(s[|t|..], sep) == Split(rest, sep);
    }
  }

  /** Leading separators never change the token list: `/a/b` and `a/b`
      have the same components. */
  lemma LeadingSeparator<T>(s: seq<T>, sep: T)
    ensures Split([sep] + s, sep) == Split(s, sep)
  {
    assert ([sep] + s)[1..] == s;
  }

  /** The input with every separator removed. */
  function Strip<T(==)>(s: seq<T>, sep: T): seq<T>
  {
    if |s| == 0 then [] else (if s[0] == sep then [] else [s[0]]) + Strip(s[1..], sep)
  }

  /** The tokens written back to back, with nothing between them. */
  function Concat<T>(ts: seq<seq<T>>): seq<T>
  {
    if |ts| == 0 then [] else ts[0] + Concat(ts[1..])
  }

  function TotalLength<T>(ts: seq<seq<T>>): nat
  {
    if |ts| == 0 then 0 else |ts[0]| + TotalLength(ts[1..])
  }

  lemma {:induction false} StripAppend<T>(a: seq<T>, b: seq<T>, sep: T)
    ensures Strip(a + b, sep) == Strip(a, sep) + Strip(b, sep)
  {
    if |a| == 0 {
      assert a + b == b;
    } else {
      assert (a + b)[1..] == a[1..] + b;
      StripAppend(a[1..], b, sep);
    }
  }

  /** A separator-free run survives stripping unchanged. */
  lemma {:induction false} StripRun<T>(s: seq<T>, sep: T)
    ensures Strip(s[..RunLength(s, sep)], sep) == s[..RunLength(s, sep)]
  {
    var n := RunLength(s, sep);
    if n > 0 {
      assert s[..n][1..] == s[1..][..n - 1];
      StripRun(s[1..], sep);
      assert s[..n] == [s[0]] + s[1..][..n - 1];
    }
  }

  /** No element other than a separator is lost or reordered: the tokens,
      written back to back, are exactly the input with its separators
      removed. */
  lemma {:induction false} SplitKeepsPayload<T>(s: seq<T>, sep: T)
    ensures Concat(Split(s, sep)) == Strip(s, sep)
    decreases |s|
  {
    if |s| == 0 {
    } else if s[0] == sep {
      SplitKeepsPayload(s[1..], sep);
    } else {
      var n := RunLength(s, sep);
      var ts := Split(s, sep);
      assert ts == [s[..n]] + Split(s[n..], sep);
      assert ts[1..] == Split(s[n..], sep);
      SplitKeepsPayload(s[n..], sep);
      assert s == s[..n] + s[n..];
      StripAppend(s[..n], s[n..], sep);
      StripRun(s, sep);
    }
  }
}
